=== FILE: README.md ===
# Inertia grid game: board engine and computer opponent

This project models the core of a two-player grid game in Dafny. A human and a
computer piece take turns sliding in one of eight compass directions. A slide
goes on until the next cell is off the board or a wall, or the piece lands on a
mine or a stop marker. Gems and shields passed on the way are collected. A mine
costs a shield, or ends the game when the mover holds none. The game ends when no
gem is left, or when neither player has a safe move.

Three parts of the source are modelled:

- **The compass** (`Direction.java`): the eight unit deltas in enumeration order,
  and the click-to-direction mapping by signs.
- **The board engine** (`BoardModel.java`):
  - board generation: wall ring, safety zones, probability bands and shield quota;
  - breadth-first gem pruning over the slide graph;
  - the slide, the move with its shield break;
  - the safe-move test and the end-of-game check.
- **The opponent** (`Greedy.java`):
  - the quadtree region analysis and its best and worst leaves;
  - the shared scoring helpers;
  - the easy player (a halving argmax over the directions);
  - the medium player (a depth-4 grouped gem search ranked by a lexicographic
    comparison);
  - the hard player (a depth-4 decision tree evaluated with a 0.9 discount).

The board is an immutable value: a `seq<seq<Cell>>` grid, two player records, the
game-over flag and its message. Every operation is a pure function. The opponent
only ever simulates slides without consuming items, so it is a function of the
board.

Each operation is connected to an independent description by a lemma:

- The stepping loop of a slide is shown equal to a closed description by step
  count (`Slides.SlideMeetsSpec`, `Slides.IsSlideUnique`).
- The pruning search is shown to reach the least set of cells closed under
  mine-free slides. A gem survives pruning exactly when a mine-free slide from a
  reached cell passes over it, and pruning is idempotent.
- The easy player's halving pass is shown equal to a left-to-right scan for the
  first maximum.
- The medium player's grouped search is shown equal to one left-to-right scan over
  the valid directions laid out group by group. Its result is the best-ranked
  candidate, and a path of valid slides backs it. Conversely, every such path that
  fits in the remaining moves is found, and it ranks no higher than the result.
- The hard player's tree is shown to weigh every move. Each valid move to an
  unvisited cell yields a subtree, and some child is worth at least as much on its
  own value. With at most two valid moves that subtree is itself a child, and every
  child is the subtree of its own move.
- The hard player's evaluation is shown to be the move value plus the discounted
  maximum over the children. Its recommendation is the move of the first best
  child.

### Behaviour of the code that may surprise

- **Final tie of the medium ranking.** `Greedy.java:522` breaks the last tie toward
  the smaller region bonus (`MediumTier.Compare`).
- **Mine-hitting probes in pruning.** The `continue` at `BoardModel.java:106` comes
  before the marking at `:111`, so a probe that hits a mine marks nothing, not even
  the gems it passed on the way (`Pruning.ExpandMarks`).
- **Hard player with a childless root.** `Greedy.java:407-408` returns the root's
  missing direction. The easy-player fallback at `:315` is never taken, because the
  evaluation never comes back empty. `HardTier.PlayHard` returns no direction exactly
  when no move is valid.
- **Gem reachability after generation.** Pruning (`BoardModel.java:93-120`) keeps a
  gem exactly when it lies on the ray of a mine-free slide from a cell reachable
  from the human's start; the gem's own cell need not be a slide's end
  (`Generation.InitGemsReachable`).
- **The medium search's visited key** pairs the end cell with the shields held
  before the move, not with the shields after it (`Greedy.java:277`).
- **Shields in the safety zones.** The top-up loop may put a shield inside a
  safety zone or on a start cell, so only walls, gems, stop markers and mines are
  kept out of the zones (`Generation.InitSound`).
- **The region bonus never fires on the game's board.** The flat quadrant index of
  a position is 1 to 4 (`Greedy.java:509-517`). Leaf indices of a fully split
  three-level quadtree lie in 21 to 84. So on a board that splits fully, such as the
  12 × 12 board the game opens (`InertiaGameFrame.java:19`), the bonus is zero
  everywhere (`Regions.BonusVanishesOnDeepBoards`,
  `Regions.TwelveByTwelveSplitsFully`).
- **The safe-move test ignores pickups.** It judges a mine by the shields held
  before the move. A real move also counts the shields picked up on the way, so
  the test can report no safe move where a move survives
  (`Game.SafeMoveTestIgnoresPickups`).
- **The end-of-game check ignores the game-over flag.** It can replace a mine-loss
  message with a gem verdict (`Game.CheckEndGameOverwritesMineLoss`).
- **Hard nodes with no unvisited move.** A node below the root that has valid
  moves, all leading back onto the path, scores 0 rather than its position
  (`HardTier.BuildTree`).

## Model

| member | source | states |
|---|---|---|
| Compass.Dx | Direction.java:2-3 | every row delta is -1, 0 or 1 |
| Compass.Dy | Direction.java:2-3 | every column delta is -1, 0 or 1 |
| Compass.Ordinal | Direction.java:2-3 | each direction sits at its ordinal in the enumeration N, NE, E, SE, S, SW, W, NW |
| Compass.DeltaNonZero | Direction.java:2-3 | no direction has the zero delta |
| Compass.DeltasDistinct | Direction.java:2-3 | two directions have the same delta pair exactly when they are the same direction |
| Compass.EnumerationComplete | Direction.java:2-3 | the enumeration has eight entries, lists every direction, and lists none twice |
| Compass.Sign | Direction.java:13-14 | the integer comparison with zero is -1, 0 or 1, zero exactly for 0 and positive exactly for positive inputs |
| Compass.FindByDeltas | Direction.java:16-18 | the loop returns a listed direction with the wanted deltas, or nothing when no listed direction has them |
| Compass.FromClick | Direction.java:12-19 | no direction exactly when source and target coincide; otherwise the direction whose deltas are the signs of the row and column differences |
| Compass.SignPairNamed | Direction.java:16-17 | every non-zero pair of signs is the delta pair of an enumerated direction, so the loop never falls through |
| Compass.FromClickTranslationInvariant | Direction.java:13-14 | moving source and target by the same offset does not change the result |
| Compass.FromClickDependsOnlyOnSigns | Direction.java:13-18 | clicks whose differences have the same signs give the same result |
| Grids.Look | BoardModel.java:150-151 | a position off the grid reads as a wall; on the grid it reads the cell |
| Grids.Consume | BoardModel.java:158-166 | a consumed cell has no gem and no shield and keeps its wall, mine and stop flags |
| Slides.Slide | BoardModel.java:141-171 | the slide keeps the grid's shape; its meaning is given by the lemmas below |
| Slides.WalkMeetsSpec | BoardModel.java:146-169 | the loop invariant: after j open steps, the rest of the loop completes a slide of some length k that matches the closed description, consuming exactly the collected cells when mutating |
| Slides.SlideMeetsSpec | BoardModel.java:141-171 | every slide matches the closed description for some step count k: each of the first k steps is open and passes no mine or stop marker before the last; the end is blocked, a mine (not counted) or a stop; the counts are the gems and shields on the collected cells; a consuming slide clears exactly those cells |
| Slides.IsSlideUnique | BoardModel.java:141-171 | the closed description determines the step count and the result |
| Slides.SlideIgnoresMutate | BoardModel.java:156-168 | consuming items does not change where the slide ends, what it counts, or whether it hits a mine |
| Slides.SlideWithoutMutateKeepsGrid | BoardModel.java:158-166 | a non-consuming slide leaves the grid unchanged |
| Slides.SlideStaysOnGrid | BoardModel.java:146-154 | from a cell on the grid the slide ends on the grid at start + k·(dx, dy), and every cell stepped onto is on the grid and not a wall |
| Slides.SlideEndNotWall | BoardModel.java:150-154 | the end cell is on the grid, and it is not a wall whenever the piece moved |
| Slides.NoMoveIffBlocked | BoardModel.java:150-151 | the slide stays put without a mine exactly when the first step is off the grid or a wall, and then it reports no items and changes nothing |
| Slides.MineEndsSlide | BoardModel.java:156 | on a mine hit the end cell is a mine on the grid, is not a wall, and differs from the start |
| Slides.ConsumingSlideClearsPath | BoardModel.java:158-166 | a consuming slide clears the gem and shield flags of exactly the cells it collected from, a final mine excluded, and changes nothing else |
| Slides.SlideConservesItems | BoardModel.java:158-166 | the gems and shields a consuming slide reports are exactly those it removes from the grid |
| Slides.SlideTerrain | BoardModel.java:146-168 | where a non-consuming slide ends, and whether it hits a mine, depends only on walls, mines and stop markers |
| Pruning.MarkPathGemsAddsRayGems | BoardModel.java:122-130 | the marking walk adds exactly the gems on the cells of the ray, up to and including a stop or mine cell and before a wall or the edge |
| Pruning.MarkPathGems | BoardModel.java:122-130 | the marking walk of one ray; meaning given by MarkPathGemsAddsRayGems and RayCellsOpen |
| Pruning.RayCellsOpen | BoardModel.java:122-130 | every cell the marking walk visits is on the grid and not a wall |
| Pruning.ProbeStep | BoardModel.java:105-111 | one probe only adds cells to the visited set, and records the end of a mine-free slide |
| Pruning.Expand | BoardModel.java:104-112 | expanding a cell only adds visited cells, all on the grid |
| Pruning.ExpandQueue | BoardModel.java:107-110 | an expansion appends to the queue, once each, exactly the cells it newly marks visited |
| Pruning.ExpandEnds | BoardModel.java:104-110 | every mine-free probe of an expansion has its end recorded as visited |
| Pruning.ExpandMarks | BoardModel.java:104-112 | an expansion marks exactly the gems on the rays of its mine-free probes; a probe that hits a mine marks nothing |
| Pruning.FeedsByEnumeration | BoardModel.java:104-112 | the gems a cell feeds are those on the rays of its mine-free probes in enumeration order |
| Pruning.Explore | BoardModel.java:102-113 | the search loop ends with an empty queue and a visited set on the grid that only grew |
| Pruning.StepKeepsInvariant | BoardModel.java:102-112 | one pass of the loop keeps the search invariant: queued cells are visited and distinct, expanded cells have all mine-free slide ends visited, and the marked gems are those fed by expanded cells |
| Pruning.ExploreKeepsInvariant | BoardModel.java:102-113 | the search keeps its invariant to the end |
| Pruning.ExploreWithin | BoardModel.java:102-113 | the search never leaves a set that holds what it has seen and is closed under mine-free slides |
| Pruning.ReachClosed | BoardModel.java:93-113 | the reached cells contain the start, lie on the grid, and are closed under mine-free slides; the marked gems are exactly those fed by a reached cell |
| Pruning.ReachLeast | BoardModel.java:93-113 | the reached cells lie inside every closed set that contains the start |
| Pruning.ReachTerrain | BoardModel.java:93-113 | grids with the same terrain give the same reached cells |
| Pruning.FeedsTerrain | BoardModel.java:122-130 | on a grid with the same terrain and fewer gems, a cell feeds exactly the gems it fed before that remain |
| Pruning.ClearUnmarked | BoardModel.java:115-119 | the clearing loop keeps a gem exactly when its cell is marked and changes no other flag |
| Pruning.Prune | BoardModel.java:93-120 | pruning keeps the terrain and every shield and never adds a gem |
| Pruning.PruneKeepsFedGems | BoardModel.java:93-120 | a gem survives pruning exactly when a mine-free slide from a reached cell passes over it; every other flag is kept |
| Pruning.PruneIdempotent | BoardModel.java:93-120 | pruning a pruned grid changes nothing |
| Pruning.PrunedGemsFed | BoardModel.java:93-120 | after pruning, every gem left is fed by a cell reached on the pruned grid |
| Game.Move | BoardModel.java:173-220 | a move leaves the other player untouched and changes no wall, mine or stop marker |
| Game.SlideConsumesOnlyItems | BoardModel.java:177 | the move's consuming slide changes gem and shield flags only |
| Game.MoveBlockedIsNoOp | BoardModel.java:179 | a move whose first step is blocked changes nothing and signals no shield break |
| Game.MoveOpenHasEffect | BoardModel.java:179-219 | a move whose first step is open either moves the piece or ends the game with the mover named as loser |
| Game.MoveConservesGems | BoardModel.java:177-186 | the mover's score plus the gems on the grid is the same before and after a move |
| Game.MoveConservesShields | BoardModel.java:183-198 | the mover's shields plus those on the grid are unchanged, except that they drop by exactly one when a shield breaks |
| Game.MoveMineOutcome | BoardModel.java:189-210 | with no shield after pickups a mine ends the game with the mover's loss message and leaves the piece in place; otherwise one shield breaks, the piece stands on the mine, and exactly one break is signalled at that cell |
| Game.MovePreservesValid | BoardModel.java:173-220 | moves keep the grid rectangular and both pieces on non-wall cells |
| Game.AnySurvivable | BoardModel.java:230-235 | the loop finds a direction exactly when some listed direction moves and is survivable |
| Game.HasAnySafeMove | BoardModel.java:229-236 | the test holds exactly when some direction moves the piece and either avoids a mine or has a shield to spend |
| Game.Survivable | BoardModel.java:229-235 | a probe that moves the piece and does not land on a mine unless a shield is held; meaning given by AnySurvivable, SafeMoveIsReal and ValidMoveIsSurvivable |
| Game.SafeMoveIsReal | BoardModel.java:229-236 | when the test holds for a player of a running game, some real move changes that player's cell and keeps the game running |
| Game.SafeMoveTestIgnoresPickups | BoardModel.java:232 | on the row [piece, shield, mine] the test finds no safe move, yet moving east survives by breaking the shield just picked up |
| Game.AnyGemLeft | BoardModel.java:222-227 | the scan finds a gem exactly when some cell holds one |
| Game.AnyGemLeftIffCount | BoardModel.java:222-227 | a gem is left exactly when the gem tally is positive |
| Game.CheckEndGame | BoardModel.java:238-256 | the check never changes the grid or the players |
| Game.CheckEndGameCases | BoardModel.java:238-256 | with no gems the game ends with the gem verdict by strict score comparison; with gems and neither player able to move it ends with the stalemate verdict; otherwise the board is unchanged |
| Game.CheckEndGameIdempotent | BoardModel.java:238-256 | checking twice is the same as checking once |
| Game.CheckEndGameOverwritesMineLoss | BoardModel.java:238-245 | a game already lost on a mine gets its message replaced when no gem is left |
| Generation.Quota | BoardModel.java:60 | the shield quota is 4 on the hard level and 2 otherwise |
| Generation.Blank | BoardModel.java:43-58 | fresh cells of the requested size, walls exactly on the outer ring |
| Generation.Apply | BoardModel.java:69-77 | one draw sets at most one flag on a fresh cell, and adds a shield only while under the quota |
| Generation.BandOf | BoardModel.java:69-77 | the draw thresholds 12, 30, 42, 48 and 52 choosing wall, gem, stop, mine, shield or nothing; meaning given through Apply |
| Generation.PopulateRow | BoardModel.java:64-78 | the loop over a row keeps the grid's size and uses at most one draw per remaining cell |
| Generation.PopulateRows | BoardModel.java:63-79 | the interior loop keeps the grid's size |
| Generation.PopulateRowSound | BoardModel.java:64-78 | one row of the loop keeps every cell sound and the shield tally equal to the count, within the quota |
| Generation.PopulateRowsSound | BoardModel.java:63-79 | the interior loop keeps every cell sound and the shield tally equal to the count, within the quota |
| Generation.TopUp | BoardModel.java:81-89 | the top-up loop keeps the grid's size and stops once the quota is met or the drawn spots run out |
| Generation.TopUpSound | BoardModel.java:81-89 | the top-up keeps every cell sound and never takes the shield tally past the quota |
| Generation.Placed | BoardModel.java:42-89 | the grid before pruning has the requested size and meets the quota unless the spots ran out |
| Generation.PlacedSound | BoardModel.java:42-89 | the grid before pruning is sound and holds exactly the shields counted, at most the quota |
| Generation.Init | BoardModel.java:42-91 | a fresh board puts the human at (1, 1) and the computer at (rows − 2, cols − 2), with no score, no shields and the game running |
| Generation.InitSound | BoardModel.java:42-91 | a fresh board is valid, of the requested size, with a bare wall ring, safety zones free of walls, gems, stop markers and mines, and at most one flag per cell |
| Generation.PrunedBoardSound | BoardModel.java:90 | pruning a sound grid and placing the pieces on their start cells gives a valid, sound board |
| Generation.InitShields | BoardModel.java:60-89 | a fresh board holds at most the quota of shields, and exactly the quota unless the drawn spots ran out |
| Generation.InitGemsReachable | BoardModel.java:90 | every gem on a fresh board is fed by a cell reachable from the human's start, and pruning it again changes nothing |
| Regions.BlockedCount | Greedy.java:459-465 | the blocked-neighbour count is at most the number of directions looked at |
| Regions.BlockedCountIsSetSize | Greedy.java:457-467 | the count is the number of distinct directions whose neighbour is off the grid, a wall or a mine |
| Regions.DeadEndMeaning | Greedy.java:457-467 | a cell is a dead end exactly when at least six of the eight directions lead to a blocked neighbour |
| Regions.IsDeadEnd | Greedy.java:457-467 | six or more of the eight neighbours blocked; meaning given by DeadEndMeaning and BlockedCountIsSetSize |
| Regions.CellTallyCounts | Greedy.java:442-451 | a cell adds to at most one of the wall, mine, gem and shield counters, to one exactly when it has such a flag, and to the dead-end counter exactly when it is an open dead end |
| Regions.RectTally | Greedy.java:439-455 | each counter of a rectangle's tally is the sum of that counter over its cells |
| Regions.AnalyzeDirectly | Greedy.java:439-455 | the nested scan of a leaf region returns the rectangle's tally |
| Regions.QuadrantsPartition | Greedy.java:44-77 | the four quadrants partition the rectangle, so their tallies add up to its tally |
| Regions.Quadrant | Greedy.java:45-61 | each quadrant lies inside its region |
| Regions.SignedSquareMonotone | Greedy.java:574-580 | the stored score key preserves and reflects the order of region scores |
| Regions.ScoreKey | Greedy.java:579 | for an empty region the key is that of the raw score itself |
| Regions.RawScore | Greedy.java:574-580 | the weighted tally 10·gems + 5·shields − 15·mines − 8·dead ends − 0.5·walls before normalising; ScoreKeyNormalises relates it to the normalised score |
| Regions.ScoreKeyNormalises | Greedy.java:574-580 | for a positive area the key is that of the raw score divided by the area's square root |
| Regions.Analyze | Greedy.java:37-83 | the analysed region keeps its bounds and index, its tally is its rectangle's, and it is a leaf exactly at depth 0 or with at most four cells |
| Regions.AnalyzeQuadrant | Greedy.java:50-61 | quadrant i of a region gets index 4·index + i + 1 and the tally of its rectangle |
| Regions.FindExtremeIsExtremeLeaf | Greedy.java:86-114 | the extreme search returns a leaf of the tree, and no leaf scores higher (for the best) or lower (for the worst) |
| Regions.FindExtreme | Greedy.java:86-113 | a leaf answers itself; otherwise the quadrants' answers are combined, a later one winning only when strictly more extreme; meaning given by FindExtremeIsExtremeLeaf and ExtremeAmongIsExtremeLeaf |
| Regions.ExtremeAmongIsExtremeLeaf | Greedy.java:98-111 | the combine loop over the first n subregions returns a leaf of one of them that no leaf of those subregions beats |
| Regions.ComputePolicy | Greedy.java:22-34 | best and worst are leaves of the board's tree, scoring at least and at most every leaf |
| Regions.RegionIndex | Greedy.java:509-517 | the flat quadrant index is 1 to 4, at most 2 exactly on the top half, odd exactly on the left half |
| Regions.RegionBonus | Greedy.java:501-507 | the bonus is positive exactly when the position's index is the best leaf's and not the worst's, and non-zero only when a leaf index is 1 to 4 |
| Regions.AnalyzeChild | Greedy.java:44-77 | a region that splits has four children, child i being the analysis of quadrant i one level down |
| Regions.AnalyzeBanded | Greedy.java:37-83 | when every region above depth zero has more than four cells, the tree is split all the way down, quadrant i of index k numbered 4·k + i + 1 |
| Regions.QuadrantBanded | Greedy.java:50-61 | the analysis of each quadrant of a fully splitting region is itself split all the way down, numbered from 4·index + i + 1 |
| Regions.BandedLeafIndex | Greedy.java:50-61 | in a tree split all the way down, every leaf index lies in the band of indices depth levels below the root's |
| Regions.TreeLeafIndices | Greedy.java:24-27 | on a board that splits fully, every leaf index lies in 21 to 84 |
| Regions.BonusVanishesOnDeepBoards | Greedy.java:501-517 | on a board that splits fully, the region bonus is zero at every position |
| Regions.TwelveByTwelveSplitsFully | InertiaGameFrame.java:19 | the 12 × 12 board the game opens splits fully, so its region bonus is always zero |
| Tactics.AdjustShields | Greedy.java:485-491 | the hypothetical shields are those held plus those picked up, minus one exactly on a mine with a positive sum; never negative for a non-negative count |
| Tactics.Sim | Greedy.java:528 | the non-consuming slide the opponent simulates; it lands where the real move would, by SlideIgnoresMutate and AdjustShieldsMatchesMove |
| Tactics.IsDeadlyMove | Greedy.java:481-483 | a slide ending on a mine with no shield held; DeadlySlideMoves shows such a slide never stays put |
| Tactics.ValidMove | Greedy.java:528-529 | a move that is not deadly and changes the cell; meaning given by ValidMoveIsSurvivable, ValidMoves and ValidMoveIsSafe |
| Tactics.AdjustShieldsMatchesMove | Greedy.java:485-491 | whenever a real move neither stays put nor ends the game, it leaves the mover with exactly the hypothetical count |
| Tactics.ValidMoveIsSurvivable | Greedy.java:529 | for a non-negative count, the opponent's valid moves are exactly the board's safe moves |
| Tactics.ValidAmong | Greedy.java:527-532 | the filter keeps exactly the valid directions, in their order |
| Tactics.ValidMoves | Greedy.java:525-534 | the list holds exactly the valid directions, in enumeration order |
| Tactics.DirectionGroup | Greedy.java:493-499 | north exactly for a row delta of -1, south for +1, west and east by the column delta otherwise; no direction is diagonal |
| Tactics.NeighbourScore | Greedy.java:543-547 | a neighbour adds between -75 and +75 |
| Tactics.EvaluatePosition | Greedy.java:536-551 | the position score is the region bonus plus a neighbour sum between -600 and +600 |
| Tactics.EvaluatePositionCounts | Greedy.java:536-551 | the position score is +50 for each direction whose on-grid neighbour holds a gem, +25 for each holding a shield and −75 for each holding a mine, plus the region bonus |
| Tactics.NeighbourSumCounts | Greedy.java:539-548 | over directions without repetition, the neighbour sum is 50, 25 and −75 times the numbers of directions whose on-grid neighbour holds a gem, a shield and a mine |
| Tactics.QuietNeighbourhood | Greedy.java:539-548 | a position whose neighbours carry no gem, shield or mine adds nothing to its region bonus |
| Tactics.EvaluateMove | Greedy.java:553-557 | the move value is 100 per gem and 50 per shield, give or take the region bonus range −40 to +30 |
| Tactics.EvaluateSingleDirection | Greedy.java:469-479 | -1000 for a deadly slide, -500 for a standstill, and the move value for a valid move |
| Tactics.EasyScoreSeparatesValid | Greedy.java:469-479 | a direction is valid exactly when its easy score is at least -40 |
| Tactics.DeadlySlideMoves | Greedy.java:481-483 | a deadly slide always leaves its start cell |
| Tactics.ValidMoveIsSafe | Greedy.java:525-534 | making a valid move for real keeps the game running and moves the opponent |
| EasyTier.BestOf | Greedy.java:134-169 | the halving pass returns nothing only for an empty list; otherwise a listed direction with its score, scoring at least every listed direction |
| EasyTier.FirstArgmax | Greedy.java:134-169 | the reference scan returns the first position of a maximal score |
| EasyTier.CombineHalves | Greedy.java:155-168 | the first maximum of a list comes from the first maxima of its halves, the left one winning ties |
| EasyTier.BestOfIsFirstArgmax | Greedy.java:134-169 | the halving pass returns exactly the first maximum of the left-to-right scan |
| EasyTier.PlayEasy | Greedy.java:120-131 | the easy move is the first direction in enumeration order with the highest easy score |
| EasyTier.PlayEasyValid | Greedy.java:120-131 | whenever the opponent has a valid move, the easy move is valid |
| MediumTier.IntCompare | Greedy.java:520-522 | the three-way integer comparison is negative, zero or positive as the first argument is smaller, equal or larger |
| MediumTier.Compare | Greedy.java:519-523 | the ranking is -1, 0 or 1; it is 0 exactly when value, depth and region bonus all agree, and positive exactly when the first result has more gems, or as many in fewer moves, or as many in as many moves with the smaller region bonus (negative in the mirrored case) |
| MediumTier.CompareAntisymmetric | Greedy.java:519-523 | swapping the arguments negates the ranking |
| MediumTier.CompareTransitive | Greedy.java:519-523 | the ranking is transitive in its weak and strict forms |
| MediumTier.Pick | Greedy.java:245-250 | the replacement step keeps the current best unless the candidate ranks strictly higher; a missing result never wins |
| MediumTier.PickAssociative | Greedy.java:245-250 | the replacement step is associative, so a scan can be split anywhere |
| MediumTier.FoldBest | Greedy.java:245-250 | the scan finds nothing exactly when every entry is missing; otherwise it returns an entry that ranks at least as high as all |
| MediumTier.FoldBestIsFirst | Greedy.java:245-250 | the scan keeps the first top-ranked entry: every earlier entry ranks strictly lower |
| MediumTier.JdkGroupOrderCovers | Greedy.java:210-219 | the JDK hash-map order of the groups visits every group a direction can be in |
| MediumTier.InGroup | Greedy.java:211-214 | a group's list holds exactly the valid directions of that group, in order |
| MediumTier.Halves | Greedy.java:221-237 | the halves of a group together hold exactly its directions |
| MediumTier.HalvesFlatten | Greedy.java:221-224 | the two halves laid end to end give the group back |
| MediumTier.Parts | Greedy.java:210-238 | the searched parts hold only valid directions, and every valid direction of a visited group is in some part |
| MediumTier.GroupedOrder | Greedy.java:210-219 | the parts laid end to end hold exactly the directions whose group is visited |
| MediumTier.Search | Greedy.java:187-253 | a result exists only below the depth limit, starts with a valid move, needs between one and the remaining number of moves, and collects at least one gem |
| MediumTier.PartResults | Greedy.java:219-238 | one result per part, each the part's best candidate |
| MediumTier.Subgroup | Greedy.java:256-300 | a part's result is the candidate of one of its directions and ranks at least as high as every candidate of the part |
| MediumTier.Candidate | Greedy.java:262-296 | a direction's candidate starts with that direction, needs between one and the remaining number of moves, and collects at least one gem |
| MediumTier.SubgroupIsScan | Greedy.java:260-299 | a part's result is the left-to-right scan over its candidates |
| MediumTier.PartsAreOneScan | Greedy.java:216-250 | searching part by part and keeping the best is one scan over the parts laid end to end |
| MediumTier.SearchIsOneScan | Greedy.java:187-253 | the search returns exactly the left-to-right scan over the candidates of the valid directions, group by group in the given order |
| MediumTier.SearchIsBest | Greedy.java:187-253 | below the depth limit the search finds nothing exactly when no valid direction offers a candidate; otherwise its result is its first move's candidate and ranks at least as high as every valid direction's |
| MediumTier.SearchTieBreak | Greedy.java:245-250 | among equally ranked results the search keeps the one met first: every valid direction before it in the group order offers a strictly lower-ranked candidate or none |
| MediumTier.SearchLeads | Greedy.java:187-300 | every result is backed by a path of valid slides of its length, starting with its first move, avoiding visited states, whose last slide collects the result's gems and earns its region bonus |
| MediumTier.CandidateLeads | Greedy.java:262-296 | every candidate of a valid direction is backed by such a path starting with that direction |
| MediumTier.SearchSeesImmediateGems | Greedy.java:266-272 | a valid move whose slide collects gems makes the search find at least that many |
| MediumTier.SearchFindsLeads | Greedy.java:187-300 | every path of valid slides that fits in the remaining moves is found: the search returns a result ranking at least as high as the path's gems, length and region bonus |
| MediumTier.CandidateFindsLeads | Greedy.java:262-296 | the candidate of a path's first move exists and ranks at least as high as the path |
| MediumTier.SearchFindsIffLeads | Greedy.java:187-300 | the search finds something exactly when some path of valid slides fits in the remaining moves |
| MediumTier.PlayMedium | Greedy.java:175-184 | the medium move is the first move of the search result, which is valid; when the search finds nothing it is exactly the easy move |
| MediumTier.PlayMediumValid | Greedy.java:175-184 | whenever the opponent has a valid move, the medium move is valid |
| HardTier.Discounted | Greedy.java:419-422 | discounting shrinks a worth towards zero without changing its sign |
| HardTier.DiscountedMonotone | Greedy.java:421-427 | discounting keeps the order of worths, weak and strict, so comparing discounted worths compares worths |
| HardTier.FirstMax | Greedy.java:372-377 | the scan returns the first position of a maximal value |
| HardTier.Chunks | Greedy.java:341-347 | the chunks cover exactly the valid moves; each has between one and size moves, and all but the last have exactly size |
| HardTier.ChunkSize | Greedy.java:341 | the chunk size is at least two and at least a third of the number of moves |
| HardTier.BuildTree | Greedy.java:321-402 | the root stands at the given cell with no move; it scores its position exactly at depth 0 or without valid moves, and 0 otherwise; it has children only with depth to spare; every child is reached by a valid move to an unvisited cell, carrying that move's value and hypothetical shields, within depth − 1 levels |
| HardTier.ChunkBests | Greedy.java:350-380 | one entry per chunk, the best subtree of that chunk, and every kept subtree is a proper child |
| HardTier.Subtrees | Greedy.java:353-368 | each subtree is a proper child reached by one of the moves, and there are none exactly when every move ends on a visited cell |
| HardTier.Branch | Greedy.java:354-367 | there is no subtree exactly when the move's end cell is visited; otherwise the subtree stands at that cell with the move, its value and the hypothetical shields |
| HardTier.BestInChunk | Greedy.java:371-377 | the best subtree of a chunk exists exactly when the chunk has subtrees, is one of them, and has the highest own value; it is the first such, every earlier subtree being worth strictly less |
| HardTier.BuildTreeChildless | Greedy.java:321-402 | a node has no children exactly at depth 0 or when every valid move ends on a visited cell |
| HardTier.BuildTreeWeighsEveryMove | Greedy.java:336-399 | every valid move to an unvisited cell yields a subtree; some child's own value is at least that subtree's, and with at most two valid moves the subtree is itself a child |
| HardTier.ChildrenAreBranches | Greedy.java:350-399 | every child is the subtree built by its own move |
| HardTier.BestChild | Greedy.java:418-427 | the best child has the highest worth, and every earlier child is strictly worth less |
| HardTier.EvaluateIsDiscountedMax | Greedy.java:405-434 | a node with children is worth its move value plus nine tenths of its best child's worth: no child gives more, and some child gives exactly that |
| HardTier.Evaluate | Greedy.java:405-434 | a childless node is worth its own value; any other adds nine tenths of its best child's worth to its move value and recommends its own move or, at the root, the best child's; meaning given by EvaluateIsDiscountedMax and RootRecommendsChildMove |
| HardTier.RootRecommendsChildMove | Greedy.java:429-431 | a root without a move recommends exactly the move of its first best child |
| HardTier.PlayHard | Greedy.java:306-318 | a recommended move is valid, and there is no recommendation exactly when no move is valid |
| Opponent.Choose | Greedy.java:7-16 | the easy and medium levels always give a move; the hard level gives none exactly when no move is valid |
| Opponent.ChooseIsValid | Greedy.java:7-16 | whenever the opponent has a safe move, every level chooses a valid move |
| Opponent.ChooseIsSafe | Greedy.java:7-16 | whenever the opponent has a safe move, the chosen move keeps the game running and moves the opponent |

## Left out

- `InertiaGameFrame.java` and `GridPanel.java`: windows, menus, timers, painting and
  animation. Only the board size the frame opens is used, in
  `Regions.TwelveByTwelveSplitsFully`.
- `Difficulty.java` and `Cell.java` are not part of this model. Their constants and
  flags are declared in `Levels` and `Grids`.
- Random numbers (`BoardModel.java:20,69,82-83`) are inputs:
  - `draws` holds the band draws, one per interior cell outside the safety zones,
    in row-major order;
  - `spots` holds the top-up cells.
- Generation.TopUp: the source loop draws cells until the quota is met, which has
  no termination guarantee. The model stops when `spots` runs out, so it promises
  the quota only when enough free spots are drawn.
- Regions.ScoreKey: `Math.sqrt` is floating point. A region's score is kept as the
  order-preserving key `s·|s|`, which is the exact rational `raw·|raw| / area`.
  Only comparisons of scores are used, and `Regions.SignedSquareMonotone` shows the
  key compares as the score does. Rounding of the square root is not modelled.
- HardTier.Discounted: Java `double` arithmetic is modelled as exact reals. Rounding
  of the 0.9 discount, and ties it might create or break, are not modelled. The
  position, move and easy scores hold integers, so they are modelled as `int`.
- MediumTier.Search: the groups live in a hash map, and its iteration order is not
  fixed by the program. The order is a parameter of the search, the medium player
  and `Opponent.Choose`. The lemmas about which result wins hold for every order
  that visits all groups. `JdkGroupOrder` records the order of the JDK hash map but
  is not assumed anywhere.
- The shield-break listener (`BoardModel.java:24,38-40,204-206`) is not called. A
  move returns the break it would signal as a value.
- Java `int` overflow of scores, shield counts and the cell key `r·1000 + c` is not
  modelled; integers are unbounded.
- Generation.Init: boards with fewer than 3 rows or 3 columns are excluded by a
  `requires` (also on `Generation.Placed`). On such boards the source fails: the
  shield count starts below the quota, so the top-up loop at `BoardModel.java:81-83`
  runs and calls `rand.nextInt` with a bound `rows - 2` or `cols - 2` that is not
  positive, which throws `IllegalArgumentException`. That exception is not modelled.
- The constructor's difficulty default (`BoardModel.java:26-28`) is not modelled.
  `Generation.Init` takes the level explicitly.
- The `default` branch of `Greedy.java:14` cannot be taken with three levels.
- The fallback to the easy player at `Greedy.java:315-317` is not modelled, because
  the evaluation never returns null.
- The unused `Node` class (`Greedy.java:628-635`) is not modelled.
- `Greedy.java:183` contains a split token. It is read as `Direction.values()`, the
  same expression as `Greedy.java:317`.

=== FILE: compass.dfy ===
/** An optional value, standing in for the source's nullable references. */
module Options {

  datatype Option<+T> = None | Some(value: T)
}

/**
 The eight compass directions of the game and the click-to-direction mapping.
 `Dx` is the row delta and `Dy` the column delta, as the board engine uses them.
 */
module Compass {

  import opened Options

  /** The directions, declared in the order the enumeration lists them. */
  datatype Direction = N | NE | E | SE | S | SW | W | NW

  /** Row delta of a direction. */
  function Dx(d: Direction): (r: int)
    ensures -1 <= r <= 1
  {
    match d
    case N => -1
    case NE => -1
    case E => 0
    case SE => 1
    case S => 1
    case SW => 1
    case W => 0
    case NW => -1
  }

  /** Column delta of a direction. */
  function Dy(d: Direction): (r: int)
    ensures -1 <= r <= 1
  {
    match d
    case N => 0
    case NE => 1
    case E => 1
    case SE => 1
    case S => 0
    case SW => -1
    case W => -1
    case NW => -1
  }

  /** The enumeration order; every tie-break of the opponent depends on it. */
  const AllDirections: seq<Direction> := [N, NE, E, SE, S, SW, W, NW]

  /** Position of a direction in the enumeration order. */
  function Ordinal(d: Direction): (i: nat)
    ensures i < |AllDirections| && AllDirections[i] == d
  {
    match d
    case N => 0
    case NE => 1
    case E => 2
    case SE => 3
    case S => 4
    case SW => 5
    case W => 6
    case NW => 7
  }

  /** Every direction moves: no direction has the zero delta. */
  lemma DeltaNonZero(d: Direction)
    ensures Dx(d) != 0 || Dy(d) != 0
  {
  }

  /** Distinct directions have distinct deltas, so a delta pair names at most one direction. */
  lemma DeltasDistinct(d1: Direction, d2: Direction)
    ensures (Dx(d1) == Dx(d2) && Dy(d1) == Dy(d2)) <==> d1 == d2
  {
  }

  /** The enumeration lists each direction exactly once. */
  lemma EnumerationComplete()
    ensures |AllDirections| == 8
    ensures forall d: Direction :: d in AllDirections
    ensures forall i, j :: 0 <= i < j < |AllDirections| ==> AllDirections[i] != AllDirections[j]
  {
    forall d: Direction
      ensures d in AllDirections
    {
      assert AllDirections[Ordinal(d)] == d;
    }
  }

  /** Sign of an integer, as `Integer.compare(x, 0)`. */
  function Sign(x: int): (s: int)
    ensures -1 <= s <= 1
    ensures s == 0 <==> x == 0
    ensures s > 0 <==> x > 0
  {
    if x < 0 then -1 else if x > 0 then 1 else 0
  }

  /** The first direction of `ds` whose deltas are `(dx, dy)`, if any. */
  function FindByDeltas(ds: seq<Direction>, dx: int, dy: int): (r: Option<Direction>)
    ensures r.Some? ==> r.value in ds && Dx(r.value) == dx && Dy(r.value) == dy
    ensures r.None? ==> forall i :: 0 <= i < |ds| ==> Dx(ds[i]) != dx || Dy(ds[i]) != dy
  {
    if ds == [] then None
    else if Dx(ds[0]) == dx && Dy(ds[0]) == dy then Some(ds[0])
    else FindByDeltas(ds[1..], dx, dy)
  }

  /**
   The direction from a source cell towards a target cell, from the signs of the
   row and column differences; none when the two cells coincide.
   */
  function FromClick(sr: int, sc: int, tr: int, tc: int): (r: Option<Direction>)
    ensures r.None? <==> (sr == tr && sc == tc)
    ensures r.Some? ==> Dx(r.value) == Sign(tr - sr) && Dy(r.value) == Sign(tc - sc)
  {
    var dx := Sign(tr - sr);
    var dy := Sign(tc - sc);
    if dx == 0 && dy == 0 then None
    else
      SignPairNamed(dx, dy);
      FindByDeltas(AllDirections, dx, dy)
  }

  /** Each of the eight non-zero sign pairs is the delta pair of some enumerated direction. */
  lemma SignPairNamed(dx: int, dy: int)
    requires -1 <= dx <= 1 && -1 <= dy <= 1
    requires dx != 0 || dy != 0
    ensures exists i :: 0 <= i < |AllDirections| && Dx(AllDirections[i]) == dx && Dy(AllDirections[i]) == dy
  {
    var d :=
      if dx == -1 then (if dy == -1 then NW else if dy == 0 then N else NE)
      else if dx == 0 then (if dy == -1 then W else E)
      else (if dy == -1 then SW else if dy == 0 then S else SE);
    assert AllDirections[Ordinal(d)] == d;
  }

  /** Moving both cells by the same offset does not change the direction chosen. */
  lemma FromClickTranslationInvariant(sr: int, sc: int, tr: int, tc: int, or: int, oc: int)
    ensures FromClick(sr + or, sc + oc, tr + or, tc + oc) == FromClick(sr, sc, tr, tc)
  {
    assert (tr + or) - (sr + or) == tr - sr;
    assert (tc + oc) - (sc + oc) == tc - sc;
  }

  /** Two source/target pairs whose differences have the same signs map to the same direction. */
  lemma {:induction false} FromClickDependsOnlyOnSigns(sr: int, sc: int, tr: int, tc: int,
                                                      sr': int, sc': int, tr': int, tc': int)
    requires Sign(tr - sr) == Sign(tr' - sr') && Sign(tc - sc) == Sign(tc' - sc')
    ensures FromClick(sr, sc, tr, tc) == FromClick(sr', sc', tr', tc')
  {
  }
}

=== FILE: easy.dfy ===
/**
 The easy opponent: every direction is scored on its own, and a divide-and-conquer
 pass over the direction list keeps the best, preferring the left one on ties.
 The pass is shown equal to a plain left-to-right scan for the first maximum.
 */
module EasyTier {

  import opened Options
  import opened Compass
  import opened Game
  import opened Regions
  import opened Tactics

  /** A direction with the score it was given. */
  datatype Scored = Scored(direction: Direction, score: int)

  /**
   The best-scored direction of `ds`, found by halving the list: one element is its
   own best, two are compared directly, longer lists are split at the middle and the
   two halves' winners compared, the left one winning ties.
   */
  function BestOf(ds: seq<Direction>, score: Direction -> int): (r: Option<Scored>)
    ensures r.None? <==> ds == []
    ensures r.Some? ==> r.value.direction in ds && r.value.score == score(r.value.direction)
    ensures r.Some? ==> forall d :: d in ds ==> score(d) <= r.value.score
    decreases |ds|
  {
    if |ds| == 0 then None
    else if |ds| == 1 then Some(Scored(ds[0], score(ds[0])))
    else if |ds| == 2 then
      if score(ds[0]) >= score(ds[1]) then Some(Scored(ds[0], score(ds[0])))
      else Some(Scored(ds[1], score(ds[1])))
    else
      var mid := |ds| / 2;
      assert ds == ds[..mid] + ds[mid..];
      Better(BestOf(ds[..mid], score), BestOf(ds[mid..], score))
  }

  /** The better of two halves' winners, the left one on ties; a missing winner never wins. */
  function Better(left: Option<Scored>, right: Option<Scored>): (r: Option<Scored>)
    ensures r == left || r == right
    ensures r.None? <==> left.None? && right.None?
    ensures r.Some? && left.Some? ==> left.value.score <= r.value.score
    ensures r.Some? && right.Some? ==> right.value.score <= r.value.score
  {
    if left.None? then right
    else if right.None? then left
    else if left.value.score >= right.value.score then left
    else right
  }

  /** `i` holds a maximal score of `ds`, and every earlier position scores strictly less. */
  predicate IsFirstArgmax(ds: seq<Direction>, score: Direction -> int, i: int) {
    && 0 <= i < |ds|
    && (forall j :: 0 <= j < |ds| ==> score(ds[j]) <= score(ds[i]))
    && (forall j :: 0 <= j < i ==> score(ds[j]) < score(ds[i]))
  }

  /** The reference: a left-to-right scan that moves to a later position only on a strictly higher score. */
  function FirstArgmax(ds: seq<Direction>, score: Direction -> int): (i: nat)
    requires ds != []
    ensures IsFirstArgmax(ds, score, i)
    decreases |ds|
  {
    if |ds| == 1 then 0
    else
      var k := FirstArgmax(ds[..|ds| - 1], score);
      assert forall j :: 0 <= j < |ds| - 1 ==> ds[j] == ds[..|ds| - 1][j];
      if score(ds[|ds| - 1]) > score(ds[k]) then |ds| - 1 else k
  }

  /** There is only one first maximum. */
  lemma FirstArgmaxUnique(ds: seq<Direction>, score: Direction -> int, i: int, k: int)
    requires IsFirstArgmax(ds, score, i) && IsFirstArgmax(ds, score, k)
    ensures i == k
  {
    assert score(ds[i]) == score(ds[k]);
  }

  /** The first maximum of a list comes from the first maxima of its two halves, the left one winning ties. */
  lemma CombineHalves(ds: seq<Direction>, score: Direction -> int, mid: int, il: int, ir: int)
    requires 0 < mid < |ds|
    requires IsFirstArgmax(ds[..mid], score, il) && IsFirstArgmax(ds[mid..], score, ir)
    ensures score(ds[..mid][il]) >= score(ds[mid..][ir]) ==> IsFirstArgmax(ds, score, il)
    ensures score(ds[..mid][il]) < score(ds[mid..][ir]) ==> IsFirstArgmax(ds, score, mid + ir)
  {
    assert forall j :: 0 <= j < mid ==> ds[j] == ds[..mid][j];
    assert forall j :: mid <= j < |ds| ==> ds[j] == ds[mid..][j - mid];
  }

  /** The divide-and-conquer pass picks exactly what the left-to-right scan picks. */
  lemma {:induction false} BestOfIsFirstArgmax(ds: seq<Direction>, score: Direction -> int)
    requires ds != []
    ensures BestOf(ds, score) == Some(Scored(ds[FirstArgmax(ds, score)], score(ds[FirstArgmax(ds, score)])))
    decreases |ds|
  {
    var i := FirstArgmax(ds, score);
    if |ds| == 1 {
      assert i == 0;
    } else if |ds| == 2 {
      if score(ds[0]) >= score(ds[1]) {
        FirstArgmaxUnique(ds, score, i, 0);
      } else {
        FirstArgmaxUnique(ds, score, i, 1);
      }
    } else {
      var mid := |ds| / 2;
      var ls, rs := ds[..mid], ds[mid..];
      BestOfIsFirstArgmax(ls, score);
      BestOfIsFirstArgmax(rs, score);
      var il, ir := FirstArgmax(ls, score), FirstArgmax(rs, score);
      CombineHalves(ds, score, mid, il, ir);
      if score(ls[il]) >= score(rs[ir]) {
        FirstArgmaxUnique(ds, score, i, il);
        assert ds[i] == ls[il];
      } else {
        FirstArgmaxUnique(ds, score, i, mid + ir);
        assert ds[i] == rs[ir];
      }
    }
  }

  /** The easy opponent's scoring of the directions from its current cell. */
  function EasyScore(b: Board, p: Policy): Direction -> int {
    d => EvaluateSingleDirection(b, p, d)
  }

  /** The easy opponent's move: the first best-scored direction, falling back to north if none were scored. */
  function PlayEasy(b: Board, p: Policy): (d: Direction)
    ensures IsFirstArgmax(AllDirections, EasyScore(b, p), Ordinal(d))
  {
    var score := EasyScore(b, p);
    var i := FirstArgmax(AllDirections, score);
    BestOfIsFirstArgmax(AllDirections, score);
    OrdinalOfEnumeration(i);
    match BestOf(AllDirections, score)
    case Some(s) => s.direction
    case None => N
  }

  /** Position `i` of the enumeration holds the direction of ordinal `i`. */
  lemma OrdinalOfEnumeration(i: int)
    requires 0 <= i < |AllDirections|
    ensures Ordinal(AllDirections[i]) == i
  {
    EnumerationIncreasing();
    EnumerationComplete();
    assert AllDirections[Ordinal(AllDirections[i])] == AllDirections[i];
  }

  /** Whenever the opponent has a valid move, the easy opponent makes one. */
  lemma PlayEasyValid(b: Board, p: Policy)
    requires exists d :: ValidMove(b.grid, b.cpu.row, b.cpu.col, b.cpu.shields, d)
    ensures ValidMove(b.grid, b.cpu.row, b.cpu.col, b.cpu.shields, PlayEasy(b, p))
  {
    var d :| ValidMove(b.grid, b.cpu.row, b.cpu.col, b.cpu.shields, d);
    EasyScoreSeparatesValid(b, p, d);
    assert AllDirections[Ordinal(d)] == d;
    EasyScoreSeparatesValid(b, p, PlayEasy(b, p));
  }
}

=== FILE: game.dfy ===
/**
 The board engine's state transitions: moving a piece, the safe-move test and the
 end-of-game check.

 A board is an immutable value: the grid, the two players and the game-over flag
 with its result message. `Move` returns the next board together with the shield
 break it signals (the event the user interface animates).
 */
module Game {

  import opened Options
  import opened Compass
  import opened Grids
  import opened Slides

  datatype Player = Player(row: int, col: int, score: nat, shields: nat)

  datatype Side = Human | Cpu

  datatype Board = Board(grid: Grid, human: Player, cpu: Player, gameOver: bool, result: string)

  /** A mine absorbed by a shield at `(row, col)`. */
  datatype ShieldBreak = ShieldBreak(row: int, col: int)

  datatype MoveOutcome = MoveOutcome(board: Board, shieldBreak: Option<ShieldBreak>)

  function Other(side: Side): Side {
    if side == Human then Cpu else Human
  }

  function PlayerOf(b: Board, side: Side): Player {
    if side == Human then b.human else b.cpu
  }

  function WithPlayer(b: Board, side: Side, p: Player): (b': Board)
    ensures PlayerOf(b', side) == p && PlayerOf(b', Other(side)) == PlayerOf(b, Other(side))
    ensures b'.grid == b.grid && b'.gameOver == b.gameOver && b'.result == b.result
  {
    if side == Human then b.(human := p) else b.(cpu := p)
  }

  const HumanMineLoss := "Human hit a mine! CPU wins."
  const CpuMineLoss := "CPU hit a mine! Human wins."

  function MineLoss(side: Side): string {
    if side == Human then HumanMineLoss else CpuMineLoss
  }

  /** A rectangular grid with both pieces on cells that are not walls. */
  predicate Valid(b: Board) {
    Rect(b.grid) && OnFloor(b.grid, b.human) && OnFloor(b.grid, b.cpu)
  }

  /** The piece stands on a non-wall cell of the grid. */
  predicate OnFloor(g: Grid, p: Player) {
    InBounds(g, p.row, p.col) && !g[p.row][p.col].wall
  }

  /**
   One move of `side` in direction `d`: a consuming slide; no change at all when the
   piece neither moves nor meets a mine; otherwise the items collected are credited,
   and a mine either costs a shield (the piece stands on the mine) or ends the game.
   */
  function Move(b: Board, side: Side, d: Direction): (o: MoveOutcome)
    ensures PlayerOf(o.board, Other(side)) == PlayerOf(b, Other(side))
    ensures SameTerrain(b.grid, o.board.grid)
  {
    var p := PlayerOf(b, side);
    var sl := Slide(b.grid, p.row, p.col, d, true);
    var res := sl.result;
    SlideConsumesOnlyItems(b.grid, p.row, p.col, d);
    if res.r == p.row && res.c == p.col && !res.hitMine then
      MoveOutcome(b, None)
    else
      var p' := p.(score := p.score + res.gems, shields := p.shields + res.shields);
      var b' := b.(grid := sl.grid);
      if res.hitMine then
        if p'.shields > 0 then
          MoveOutcome(WithPlayer(b', side, p'.(shields := p'.shields - 1, row := res.r, col := res.c)),
                      Some(ShieldBreak(res.r, res.c)))
        else
          MoveOutcome(WithPlayer(b', side, p').(gameOver := true, result := MineLoss(side)), None)
      else
        MoveOutcome(WithPlayer(b', side, p'.(row := res.r, col := res.c)), None)
  }

  /** A consuming slide changes gem and shield flags only. */
  lemma SlideConsumesOnlyItems(g: Grid, sr: int, sc: int, d: Direction)
    ensures SameTerrain(g, Slide(g, sr, sc, d, true).grid)
  {
    var k := ConsumingSlideClearsPath(g, sr, sc, d);
  }

  /** A move whose first step is off the grid or into a wall changes nothing and signals nothing. */
  lemma MoveBlockedIsNoOp(b: Board, side: Side, d: Direction)
    requires !Open(b.grid, PlayerOf(b, side).row, PlayerOf(b, side).col, d, 1)
    ensures Move(b, side, d) == MoveOutcome(b, None)
  {
    NoMoveIffBlocked(b.grid, PlayerOf(b, side).row, PlayerOf(b, side).col, d, true);
  }

  /**
   A move whose first step is open always has an effect: the piece changes cell, or
   the game is over with the mover named as the loser.
   */
  lemma MoveOpenHasEffect(b: Board, side: Side, d: Direction)
    requires Open(b.grid, PlayerOf(b, side).row, PlayerOf(b, side).col, d, 1)
    ensures var p, p' := PlayerOf(b, side), PlayerOf(Move(b, side, d).board, side);
            (p'.row, p'.col) != (p.row, p.col)
            || (Move(b, side, d).board.gameOver && Move(b, side, d).board.result == MineLoss(side))
  {
    var p := PlayerOf(b, side);
    NoMoveIffBlocked(b.grid, p.row, p.col, d, true);
    MineEndsSlide(b.grid, p.row, p.col, d, true);
  }

  /** The mover's score plus the gems on the grid is the same before and after any move. */
  lemma MoveConservesGems(b: Board, side: Side, d: Direction)
    ensures var b' := Move(b, side, d).board;
            PlayerOf(b', side).score + GridCount(b'.grid, IsGem) == PlayerOf(b, side).score + GridCount(b.grid, IsGem)
  {
    var p := PlayerOf(b, side);
    SlideConservesItems(b.grid, p.row, p.col, d);
    NoMoveIffBlocked(b.grid, p.row, p.col, d, true);
  }

  /**
   The mover's shields plus the shields on the grid drop by exactly one when a
   shield absorbs a mine, and are otherwise the same before and after any move.
   */
  lemma MoveConservesShields(b: Board, side: Side, d: Direction)
    ensures var o := Move(b, side, d);
            PlayerOf(o.board, side).shields + GridCount(o.board.grid, IsShield) + B2I(o.shieldBreak.Some?)
            == PlayerOf(b, side).shields + GridCount(b.grid, IsShield)
  {
    var p := PlayerOf(b, side);
    SlideConservesItems(b.grid, p.row, p.col, d);
    NoMoveIffBlocked(b.grid, p.row, p.col, d, true);
  }

  /**
   A mine ends the game exactly when the mover has no shield even after counting
   those it picked up on the way; otherwise one shield breaks, the piece stands on
   the mine, and the break is signalled once at that cell.
   */
  lemma MoveMineOutcome(b: Board, side: Side, d: Direction)
    ensures var p := PlayerOf(b, side);
            var res := Slide(b.grid, p.row, p.col, d, true).result;
            var o := Move(b, side, d);
            var p' := PlayerOf(o.board, side);
            && (res.hitMine && p.shields + res.shields == 0 ==>
                  o.board.gameOver && o.board.result == MineLoss(side) && (p'.row, p'.col) == (p.row, p.col))
            && (!(res.hitMine && p.shields + res.shields == 0) ==>
                  o.board.gameOver == b.gameOver && o.board.result == b.result)
            && (o.shieldBreak.Some? <==> res.hitMine && p.shields + res.shields > 0)
            && (o.shieldBreak.Some? ==>
                  && o.shieldBreak.value == ShieldBreak(res.r, res.c)
                  && (p'.row, p'.col) == (res.r, res.c)
                  && p'.shields == p.shields + res.shields - 1
                  && Look(b.grid, res.r, res.c).mine)
  {
    var p := PlayerOf(b, side);
    MineEndsSlide(b.grid, p.row, p.col, d, true);
  }

  /** Moves keep the board valid: the grid stays rectangular and the pieces stay on non-wall cells. */
  lemma MovePreservesValid(b: Board, side: Side, d: Direction)
    requires Valid(b)
    ensures Valid(Move(b, side, d).board)
  {
    var p := PlayerOf(b, side);
    var b' := Move(b, side, d).board;
    SlideEndNotWall(b.grid, p.row, p.col, d, true);
    MineEndsSlide(b.grid, p.row, p.col, d, true);
    assert OnFloor(b.grid, PlayerOf(b', side));
    assert OnFloor(b.grid, PlayerOf(b', Other(side)));
    TerrainKeepsFloor(b.grid, b'.grid, PlayerOf(b', side));
    TerrainKeepsFloor(b.grid, b'.grid, PlayerOf(b', Other(side)));
    assert Cols(b'.grid) == Cols(b.grid);
    assert side == Human || side == Cpu;
  }

  lemma TerrainKeepsFloor(g: Grid, h: Grid, p: Player)
    requires SameTerrain(g, h) && OnFloor(g, p)
    ensures OnFloor(h, p)
  {
  }

  // ---------------------------------------------------------------------------
  // Safe moves and the end of the game.

  /** A direction in which a piece at `(r, c)` with `shields` shields moves and survives, judged on a non-consuming probe. */
  predicate Survivable(g: Grid, r: int, c: int, shields: int, d: Direction) {
    var sim := Slide(g, r, c, d, false).result;
    (!sim.hitMine || shields > 0) && (sim.r != r || sim.c != c)
  }

  /** The safe-move loop over the directions `ds`, in order. */
  function AnySurvivable(g: Grid, r: int, c: int, shields: int, ds: seq<Direction>): (found: bool)
    ensures found <==> exists i :: 0 <= i < |ds| && Survivable(g, r, c, shields, ds[i])
  {
    if ds == [] then false
    else if Survivable(g, r, c, shields, ds[0]) then true
    else
      assert forall i :: 1 <= i < |ds| ==> ds[i] == ds[1..][i - 1];
      AnySurvivable(g, r, c, shields, ds[1..])
  }

  /** Whether some direction lets the piece move without dying on a mine. */
  function HasAnySafeMove(g: Grid, r: int, c: int, shields: int): (found: bool)
    ensures found <==> exists d :: Survivable(g, r, c, shields, d)
  {
    var found := AnySurvivable(g, r, c, shields, AllDirections);
    assert forall d :: Survivable(g, r, c, shields, d) ==> AllDirections[Ordinal(d)] == d;
    found
  }

  /**
   The safe-move test is sound for the board: when it holds for a player, some move
   really changes that player's cell without ending the game.
   */
  lemma SafeMoveIsReal(b: Board, side: Side)
    requires !b.gameOver
    requires HasAnySafeMove(b.grid, PlayerOf(b, side).row, PlayerOf(b, side).col, PlayerOf(b, side).shields)
    ensures exists d :: var p' := PlayerOf(Move(b, side, d).board, side);
                        !Move(b, side, d).board.gameOver && (p'.row, p'.col) != (PlayerOf(b, side).row, PlayerOf(b, side).col)
  {
    var p := PlayerOf(b, side);
    var d :| Survivable(b.grid, p.row, p.col, p.shields, d);
    SlideIgnoresMutate(b.grid, p.row, p.col, d);
    MoveMineOutcome(b, side, d);
  }

  /**
   The safe-move test judges a mine by the shields held before the move, while a
   move also counts the shields picked up on the way to the mine: on the row
   `[piece, shield, mine]` the test finds no safe move, yet moving east survives.
   */
  lemma SafeMoveTestIgnoresPickups()
    ensures var g := [[EmptyCell, EmptyCell.(shield := true), EmptyCell.(mine := true)]];
            var b := Board(g, Player(0, 0, 0, 0), Player(0, 0, 0, 0), false, "");
            && !HasAnySafeMove(g, 0, 0, 0)
            && !Move(b, Human, E).board.gameOver
            && Move(b, Human, E).board.human == Player(0, 2, 0, 0)
            && Move(b, Human, E).shieldBreak == Some(ShieldBreak(0, 2))
  {
    var g := [[EmptyCell, EmptyCell.(shield := true), EmptyCell.(mine := true)]];
    forall d
      ensures !Survivable(g, 0, 0, 0, d)
    {
      assert Walk(g, 0, 1, E, false, 0, 1) == SlideOutcome(SlideResult(0, 2, 0, 1, true), g);
    }
    var g1 := SetCell(g, 0, 1, Consume(g[0][1]));
    assert g1[0][2] == g[0][2];
    assert Walk(g1, 0, 1, E, true, 0, 1).result == SlideResult(0, 2, 0, 1, true);
    assert Slide(g, 0, 0, E, true).result == SlideResult(0, 2, 0, 1, true);
  }

  /** Whether any cell of the grid holds a gem, scanning row by row. */
  function AnyGemLeft(g: Grid): (found: bool)
    ensures found <==> exists r, c :: InBounds(g, r, c) && g[r][c].gem
  {
    if g == [] then false
    else if RowHasGem(g[|g| - 1]) then true
    else
      assert forall r, c :: InBounds(g, r, c) && r < |g| - 1 ==> InBounds(g[..|g| - 1], r, c);
      AnyGemLeft(g[..|g| - 1])
  }

  function RowHasGem(row: seq<Cell>): (found: bool)
    ensures found <==> exists c :: 0 <= c < |row| && row[c].gem
  {
    if row == [] then false
    else if row[|row| - 1].gem then true
    else
      assert forall c :: 0 <= c < |row| - 1 ==> row[c] == row[..|row| - 1][c];
      RowHasGem(row[..|row| - 1])
  }

  /** No gem is left exactly when the gem tally is zero. */
  lemma {:induction false} AnyGemLeftIffCount(g: Grid)
    ensures AnyGemLeft(g) <==> GridCount(g, IsGem) > 0
    decreases |g|
  {
    if g != [] {
      var last := |g| - 1;
      RowCountZero(g[last], IsGem);
      AnyGemLeftIffCount(g[..last]);
    }
  }

  const GemsHumanWins := "All gems collected. Human wins!"
  const GemsCpuWins := "All gems collected. CPU wins!"
  const GemsDraw := "All gems collected. Draw!"
  const StalemateHumanWins := "Stalemate. Human wins!"
  const StalemateCpuWins := "Stalemate. CPU wins!"
  const StalemateDraw := "Stalemate. Draw!"

  /** The message naming the winner by strict score comparison. */
  function Verdict(human: nat, cpu: nat, humanWins: string, cpuWins: string, draw: string): string {
    if human > cpu then humanWins else if cpu > human then cpuWins else draw
  }

  function CanMove(b: Board, side: Side): bool {
    HasAnySafeMove(b.grid, PlayerOf(b, side).row, PlayerOf(b, side).col, PlayerOf(b, side).shields)
  }

  /**
   The end-of-game check: all gems gone, or neither player able to move safely, ends
   the game with the strict-score verdict; otherwise nothing changes. It does not
   look at the game-over flag first.
   */
  function CheckEndGame(b: Board): (b': Board)
    ensures b'.grid == b.grid && b'.human == b.human && b'.cpu == b.cpu
  {
    if !AnyGemLeft(b.grid) then
      b.(gameOver := true, result := Verdict(b.human.score, b.cpu.score, GemsHumanWins, GemsCpuWins, GemsDraw))
    else if !CanMove(b, Human) && !CanMove(b, Cpu) then
      b.(gameOver := true, result := Verdict(b.human.score, b.cpu.score, StalemateHumanWins, StalemateCpuWins, StalemateDraw))
    else
      b
  }

  /** The game-ending conditions of the check, stated on the gem tally and the players' safe moves. */
  lemma CheckEndGameCases(b: Board)
    ensures var b' := CheckEndGame(b);
            && (GridCount(b.grid, IsGem) == 0 ==>
                  b'.gameOver && (b'.result == GemsHumanWins <==> b.human.score > b.cpu.score)
                  && (b'.result == GemsCpuWins <==> b.cpu.score > b.human.score)
                  && (b'.result == GemsDraw <==> b.cpu.score == b.human.score))
            && (GridCount(b.grid, IsGem) > 0 && !CanMove(b, Human) && !CanMove(b, Cpu) ==>
                  b'.gameOver && (b'.result == StalemateHumanWins <==> b.human.score > b.cpu.score)
                  && (b'.result == StalemateCpuWins <==> b.cpu.score > b.human.score)
                  && (b'.result == StalemateDraw <==> b.cpu.score == b.human.score))
            && (GridCount(b.grid, IsGem) > 0 && (CanMove(b, Human) || CanMove(b, Cpu)) ==> b' == b)
  {
    AnyGemLeftIffCount(b.grid);
  }

  /** Checking twice is the same as checking once. */
  lemma CheckEndGameIdempotent(b: Board)
    ensures CheckEndGame(CheckEndGame(b)) == CheckEndGame(b)
  {
  }

  /**
   Because the check ignores the game-over flag, a finished game whose last gem was
   just collected has its mine-loss message replaced by the gem verdict.
   */
  lemma CheckEndGameOverwritesMineLoss(b: Board)
    requires b.gameOver && b.result == HumanMineLoss
    requires GridCount(b.grid, IsGem) == 0 && b.human.score > b.cpu.score
    ensures CheckEndGame(b).result == GemsHumanWins && CheckEndGame(b).result != b.result
  {
    AnyGemLeftIffCount(b.grid);
  }
}

=== FILE: generation.dfy ===
/**
 Board generation: a ring of walls, two 3×3 safety zones around the start cells,
 one random draw per remaining interior cell sorted into probability bands, a
 shield quota topped up at random cells, and finally gem pruning.

 Randomness is an input: `draws` holds the values in `[0, 100)` the interior loop
 draws, in the order it draws them, and `spots` the pairs of values the top-up loop
 draws. The top-up loop may run for ever in principle; here it stops when `spots`
 is used up.
 */
module Generation {

  import opened Levels
  import opened Grids
  import opened Pruning
  import opened Game

  /** Shields the generator aims to place. */
  function Quota(level: Difficulty): (n: nat)
    ensures n == 2 || n == 4
    ensures n == 4 <==> level == Hard
  {
    if level == Hard then 4 else 2
  }

  predicate OnBorder(rows: int, cols: int, r: int, c: int) {
    r == 0 || c == 0 || r == rows - 1 || c == cols - 1
  }

  /** Within one step (king's move) of `(zr, zc)`. */
  predicate Near(r: int, c: int, zr: int, zc: int) {
    -1 <= r - zr <= 1 && -1 <= c - zc <= 1
  }

  /** The 3×3 zones around the two start cells, which the draws skip. */
  predicate InSafetyZone(rows: int, cols: int, r: int, c: int) {
    Near(r, c, 1, 1) || Near(r, c, rows - 2, cols - 2)
  }

  /** Fresh cells, walls on the outer ring. */
  function Blank(rows: nat, cols: nat): (g: Grid)
    ensures |g| == rows && forall r :: 0 <= r < rows ==> |g[r]| == cols
    ensures forall r, c :: InBounds(g, r, c) ==> g[r][c] == EmptyCell.(wall := OnBorder(rows, cols, r, c))
  {
    seq(rows, r => seq(cols, c => EmptyCell.(wall := OnBorder(rows, cols, r, c))))
  }

  /** The probability bands of one draw `v` in `[0, 100)`. */
  datatype Band = WallBand | GemBand | StopBand | MineBand | ShieldBand | NoBand

  function BandOf(v: int): Band {
    if v < 12 then WallBand
    else if v < 30 then GemBand
    else if v < 42 then StopBand
    else if v < 48 then MineBand
    else if v < 52 then ShieldBand
    else NoBand
  }

  /** The cell a draw makes of a fresh cell, and the shield count after it. */
  function Apply(x: Cell, v: int, count: nat, quota: nat): (r: (Cell, nat))
    ensures !x.shield ==> r.1 == count + B2I(r.0.shield)
    ensures r.1 <= quota || r.1 == count
    ensures x == EmptyCell ==> Single(r.0)
  {
    match BandOf(v)
    case WallBand => (x.(wall := true), count)
    case GemBand => (x.(gem := true), count)
    case StopBand => (x.(stop := true), count)
    case MineBand => (x.(mine := true), count)
    case ShieldBand => if count < quota then (x.(shield := true), count + 1) else (x, count)
    case NoBand => (x, count)
  }

  /** A cell carries at most one of the five flags. */
  predicate Single(x: Cell) {
    B2I(x.wall) + B2I(x.gem) + B2I(x.stop) + B2I(x.mine) + B2I(x.shield) <= 1
  }

  /** The generator's state: the grid, the shields placed, and how many draws were used. */
  datatype Gen = Gen(grid: Grid, count: nat, next: nat)

  /** The grid has `rows` rows of `cols` cells. */
  predicate Shaped(g: Grid, rows: int, cols: int) {
    |g| == rows && forall r :: 0 <= r < |g| ==> |g[r]| == cols
  }

  /** The interior loop from cell `(r, c)` to the end of row `r`. */
  function PopulateRow(rows: int, cols: int, r: int, c: int, st: Gen, draws: seq<int>, quota: nat): (st': Gen)
    requires 1 <= r <= rows - 2 && 1 <= c <= cols - 1
    requires Shaped(st.grid, rows, cols)
    requires st.next + (cols - 1 - c) <= |draws|
    ensures Shaped(st'.grid, rows, cols)
    ensures st.next <= st'.next <= st.next + (cols - 1 - c)
    decreases cols - c
  {
    if c == cols - 1 then st
    else
      PopulateRow(rows, cols, r, c + 1, PopulateBody(rows, cols, r, c, st, draws, quota), draws, quota)
  }

  /** Cells in `k` rows of `w` cells, counted row by row. */
  function Area(k: int, w: int): (a: int)
    ensures w >= 0 ==> a >= 0
    decreases k
  {
    if k <= 0 then 0 else Area(k - 1, w) + w
  }

  lemma {:induction false} AreaIsProduct(k: nat, w: int)
    ensures Area(k, w) == k * w
  {
    if k > 0 {
      AreaIsProduct(k - 1, w);
    }
  }

  /** The interior loop from row `r` on. */
  function PopulateRows(rows: int, cols: int, r: int, st: Gen, draws: seq<int>, quota: nat): (st': Gen)
    requires 1 <= r <= rows - 1 && cols >= 2
    requires Shaped(st.grid, rows, cols)
    requires st.next + Area(rows - 1 - r, cols - 2) <= |draws|
    ensures Shaped(st'.grid, rows, cols)
    decreases rows - r
  {
    if r == rows - 1 then st
    else
      var st1 := PopulateRow(rows, cols, r, 1, st, draws, quota);
      PopulateRows(rows, cols, r + 1, st1, draws, quota)
  }

  /**
   The shield top-up loop, from the `i`-th drawn spot: a spot `(a, b)` names the
   interior cell `(1 + a, 1 + b)`, which receives a shield when it carries no flag.
   The loop ends when the quota is met or the spots are used up.
   */
  function TopUp(rows: int, cols: int, g: Grid, count: nat, quota: nat, spots: seq<(int, int)>, i: nat): (st: Gen)
    requires Shaped(g, rows, cols) && i <= |spots|
    requires forall k :: 0 <= k < |spots| ==> 0 <= spots[k].0 < rows - 2 && 0 <= spots[k].1 < cols - 2
    ensures Shaped(st.grid, rows, cols) && i <= st.next <= |spots|
    ensures st.count >= quota || st.next == |spots|
    decreases |spots| - i
  {
    if count >= quota || i == |spots| then Gen(g, count, i)
    else
      var r, c := 1 + spots[i].0, 1 + spots[i].1;
      var x := g[r][c];
      if !x.wall && !x.gem && !x.stop && !x.mine && !x.shield then
        TopUp(rows, cols, SetCell(g, r, c, x.(shield := true)), count + 1, quota, spots, i + 1)
      else
        TopUp(rows, cols, g, count, quota, spots, i + 1)
  }

  /**
   A fresh board: walls, draws, shield top-up, then pruning from the human's start;
   the human starts at `(1, 1)` and the computer at `(rows - 2, cols - 2)`.
   */
  function Init(rows: int, cols: int, level: Difficulty, draws: seq<int>, spots: seq<(int, int)>): (b: Board)
    requires rows >= 3 && cols >= 3
    requires |draws| >= (rows - 2) * (cols - 2)
    requires forall k :: 0 <= k < |spots| ==> 0 <= spots[k].0 < rows - 2 && 0 <= spots[k].1 < cols - 2
    ensures b.human == Player(1, 1, 0, 0) && b.cpu == Player(rows - 2, cols - 2, 0, 0)
    ensures !b.gameOver && b.result == ""
  {
    var placed := Placed(rows, cols, level, draws, spots);
    Board(Prune(placed.grid, (1, 1)), Player(1, 1, 0, 0), Player(rows - 2, cols - 2, 0, 0), false, "")
  }

  /** The grid before pruning, with the shields placed and the spots used. */
  function Placed(rows: int, cols: int, level: Difficulty, draws: seq<int>, spots: seq<(int, int)>): (st: Gen)
    requires rows >= 3 && cols >= 3
    requires |draws| >= (rows - 2) * (cols - 2)
    requires forall k :: 0 <= k < |spots| ==> 0 <= spots[k].0 < rows - 2 && 0 <= spots[k].1 < cols - 2
    ensures Shaped(st.grid, rows, cols) && st.next <= |spots|
    ensures st.count >= Quota(level) || st.next == |spots|
  {
    AreaIsProduct(rows - 2, cols - 2);
    var filled := PopulateRows(rows, cols, 1, Gen(Blank(rows, cols), 0, 0), draws, Quota(level));
    TopUp(rows, cols, filled.grid, filled.count, Quota(level), spots, 0)
  }

  // ---------------------------------------------------------------------------
  // What generation guarantees.

  /**
   The cell at `(r, c)` is as generation leaves it: the ring is bare wall, the
   safety zones hold no wall, gem, stop marker or mine, and no cell has two flags.
   */
  predicate CellOK(rows: int, cols: int, r: int, c: int, x: Cell) {
    && (OnBorder(rows, cols, r, c) ==> x == EmptyCell.(wall := true))
    && (!OnBorder(rows, cols, r, c) && InSafetyZone(rows, cols, r, c) ==> !x.wall && !x.gem && !x.stop && !x.mine)
    && Single(x)
  }

  ghost predicate CellsOK(g: Grid, rows: int, cols: int) {
    forall r, c :: InBounds(g, r, c) ==> CellOK(rows, cols, r, c, g[r][c])
  }

  /** Interior cells from `(r, c)` on, in row-major order, are still fresh. */
  ghost predicate FreshFrom(g: Grid, rows: int, cols: int, r: int, c: int) {
    forall i, j :: InBounds(g, i, j) && 1 <= i <= rows - 2 && 1 <= j <= cols - 2 && (i > r || (i == r && j >= c))
                   ==> g[i][j] == EmptyCell
  }

  /**
   The interior loop's invariant at `(r, c)`: every cell is sound, the cells from
   `(r, c)` on are still fresh, and the count is the grid's shields, within the quota.
   */
  ghost predicate SoundFrom(st: Gen, rows: int, cols: int, r: int, c: int, quota: nat) {
    Sound(st, rows, cols, quota) && FreshFrom(st.grid, rows, cols, r, c)
  }

  /** Every cell is sound and the count is the grid's shields, within the quota. */
  ghost predicate Sound(st: Gen, rows: int, cols: int, quota: nat) {
    CellsOK(st.grid, rows, cols) && GridCount(st.grid, IsShield) == st.count <= quota
  }

  /** Setting one cell to a sound value keeps every cell sound. */
  lemma SetCellOK(g: Grid, rows: int, cols: int, r: int, c: int, x: Cell)
    requires CellsOK(g, rows, cols) && InBounds(g, r, c) && CellOK(rows, cols, r, c, x)
    ensures CellsOK(SetCell(g, r, c, x), rows, cols)
  {
  }

  /** The state after the interior loop's body at `(r, c)`. */
  function PopulateBody(rows: int, cols: int, r: int, c: int, st: Gen, draws: seq<int>, quota: nat): (st1: Gen)
    requires 1 <= r <= rows - 2 && 1 <= c < cols - 1
    requires Shaped(st.grid, rows, cols)
    requires st.next < |draws|
    ensures Shaped(st1.grid, rows, cols)
    ensures st1.next == st.next + 1 <==> !InSafetyZone(rows, cols, r, c) && !st.grid[r][c].wall
    ensures st1.next == st.next || st1.next == st.next + 1
  {
    if InSafetyZone(rows, cols, r, c) || st.grid[r][c].wall then st
    else
      var (x, count) := Apply(st.grid[r][c], draws[st.next], st.count, quota);
      Gen(SetCell(st.grid, r, c, x), count, st.next + 1)
  }

  /** The body at `(r, c)` moves the sound state one cell forward. */
  lemma PopulateBodySound(rows: int, cols: int, r: int, c: int, st: Gen, draws: seq<int>, quota: nat)
    requires 1 <= r <= rows - 2 && 1 <= c < cols - 1
    requires Shaped(st.grid, rows, cols)
    requires st.next < |draws|
    requires SoundFrom(st, rows, cols, r, c, quota)
    ensures SoundFrom(PopulateBody(rows, cols, r, c, st, draws, quota), rows, cols, r, c + 1, quota)
  {
    if !(InSafetyZone(rows, cols, r, c) || st.grid[r][c].wall) {
      assert st.grid[r][c] == EmptyCell;
      var (x, count) := Apply(st.grid[r][c], draws[st.next], st.count, quota);
      GridCountUpdate(st.grid, r, c, x, IsShield);
      SetCellOK(st.grid, rows, cols, r, c, x);
    }
  }

  /** One pass of the interior loop keeps the cells sound and the shield tally equal to the count. */
  lemma {:induction false} PopulateRowSound(rows: int, cols: int, r: int, c: int, st: Gen, draws: seq<int>, quota: nat)
    requires 1 <= r <= rows - 2 && 1 <= c <= cols - 1
    requires Shaped(st.grid, rows, cols)
    requires st.next + (cols - 1 - c) <= |draws|
    requires SoundFrom(st, rows, cols, r, c, quota)
    ensures SoundFrom(PopulateRow(rows, cols, r, c, st, draws, quota), rows, cols, r + 1, 1, quota)
    decreases cols - c
  {
    if c == cols - 1 {
      FreshNextRow(st.grid, rows, cols, r);
    } else {
      var st1 := PopulateBody(rows, cols, r, c, st, draws, quota);
      assert PopulateRow(rows, cols, r, c, st, draws, quota) == PopulateRow(rows, cols, r, c + 1, st1, draws, quota);
      PopulateBodySound(rows, cols, r, c, st, draws, quota);
      PopulateRowSound(rows, cols, r, c + 1, st1, draws, quota);
    }
  }

  lemma FreshNextRow(g: Grid, rows: int, cols: int, r: int)
    requires FreshFrom(g, rows, cols, r, cols - 1)
    ensures FreshFrom(g, rows, cols, r + 1, 1)
  {
  }

  /** The whole interior loop keeps the cells sound and the shield tally equal to the count. */
  lemma {:induction false} PopulateRowsSound(rows: int, cols: int, r: int, st: Gen, draws: seq<int>, quota: nat)
    requires 1 <= r <= rows - 1 && cols >= 2
    requires Shaped(st.grid, rows, cols)
    requires st.next + Area(rows - 1 - r, cols - 2) <= |draws|
    requires SoundFrom(st, rows, cols, r, 1, quota)
    ensures Sound(PopulateRows(rows, cols, r, st, draws, quota), rows, cols, quota)
    decreases rows - r
  {
    if r < rows - 1 {
      assert Area(rows - 1 - r, cols - 2) == Area(rows - 1 - (r + 1), cols - 2) + (cols - 2);
      var st1 := PopulateRow(rows, cols, r, 1, st, draws, quota);
      assert st1.next + Area(rows - 1 - (r + 1), cols - 2) <= |draws|;
      assert PopulateRows(rows, cols, r, st, draws, quota) == PopulateRows(rows, cols, r + 1, st1, draws, quota);
      PopulateRowSound(rows, cols, r, 1, st, draws, quota);
      PopulateRowsSound(rows, cols, r + 1, st1, draws, quota);
    }
  }

  /** One top-up step keeps the cells sound and the shield tally equal to the count. */
  lemma TopUpStepSound(rows: int, cols: int, g: Grid, count: nat, quota: nat, r: int, c: int)
    requires Shaped(g, rows, cols) && 1 <= r <= rows - 2 && 1 <= c <= cols - 2
    requires CellsOK(g, rows, cols) && GridCount(g, IsShield) == count < quota
    requires var x := g[r][c]; !x.wall && !x.gem && !x.stop && !x.mine && !x.shield
    ensures CellsOK(SetCell(g, r, c, g[r][c].(shield := true)), rows, cols)
    ensures GridCount(SetCell(g, r, c, g[r][c].(shield := true)), IsShield) == count + 1 <= quota
  {
    GridCountUpdate(g, r, c, g[r][c].(shield := true), IsShield);
    SetCellOK(g, rows, cols, r, c, g[r][c].(shield := true));
  }

  /** The top-up loop keeps the cells sound and the shield tally equal to the count, never passing the quota. */
  lemma {:induction false} TopUpSound(rows: int, cols: int, g: Grid, count: nat, quota: nat, spots: seq<(int, int)>, i: nat)
    requires Shaped(g, rows, cols) && i <= |spots|
    requires forall k :: 0 <= k < |spots| ==> 0 <= spots[k].0 < rows - 2 && 0 <= spots[k].1 < cols - 2
    requires CellsOK(g, rows, cols) && GridCount(g, IsShield) == count <= quota
    ensures var st := TopUp(rows, cols, g, count, quota, spots, i);
            CellsOK(st.grid, rows, cols) && GridCount(st.grid, IsShield) == st.count <= quota
    decreases |spots| - i
  {
    if count < quota && i < |spots| {
      var r, c := 1 + spots[i].0, 1 + spots[i].1;
      var x := g[r][c];
      if !x.wall && !x.gem && !x.stop && !x.mine && !x.shield {
        TopUpStepSound(rows, cols, g, count, quota, r, c);
        TopUpSound(rows, cols, SetCell(g, r, c, x.(shield := true)), count + 1, quota, spots, i + 1);
      } else {
        TopUpSound(rows, cols, g, count, quota, spots, i + 1);
      }
    }
  }

  /** The generated grid, before pruning, is sound and holds exactly the shields counted. */
  lemma PlacedSound(rows: int, cols: int, level: Difficulty, draws: seq<int>, spots: seq<(int, int)>)
    requires rows >= 3 && cols >= 3
    requires |draws| >= (rows - 2) * (cols - 2)
    requires forall k :: 0 <= k < |spots| ==> 0 <= spots[k].0 < rows - 2 && 0 <= spots[k].1 < cols - 2
    ensures var st := Placed(rows, cols, level, draws, spots);
            CellsOK(st.grid, rows, cols) && GridCount(st.grid, IsShield) == st.count <= Quota(level)
  {
    AreaIsProduct(rows - 2, cols - 2);
    var g0 := Blank(rows, cols);
    BlankShields(rows, cols);
    var filled := PopulateRows(rows, cols, 1, Gen(g0, 0, 0), draws, Quota(level));
    PopulateRowsSound(rows, cols, 1, Gen(g0, 0, 0), draws, Quota(level));
    TopUpSound(rows, cols, filled.grid, filled.count, Quota(level), spots, 0);
  }

  /** A blank grid holds no shield. */
  lemma BlankShields(rows: nat, cols: nat)
    ensures GridCount(Blank(rows, cols), IsShield) == 0
  {
    var g := Blank(rows, cols);
    var e := seq(rows, r => seq(cols, c => EmptyCell));
    GridCountAgree(g, e, IsShield);
    EmptyShields(e);
  }

  lemma {:induction false} EmptyShields(g: Grid)
    requires forall r, c :: InBounds(g, r, c) ==> !g[r][c].shield
    ensures GridCount(g, IsShield) == 0
    decreases |g|
  {
    if g != [] {
      var last := |g| - 1;
      RowCountZero(g[last], IsShield);
      EmptyShields(g[..last]);
    }
  }

  /** Pruning keeps every cell sound and every shield. */
  lemma PruneKeepsSound(g: Grid, rows: int, cols: int)
    requires InBounds(g, 1, 1) && CellsOK(g, rows, cols)
    ensures CellsOK(Prune(g, (1, 1)), rows, cols)
    ensures GridCount(Prune(g, (1, 1)), IsShield) == GridCount(g, IsShield)
  {
    var h := Prune(g, (1, 1));
    forall r, c | InBounds(h, r, c)
      ensures CellOK(rows, cols, r, c, h[r][c])
    {
      assert h[r][c] == g[r][c].(gem := h[r][c].gem);
    }
    GridCountAgree(g, h, IsShield);
  }

  /** A grid of the requested size whose two start cells are sound has both start cells open. */
  lemma StartsOpen(g: Grid, rows: int, cols: int)
    requires rows >= 3 && cols >= 3 && Shaped(g, rows, cols)
    requires CellOK(rows, cols, 1, 1, g[1][1]) && CellOK(rows, cols, rows - 2, cols - 2, g[rows - 2][cols - 2])
    ensures Valid(Board(g, Player(1, 1, 0, 0), Player(rows - 2, cols - 2, 0, 0), false, ""))
  {
  }

  /** Pruning keeps the grid's size. */
  lemma PruneKeepsShape(g: Grid, rows: int, cols: int)
    requires rows >= 3 && cols >= 3 && Shaped(g, rows, cols)
    ensures Shaped(Prune(g, (1, 1)), rows, cols)
  {
  }

  /**
   A fresh board is a rectangle of the requested size with both pieces on open
   cells, a wall ring, safety zones without walls, gems, stop markers or mines, and
   at most one flag per cell.
   */
  lemma InitSound(rows: int, cols: int, level: Difficulty, draws: seq<int>, spots: seq<(int, int)>)
    requires rows >= 3 && cols >= 3
    requires |draws| >= (rows - 2) * (cols - 2)
    requires forall k :: 0 <= k < |spots| ==> 0 <= spots[k].0 < rows - 2 && 0 <= spots[k].1 < cols - 2
    ensures var b := Init(rows, cols, level, draws, spots);
            Valid(b) && Shaped(b.grid, rows, cols) && CellsOK(b.grid, rows, cols)
  {
    var st := Placed(rows, cols, level, draws, spots);
    PlacedSound(rows, cols, level, draws, spots);
    PrunedBoardSound(st.grid, rows, cols);
  }

  /** Pruning a sound grid and placing the pieces at their start cells gives a valid, sound board. */
  lemma PrunedBoardSound(g: Grid, rows: int, cols: int)
    requires rows >= 3 && cols >= 3 && Shaped(g, rows, cols) && CellsOK(g, rows, cols)
    ensures var b := Board(Prune(g, (1, 1)), Player(1, 1, 0, 0), Player(rows - 2, cols - 2, 0, 0), false, "");
            Valid(b) && Shaped(b.grid, rows, cols) && CellsOK(b.grid, rows, cols)
  {
    PruneKeepsShape(g, rows, cols);
    PruneKeepsSound(g, rows, cols);
    StartsOpen(Prune(g, (1, 1)), rows, cols);
  }

  /**
   A fresh board holds no more shields than the level's quota, and exactly the
   quota unless the drawn spots ran out first.
   */
  lemma InitShields(rows: int, cols: int, level: Difficulty, draws: seq<int>, spots: seq<(int, int)>)
    requires rows >= 3 && cols >= 3
    requires |draws| >= (rows - 2) * (cols - 2)
    requires forall k :: 0 <= k < |spots| ==> 0 <= spots[k].0 < rows - 2 && 0 <= spots[k].1 < cols - 2
    ensures var b := Init(rows, cols, level, draws, spots);
            && GridCount(b.grid, IsShield) <= Quota(level)
            && (GridCount(b.grid, IsShield) == Quota(level) || Placed(rows, cols, level, draws, spots).next == |spots|)
  {
    var st := Placed(rows, cols, level, draws, spots);
    assert Init(rows, cols, level, draws, spots).grid == Prune(st.grid, (1, 1));
    PlacedSound(rows, cols, level, draws, spots);
    PruneKeepsSound(st.grid, rows, cols);
  }

  /**
   Every gem left on a fresh board lies on the ray of a mine-free slide from a cell
   the human can reach from the start, and pruning the board again changes nothing.
   */
  lemma InitGemsReachable(rows: int, cols: int, level: Difficulty, draws: seq<int>, spots: seq<(int, int)>)
    requires rows >= 3 && cols >= 3
    requires |draws| >= (rows - 2) * (cols - 2)
    requires forall k :: 0 <= k < |spots| ==> 0 <= spots[k].0 < rows - 2 && 0 <= spots[k].1 < cols - 2
    ensures var g := Init(rows, cols, level, draws, spots).grid;
            && (1, 1) in Cells(g)
            && (forall r, c :: InBounds(g, r, c) && g[r][c].gem ==>
                  exists p :: p in Reach(g, (1, 1)) && Feeds(g, p, (r, c)))
            && Prune(g, (1, 1)) == g
  {
    var g0 := Placed(rows, cols, level, draws, spots).grid;
    assert Init(rows, cols, level, draws, spots).grid == Prune(g0, (1, 1));
    PrunedGemsFed(g0, (1, 1));
    PruneIdempotent(g0, (1, 1));
  }
}

=== FILE: grids.dfy ===
/**
 Cells and the board grid: bounds, single-cell updates and flag tallies.
 A grid is a sequence of rows; the board keeps it rectangular.
 */
module Grids {

  /** The five flags of a cell, kept as independent booleans. */
  datatype Cell = Cell(wall: bool, gem: bool, mine: bool, shield: bool, stop: bool)

  /** A freshly allocated cell: no flag set. */
  const EmptyCell := Cell(false, false, false, false, false)

  type Grid = seq<seq<Cell>>

  /** Number of columns, read off the first row. */
  function Cols(g: Grid): nat {
    if |g| == 0 then 0 else |g[0]|
  }

  /** Every row has the same length. */
  predicate Rect(g: Grid) {
    forall r :: 0 <= r < |g| ==> |g[r]| == Cols(g)
  }

  predicate InBounds(g: Grid, r: int, c: int) {
    0 <= r < |g| && 0 <= c < |g[r]|
  }

  /** The cell at `(r, c)`, with every position off the grid reading as a wall. */
  function Look(g: Grid, r: int, c: int): (x: Cell)
    ensures !InBounds(g, r, c) ==> x.wall
    ensures InBounds(g, r, c) ==> x == g[r][c]
  {
    if InBounds(g, r, c) then g[r][c] else EmptyCell.(wall := true)
  }

  predicate SameShape(g: Grid, h: Grid) {
    |g| == |h| && forall r :: 0 <= r < |g| ==> |g[r]| == |h[r]|
  }

  /** Grids of the same shape that agree cell by cell are equal. */
  lemma GridExtensional(g: Grid, h: Grid)
    requires SameShape(g, h)
    requires forall r, c :: InBounds(g, r, c) ==> g[r][c] == h[r][c]
    ensures g == h
  {
    forall r | 0 <= r < |g|
      ensures g[r] == h[r]
    {
      assert forall c :: 0 <= c < |g[r]| ==> g[r][c] == h[r][c];
    }
  }

  /** Same shape, and the same walls, mines and stop markers everywhere: only items may differ. */
  ghost predicate SameTerrain(g: Grid, h: Grid) {
    && SameShape(g, h)
    && forall r, c :: InBounds(g, r, c) ==>
         g[r][c].wall == h[r][c].wall && g[r][c].mine == h[r][c].mine && g[r][c].stop == h[r][c].stop
  }

  /** The grid with the cell at `(r, c)` replaced by `x`. */
  function SetCell(g: Grid, r: int, c: int, x: Cell): (h: Grid)
    requires InBounds(g, r, c)
    ensures SameShape(g, h)
    ensures h[r][c] == x
    ensures forall i, j :: InBounds(g, i, j) && (i, j) != (r, c) ==> h[i][j] == g[i][j]
  {
    g[r := g[r][c := x]]
  }

  /** A cell with both collectable items removed, as a consuming slide leaves it. */
  function Consume(x: Cell): (y: Cell)
    ensures !y.gem && !y.shield
    ensures y.wall == x.wall && y.mine == x.mine && y.stop == x.stop
  {
    x.(gem := false, shield := false)
  }

  function B2I(b: bool): nat {
    if b then 1 else 0
  }

  /** Number of cells of one row that satisfy `f`. */
  function RowCount(row: seq<Cell>, f: Cell -> bool): (n: nat)
    ensures n <= |row|
  {
    if row == [] then 0 else RowCount(row[..|row| - 1], f) + B2I(f(row[|row| - 1]))
  }

  /** Number of cells of the grid that satisfy `f`. */
  function GridCount(g: Grid, f: Cell -> bool): nat {
    if g == [] then 0 else GridCount(g[..|g| - 1], f) + RowCount(g[|g| - 1], f)
  }

  function IsGem(x: Cell): bool { x.gem }

  function IsShield(x: Cell): bool { x.shield }

  /** Replacing one cell changes a row's tally by exactly that cell's contribution. */
  lemma {:induction false} RowCountUpdate(row: seq<Cell>, c: int, x: Cell, f: Cell -> bool)
    requires 0 <= c < |row|
    ensures RowCount(row[c := x], f) + B2I(f(row[c])) == RowCount(row, f) + B2I(f(x))
    decreases |row|
  {
    var last := |row| - 1;
    if c == last {
      assert row[c := x][..last] == row[..last];
    } else {
      assert row[c := x][..last] == row[..last][c := x];
      RowCountUpdate(row[..last], c, x, f);
    }
  }

  /** Replacing one cell changes the grid's tally by exactly that cell's contribution. */
  lemma {:induction false} GridCountUpdate(g: Grid, r: int, c: int, x: Cell, f: Cell -> bool)
    requires InBounds(g, r, c)
    ensures GridCount(SetCell(g, r, c, x), f) + B2I(f(g[r][c])) == GridCount(g, f) + B2I(f(x))
    decreases |g|
  {
    var h := SetCell(g, r, c, x);
    var last := |g| - 1;
    if r == last {
      assert h[..last] == g[..last];
      RowCountUpdate(g[r], c, x, f);
    } else {
      assert h[..last] == SetCell(g[..last], r, c, x);
      GridCountUpdate(g[..last], r, c, x, f);
    }
  }

  /** Rows that agree on `f` cell by cell have the same tally. */
  lemma {:induction false} RowCountAgree(a: seq<Cell>, b: seq<Cell>, f: Cell -> bool)
    requires |a| == |b|
    requires forall j :: 0 <= j < |a| ==> f(a[j]) == f(b[j])
    ensures RowCount(a, f) == RowCount(b, f)
    decreases |a|
  {
    if a != [] {
      RowCountAgree(a[..|a| - 1], b[..|b| - 1], f);
    }
  }

  /** Grids of the same shape that agree on `f` cell by cell have the same tally. */
  lemma {:induction false} GridCountAgree(g: Grid, h: Grid, f: Cell -> bool)
    requires SameShape(g, h)
    requires forall i, j :: InBounds(g, i, j) ==> f(g[i][j]) == f(h[i][j])
    ensures GridCount(g, f) == GridCount(h, f)
    decreases |g|
  {
    if g != [] {
      var last := |g| - 1;
      RowCountAgree(g[last], h[last], f);
      GridCountAgree(g[..last], h[..last], f);
    }
  }

  /** A row tally is zero exactly when no cell of the row satisfies `f`. */
  lemma {:induction false} RowCountZero(row: seq<Cell>, f: Cell -> bool)
    ensures RowCount(row, f) == 0 <==> forall j :: 0 <= j < |row| ==> !f(row[j])
    decreases |row|
  {
    if row != [] {
      RowCountZero(row[..|row| - 1], f);
    }
  }
}

=== FILE: hard.dfy ===
/**
 The hard opponent: a decision tree four moves deep. Each node is a position; its
 children are the valid moves to positions not yet on the path. When there are
 more than two valid moves they are taken in chunks and only the best subtree of
 each chunk is kept. The tree is then evaluated bottom-up, each node adding to its
 own value nine tenths of its best child's.
 */
module HardTier {

  import opened Options
  import opened Compass
  import opened Grids
  import opened Slides
  import opened Regions
  import opened Tactics
  import opened Game

  /** How many moves deep the tree goes. */
  const HardDepth := 4

  /** A child's worth as it counts in its parent's: nine tenths of it. */
  function Discounted(x: real): (y: real)
    ensures x <= 0.0 ==> x <= y <= 0.0
    ensures x >= 0.0 ==> 0.0 <= y <= x
  {
    0.9 * x
  }

  /** Discounting keeps the order of worths, strict and weak. */
  lemma DiscountedMonotone(x: real, y: real)
    ensures Discounted(x) <= Discounted(y) <==> x <= y
    ensures Discounted(x) < Discounted(y) <==> x < y
  {
  }

  /**
   A node: the position and shields it stands for, the move that led to it (none at
   the root), the value of that move, the static score of the position (kept only at
   nodes without children), and the children.
   */
  datatype DecisionTree = DecisionTree(r: int, c: int, shields: int, direction: Option<Direction>,
                                       immediate: int, score: int, children: seq<DecisionTree>)

  /** A node's own value: its move's value plus its static score. */
  function TotalValue(t: DecisionTree): int {
    t.immediate + t.score
  }

  /** `k` holds a maximal value of `vals`, and every earlier position holds strictly less. */
  predicate IsFirstMax(vals: seq<real>, k: int) {
    && 0 <= k < |vals|
    && (forall i :: 0 <= i < |vals| ==> vals[i] <= vals[k])
    && (forall i :: 0 <= i < k ==> vals[i] < vals[k])
  }

  /** Left-to-right scan for the best value, moving on only to a strictly higher one. */
  function FirstMax(vals: seq<real>): (k: nat)
    requires vals != []
    ensures IsFirstMax(vals, k)
    decreases |vals|
  {
    if |vals| == 1 then 0
    else
      var init := vals[..|vals| - 1];
      var k := FirstMax(init);
      assert forall i :: 0 <= i < |vals| - 1 ==> vals[i] == init[i];
      if vals[|vals| - 1] > vals[k] then |vals| - 1 else k
  }

  /** The trees present in `xs`, in order. */
  function Somes(xs: seq<Option<DecisionTree>>): (ts: seq<DecisionTree>)
    ensures |ts| <= |xs|
    ensures ts == [] <==> forall i :: 0 <= i < |xs| ==> xs[i].None?
    ensures forall t :: t in ts <==> Some(t) in xs
  {
    if xs == [] then []
    else
      var rest := Somes(xs[1..]);
      assert forall x :: x in xs <==> x == xs[0] || x in xs[1..];
      assert forall i :: 1 <= i < |xs| ==> xs[i] == xs[1..][i - 1];
      if xs[0].Some? then [xs[0].value] + rest else rest
  }

  /** The valid moves taken `size` at a time; only the last chunk may be shorter. */
  function Chunks(vs: seq<Direction>, size: nat): (chunks: seq<seq<Direction>>)
    requires size >= 1
    ensures forall i :: 0 <= i < |chunks| ==> 1 <= |chunks[i]| <= size
    ensures forall i :: 0 <= i < |chunks| - 1 ==> |chunks[i]| == size
    ensures forall i, d :: 0 <= i < |chunks| && d in chunks[i] ==> d in vs
    ensures forall d :: d in vs ==> exists i :: 0 <= i < |chunks| && d in chunks[i]
    decreases |vs|
  {
    if |vs| == 0 then []
    else if |vs| <= size then
      assert forall d :: d in vs ==> d in [vs][0];
      [vs]
    else
      var rest := Chunks(vs[size..], size);
      assert vs == vs[..size] + vs[size..];
      var chunks := [vs[..size]] + rest;
      assert forall i :: 1 <= i < |chunks| ==> chunks[i] == rest[i - 1];
      forall d | d in vs
        ensures exists i :: 0 <= i < |chunks| && d in chunks[i]
      {
        if d in vs[..size] {
          assert d in chunks[0];
        } else {
          assert d in vs[size..];
          var i :| 0 <= i < |rest| && d in rest[i];
          assert d in chunks[i + 1];
        }
      }
      chunks
  }

  /** The chunk size for `n` valid moves: a third of them, but at least two. */
  function ChunkSize(n: int): (size: int)
    ensures size >= 2 && size >= n / 3
  {
    if n / 3 > 2 then n / 3 else 2
  }

  /** The key a visited end cell is recorded under. */
  function CellKey(r: int, c: int): int {
    r * 1000 + c
  }

  /** Nodes with children stay within `depth` levels. */
  ghost predicate WithinDepth(t: DecisionTree, depth: int)
    decreases t
  {
    && depth >= 0
    && (t.children != [] ==> depth >= 1 && forall i :: 0 <= i < |t.children| ==> WithinDepth(t.children[i], depth - 1))
  }

  /**
   `ch` is the child reached by moving `d` from `(r, c)`: it stands where the slide
   ends with the shields it leaves, it carries the move and the move's value, and its
   end cell was not yet on the path.
   */
  predicate Reached(g: Grid, p: Policy, r: int, c: int, shields: int, visited: set<int>, d: Direction, ch: DecisionTree) {
    var sim := Sim(g, r, c, d);
    && ch.direction == Some(d)
    && ch.r == sim.r && ch.c == sim.c
    && ch.shields == AdjustShields(sim, shields)
    && ch.immediate == EvaluateMove(g, p, sim)
    && CellKey(sim.r, sim.c) !in visited
  }

  /** `ch` is a child of the node at `(r, c)` built with `depth` levels to go. */
  ghost predicate ChildOK(g: Grid, p: Policy, r: int, c: int, shields: int, visited: set<int>, depth: int, ch: DecisionTree) {
    && ch.direction.Some?
    && ValidMove(g, r, c, shields, ch.direction.value)
    && Reached(g, p, r, c, shields, visited, ch.direction.value, ch)
    && WithinDepth(ch, depth - 1)
  }

  /**
   The tree below `(r, c)`. Every child is reached by a valid move, and the tree stays
   within `depth` levels. A node at depth zero or without valid moves scores its
   position; every other node scores zero, even when all its moves lead back onto
   the path and it ends up without children.
   */
  function BuildTree(g: Grid, p: Policy, r: int, c: int, shields: int, visited: set<int>, depth: nat): (t: DecisionTree)
    ensures t.r == r && t.c == c && t.shields == shields && t.direction == None && t.immediate == 0
    ensures t.score == if depth == 0 || ValidMoves(g, r, c, shields) == [] then EvaluatePosition(g, p, r, c) else 0
    ensures t.children != [] ==> depth >= 1
    ensures forall i :: 0 <= i < |t.children| ==> ChildOK(g, p, r, c, shields, visited, depth, t.children[i])
    decreases depth, 3
  {
    var leaf := DecisionTree(r, c, shields, None, 0, 0, []);
    if depth == 0 then leaf.(score := EvaluatePosition(g, p, r, c))
    else
      var vs := ValidMoves(g, r, c, shields);
      if vs == [] then leaf.(score := EvaluatePosition(g, p, r, c))
      else if |vs| > 2 then
        var chunks := Chunks(vs, ChunkSize(|vs|));
        var bests := ChunkBests(g, p, r, c, shields, visited, depth, vs, chunks);
        leaf.(children := Somes(bests))
      else
        leaf.(children := Subtrees(g, p, r, c, shields, visited, depth, vs))
  }

  /** The best subtree of each chunk, for the chunks that have any. */
  function ChunkBests(g: Grid, p: Policy, r: int, c: int, shields: int, visited: set<int>, depth: nat,
                      vs: seq<Direction>, chunks: seq<seq<Direction>>): (bests: seq<Option<DecisionTree>>)
    requires depth >= 1
    requires forall d :: d in vs ==> ValidMove(g, r, c, shields, d)
    requires forall i, d :: 0 <= i < |chunks| && d in chunks[i] ==> d in vs
    ensures |bests| == |chunks|
    ensures forall i :: 0 <= i < |chunks| ==> bests[i] == BestInChunk(Subtrees(g, p, r, c, shields, visited, depth, chunks[i]))
    ensures forall t :: Some(t) in bests ==> ChildOK(g, p, r, c, shields, visited, depth, t)
    decreases depth, 2
  {
    var bests := seq(|chunks|, i requires 0 <= i < |chunks| => BestInChunk(Subtrees(g, p, r, c, shields, visited, depth, chunks[i])));
    forall t | Some(t) in bests
      ensures ChildOK(g, p, r, c, shields, visited, depth, t)
    {
      var i :| 0 <= i < |bests| && bests[i] == Some(t);
      assert t in Subtrees(g, p, r, c, shields, visited, depth, chunks[i]);
    }
    bests
  }

  /** The subtrees reached by the moves `ds` whose end cells are not yet on the path, in order. */
  function Subtrees(g: Grid, p: Policy, r: int, c: int, shields: int, visited: set<int>, depth: nat, ds: seq<Direction>): (ts: seq<DecisionTree>)
    requires depth >= 1
    requires forall d :: d in ds ==> ValidMove(g, r, c, shields, d)
    ensures forall t :: t in ts ==> t.direction.Some? && t.direction.value in ds && ChildOK(g, p, r, c, shields, visited, depth, t)
    ensures ts == [] <==> forall d :: d in ds ==> CellKey(Sim(g, r, c, d).r, Sim(g, r, c, d).c) in visited
    decreases depth, 1
  {
    var xs := seq(|ds|, i requires 0 <= i < |ds| => Branch(g, p, r, c, shields, visited, depth, ds[i]));
    var ts := Somes(xs);
    assert forall i :: 0 <= i < |ds| ==> BranchOK(g, p, r, c, shields, visited, depth, ds[i], xs[i]);
    BranchesOK(g, p, r, c, shields, visited, depth, ds, xs);
    ts
  }

  /** `x` is absent, or a child of the node at `(r, c)` reached by moving `d`. */
  ghost predicate BranchOK(g: Grid, p: Policy, r: int, c: int, shields: int, visited: set<int>, depth: int, d: Direction, x: Option<DecisionTree>) {
    && (x.None? <==> CellKey(Sim(g, r, c, d).r, Sim(g, r, c, d).c) in visited)
    && (x.Some? ==> x.value.direction == Some(d) && ChildOK(g, p, r, c, shields, visited, depth, x.value))
  }

  /** Every tree present in a list of branches over `ds` is a child reached by a move of `ds`. */
  lemma BranchesOK(g: Grid, p: Policy, r: int, c: int, shields: int, visited: set<int>, depth: int, ds: seq<Direction>, xs: seq<Option<DecisionTree>>)
    requires |xs| == |ds|
    requires forall i :: 0 <= i < |ds| ==> BranchOK(g, p, r, c, shields, visited, depth, ds[i], xs[i])
    ensures forall t :: Some(t) in xs ==> t.direction.Some? && t.direction.value in ds && ChildOK(g, p, r, c, shields, visited, depth, t)
    ensures (forall i :: 0 <= i < |xs| ==> xs[i].None?) <==> forall d :: d in ds ==> CellKey(Sim(g, r, c, d).r, Sim(g, r, c, d).c) in visited
  {
    forall d | d in ds
      ensures exists i :: 0 <= i < |ds| && ds[i] == d && BranchOK(g, p, r, c, shields, visited, depth, d, xs[i])
    {
      var i :| 0 <= i < |ds| && ds[i] == d;
    }
    forall t | Some(t) in xs
      ensures t.direction.Some? && t.direction.value in ds && ChildOK(g, p, r, c, shields, visited, depth, t)
    {
      var i :| 0 <= i < |xs| && xs[i] == Some(t);
      assert BranchOK(g, p, r, c, shields, visited, depth, ds[i], xs[i]);
    }
  }

  /** The subtree reached by moving `d`, unless its end cell is already on the path. */
  function Branch(g: Grid, p: Policy, r: int, c: int, shields: int, visited: set<int>, depth: nat, d: Direction): (b: Option<DecisionTree>)
    requires depth >= 1
    ensures b.None? <==> CellKey(Sim(g, r, c, d).r, Sim(g, r, c, d).c) in visited
    ensures b.Some? ==> Reached(g, p, r, c, shields, visited, d, b.value) && WithinDepth(b.value, depth - 1)
    decreases depth, 0
  {
    var sim := Sim(g, r, c, d);
    var key := CellKey(sim.r, sim.c);
    if key in visited then None
    else
      var sub := BuildTree(g, p, sim.r, sim.c, AdjustShields(sim, shields), visited + {key}, depth - 1);
      Some(sub.(direction := Some(d), immediate := EvaluateMove(g, p, sim)))
  }

  /** The first subtree of highest own value, if there is any. */
  function BestInChunk(ts: seq<DecisionTree>): (b: Option<DecisionTree>)
    ensures b.None? <==> ts == []
    ensures b.Some? ==> b.value in ts
    ensures b.Some? ==> forall i :: 0 <= i < |ts| ==> TotalValue(ts[i]) <= TotalValue(b.value)
    ensures b.Some? ==> exists k :: 0 <= k < |ts| && ts[k] == b.value && forall i :: 0 <= i < k ==> TotalValue(ts[i]) < TotalValue(b.value)
  {
    if ts == [] then None
    else
      var vals := seq(|ts|, i requires 0 <= i < |ts| => TotalValue(ts[i]) as real);
      var k := FirstMax(vals);
      assert forall i :: 0 <= i < |ts| ==> vals[i] == TotalValue(ts[i]) as real;
      Some(ts[k])
  }

  /**
   A node grown with moves to spare is left without children exactly when every
   valid move from it ends on a cell already on the path.
   */
  lemma BuildTreeChildless(g: Grid, p: Policy, r: int, c: int, shields: int, visited: set<int>, depth: nat)
    ensures BuildTree(g, p, r, c, shields, visited, depth).children == [] <==>
              depth == 0 || forall d :: ValidMove(g, r, c, shields, d) ==> CellKey(Sim(g, r, c, d).r, Sim(g, r, c, d).c) in visited
  {
    var t := BuildTree(g, p, r, c, shields, visited, depth);
    if depth > 0 {
      var vs := ValidMoves(g, r, c, shields);
      if |vs| > 2 {
        var chunks := Chunks(vs, ChunkSize(|vs|));
        var bests := ChunkBests(g, p, r, c, shields, visited, depth, vs, chunks);
        assert t.children == Somes(bests);
        if t.children == [] {
          forall d | ValidMove(g, r, c, shields, d)
            ensures CellKey(Sim(g, r, c, d).r, Sim(g, r, c, d).c) in visited
          {
            var i :| 0 <= i < |chunks| && d in chunks[i];
            assert bests[i].None?;
          }
        } else {
          var ch := t.children[0];
          assert ChildOK(g, p, r, c, shields, visited, depth, ch);
        }
      } else if vs != [] {
        assert t.children == Subtrees(g, p, r, c, shields, visited, depth, vs);
      }
    }
  }

  /**
   The tree weighs every move: each valid move to an unvisited cell yields a subtree,
   and some child's own value is at least that subtree's. With at most two valid
   moves the subtree is itself a child. Conversely, every child is the subtree of its
   own move.
   */
  lemma BuildTreeWeighsEveryMove(g: Grid, p: Policy, r: int, c: int, shields: int, visited: set<int>, depth: nat, d: Direction)
    requires depth >= 1 && ValidMove(g, r, c, shields, d) && CellKey(Sim(g, r, c, d).r, Sim(g, r, c, d).c) !in visited
    ensures var t := BuildTree(g, p, r, c, shields, visited, depth);
            var b := Branch(g, p, r, c, shields, visited, depth, d);
            && b.Some?
            && (exists ch :: ch in t.children && TotalValue(b.value) <= TotalValue(ch))
            && (|ValidMoves(g, r, c, shields)| <= 2 ==> b.value in t.children)
  {
    var t := BuildTree(g, p, r, c, shields, visited, depth);
    var b := Branch(g, p, r, c, shields, visited, depth, d);
    var vs := ValidMoves(g, r, c, shields);
    if |vs| > 2 {
      var chunks := Chunks(vs, ChunkSize(|vs|));
      var bests := ChunkBests(g, p, r, c, shields, visited, depth, vs, chunks);
      assert t.children == Somes(bests);
      var i :| 0 <= i < |chunks| && d in chunks[i];
      var ts := Subtrees(g, p, r, c, shields, visited, depth, chunks[i]);
      SubtreesHoldBranch(g, p, r, c, shields, visited, depth, chunks[i], d);
      assert bests[i] == BestInChunk(ts);
      assert Some(bests[i].value) in bests;
      assert bests[i].value in t.children;
    } else {
      assert t.children == Subtrees(g, p, r, c, shields, visited, depth, vs);
      SubtreesHoldBranch(g, p, r, c, shields, visited, depth, vs, d);
    }
  }

  /** Every child of a node is the subtree its own move builds. */
  lemma ChildrenAreBranches(g: Grid, p: Policy, r: int, c: int, shields: int, visited: set<int>, depth: nat, ch: DecisionTree)
    requires ch in BuildTree(g, p, r, c, shields, visited, depth).children
    ensures depth >= 1 && ch.direction.Some? && Branch(g, p, r, c, shields, visited, depth, ch.direction.value) == Some(ch)
  {
    var t := BuildTree(g, p, r, c, shields, visited, depth);
    var vs := ValidMoves(g, r, c, shields);
    if |vs| > 2 {
      var chunks := Chunks(vs, ChunkSize(|vs|));
      var bests := ChunkBests(g, p, r, c, shields, visited, depth, vs, chunks);
      assert t.children == Somes(bests);
      ChunkBestsAreBranches(g, p, r, c, shields, visited, depth, vs, chunks, ch);
    } else {
      assert t.children == Subtrees(g, p, r, c, shields, visited, depth, vs);
      SubtreesAreBranches(g, p, r, c, shields, visited, depth, vs, ch);
    }
  }

  /** Every subtree kept from a chunk is the subtree its own move builds. */
  lemma ChunkBestsAreBranches(g: Grid, p: Policy, r: int, c: int, shields: int, visited: set<int>, depth: nat,
                              vs: seq<Direction>, chunks: seq<seq<Direction>>, ch: DecisionTree)
    requires depth >= 1
    requires forall d :: d in vs ==> ValidMove(g, r, c, shields, d)
    requires forall i, d :: 0 <= i < |chunks| && d in chunks[i] ==> d in vs
    requires Some(ch) in ChunkBests(g, p, r, c, shields, visited, depth, vs, chunks)
    ensures ch.direction.Some? && Branch(g, p, r, c, shields, visited, depth, ch.direction.value) == Some(ch)
  {
    var bests := ChunkBests(g, p, r, c, shields, visited, depth, vs, chunks);
    var i :| 0 <= i < |bests| && bests[i] == Some(ch);
    SubtreesAreBranches(g, p, r, c, shields, visited, depth, chunks[i], ch);
  }

  /** A move of `ds` to an unvisited cell has its subtree among the subtrees of `ds`. */
  lemma SubtreesHoldBranch(g: Grid, p: Policy, r: int, c: int, shields: int, visited: set<int>, depth: nat, ds: seq<Direction>, d: Direction)
    requires depth >= 1 && (forall e :: e in ds ==> ValidMove(g, r, c, shields, e))
    requires d in ds && CellKey(Sim(g, r, c, d).r, Sim(g, r, c, d).c) !in visited
    ensures Branch(g, p, r, c, shields, visited, depth, d).Some?
    ensures Branch(g, p, r, c, shields, visited, depth, d).value in Subtrees(g, p, r, c, shields, visited, depth, ds)
  {
    var xs := seq(|ds|, i requires 0 <= i < |ds| => Branch(g, p, r, c, shields, visited, depth, ds[i]));
    assert Subtrees(g, p, r, c, shields, visited, depth, ds) == Somes(xs);
    var i :| 0 <= i < |ds| && ds[i] == d;
    assert xs[i] == Branch(g, p, r, c, shields, visited, depth, d);
  }

  /** Every subtree of `ds` is the subtree its own move builds. */
  lemma SubtreesAreBranches(g: Grid, p: Policy, r: int, c: int, shields: int, visited: set<int>, depth: nat, ds: seq<Direction>, t: DecisionTree)
    requires depth >= 1 && (forall e :: e in ds ==> ValidMove(g, r, c, shields, e))
    requires t in Subtrees(g, p, r, c, shields, visited, depth, ds)
    ensures t.direction.Some? && Branch(g, p, r, c, shields, visited, depth, t.direction.value) == Some(t)
  {
    var xs := seq(|ds|, i requires 0 <= i < |ds| => Branch(g, p, r, c, shields, visited, depth, ds[i]));
    assert Subtrees(g, p, r, c, shields, visited, depth, ds) == Somes(xs);
    var i :| 0 <= i < |xs| && xs[i] == Some(t);
    assert Branch(g, p, r, c, shields, visited, depth, ds[i]) == Some(t);
  }

  // ---------------------------------------------------------------------------
  // Evaluation.

  /** The direction a subtree recommends and what it is worth. */
  datatype TreeEvaluation = TreeEvaluation(direction: Option<Direction>, total: real)

  /**
   A node without children is worth its own value and recommends its own move. Any
   other node is worth its move's value plus nine tenths of its best child's worth,
   and recommends its own move, or, at the root, the best child's recommendation.
   */
  function Evaluate(t: DecisionTree): TreeEvaluation
    decreases t, 1
  {
    if t.children == [] then TreeEvaluation(t.direction, TotalValue(t) as real)
    else
      var best := Evaluate(t.children[BestChild(t)]);
      TreeEvaluation(if t.direction.Some? then t.direction else best.direction, t.immediate as real + Discounted(best.total))
  }

  /** The first child whose discounted worth is highest. */
  function BestChild(t: DecisionTree): (k: nat)
    requires t.children != []
    ensures k < |t.children|
    ensures forall i :: 0 <= i < |t.children| ==> Evaluate(t.children[i]).total <= Evaluate(t.children[k]).total
    ensures forall i :: 0 <= i < k ==> Evaluate(t.children[i]).total < Evaluate(t.children[k]).total
    decreases t, 0
  {
    var worth := seq(|t.children|, i requires 0 <= i < |t.children| => Discounted(Evaluate(t.children[i]).total));
    var k := FirstMax(worth);
    forall i | 0 <= i < |t.children|
      ensures Evaluate(t.children[i]).total <= Evaluate(t.children[k]).total
      ensures i < k ==> Evaluate(t.children[i]).total < Evaluate(t.children[k]).total
    {
      assert worth[i] == Discounted(Evaluate(t.children[i]).total) && worth[k] == Discounted(Evaluate(t.children[k]).total);
      DiscountedMonotone(Evaluate(t.children[i]).total, Evaluate(t.children[k]).total);
    }
    k
  }

  /**
   The worth of a node with children is its move's value plus nine tenths of the
   highest worth among its children: no child gives more, and some child gives that.
   */
  lemma EvaluateIsDiscountedMax(t: DecisionTree)
    requires t.children != []
    ensures forall i :: 0 <= i < |t.children| ==>
              t.immediate as real + Discounted(Evaluate(t.children[i]).total) <= Evaluate(t).total
    ensures exists i :: 0 <= i < |t.children| &&
              Evaluate(t).total == t.immediate as real + Discounted(Evaluate(t.children[i]).total)
  {
    var k := BestChild(t);
    assert Evaluate(t).total == t.immediate as real + Discounted(Evaluate(t.children[k]).total);
    forall i | 0 <= i < |t.children|
      ensures t.immediate as real + Discounted(Evaluate(t.children[i]).total) <= Evaluate(t).total
    {
      DiscountedMonotone(Evaluate(t.children[i]).total, Evaluate(t.children[k]).total);
    }
  }

  /** A root whose children all carry moves recommends exactly the move of its first best child. */
  lemma RootRecommendsChildMove(t: DecisionTree)
    requires t.direction.None? && t.children != []
    requires forall i :: 0 <= i < |t.children| ==> t.children[i].direction.Some?
    ensures Evaluate(t).direction == t.children[BestChild(t)].direction
  {
    var ch := t.children[BestChild(t)];
    if ch.children != [] {
      assert Evaluate(ch).direction == ch.direction;
    }
  }

  /**
   The hard opponent's move: the recommendation of the tree grown from its cell. It
   recommends nothing when the root has no children, that is, when no move is valid.
   */
  function PlayHard(b: Board, p: Policy): (d: Option<Direction>)
    ensures d.Some? ==> ValidMove(b.grid, b.cpu.row, b.cpu.col, b.cpu.shields, d.value)
    ensures d.None? <==> forall e :: !ValidMove(b.grid, b.cpu.row, b.cpu.col, b.cpu.shields, e)
  {
    var t := BuildTree(b.grid, p, b.cpu.row, b.cpu.col, b.cpu.shields, {}, HardDepth);
    BuildTreeChildless(b.grid, p, b.cpu.row, b.cpu.col, b.cpu.shields, {}, HardDepth);
    if t.children != [] then
      RootRecommendsChildMove(t);
      Evaluate(t).direction
    else
      Evaluate(t).direction
  }
}

=== FILE: levels.dfy ===
/** The three difficulty levels; Difficulty.java is not part of this model, only its constants are used. */
module Levels {

  datatype Difficulty = Easy | Medium | Hard
}

=== FILE: medium.dfy ===
/**
 The medium opponent: a depth-limited search for the nearest gem. At each level the
 valid directions are divided into the four compass groups, large groups are
 halved, every part is searched, and the best result is kept under a ranking that
 prefers more gems, then fewer moves, then the smaller region bonus.
 */
module MediumTier {

  import opened Options
  import opened Compass
  import opened Grids
  import opened Slides
  import opened Game
  import opened Regions
  import opened Tactics
  import opened EasyTier

  /** A found gem: the first move towards it, the gems that slide collects, the moves needed, and the bonus where it ends. */
  datatype SearchResult = SearchResult(first: Direction, value: int, depth: int, regionBonus: int)

  /** Three-way comparison of two integers. */
  function IntCompare(x: int, y: int): (k: int)
    ensures k < 0 <==> x < y
    ensures k == 0 <==> x == y
    ensures k > 0 <==> x > y
  {
    if x < y then -1 else if x > y then 1 else 0
  }

  /** `a` ranks strictly above `b` in the lexicographic order: more gems, then fewer moves, then the smaller region bonus. */
  predicate RanksAbove(a: SearchResult, b: SearchResult) {
    || a.value > b.value
    || (a.value == b.value && a.depth < b.depth)
    || (a.value == b.value && a.depth == b.depth && a.regionBonus < b.regionBonus)
  }

  /** Ranks search results: more gems first, then fewer moves, then the smaller region bonus. */
  function Compare(a: SearchResult, b: SearchResult): (k: int)
    ensures -1 <= k <= 1
    ensures k == 0 <==> a.value == b.value && a.depth == b.depth && a.regionBonus == b.regionBonus
    ensures k > 0 <==> RanksAbove(a, b)
    ensures k < 0 <==> RanksAbove(b, a)
  {
    if a.value != b.value then IntCompare(a.value, b.value)
    else if a.depth != b.depth then IntCompare(b.depth, a.depth)
    else IntCompare(b.regionBonus, a.regionBonus)
  }

  /** Swapping the arguments negates the comparison. */
  lemma CompareAntisymmetric(a: SearchResult, b: SearchResult)
    ensures Compare(a, b) == -Compare(b, a)
  {
  }

  /** Ranking at most as high is transitive. */
  lemma RanksBelow(a: SearchResult, b: SearchResult, c: SearchResult)
    requires Compare(a, b) <= 0 && Compare(b, c) <= 0
    ensures Compare(a, c) <= 0
  {
    CompareTransitive(c, b, a);
    CompareAntisymmetric(a, b);
    CompareAntisymmetric(b, c);
    CompareAntisymmetric(a, c);
  }

  /** The ranking is transitive, both in its weak and in its strict form. */
  lemma CompareTransitive(a: SearchResult, b: SearchResult, c: SearchResult)
    ensures Compare(a, b) >= 0 && Compare(b, c) >= 0 ==> Compare(a, c) >= 0
    ensures Compare(a, b) > 0 && Compare(b, c) >= 0 ==> Compare(a, c) > 0
    ensures Compare(a, b) >= 0 && Compare(b, c) > 0 ==> Compare(a, c) > 0
  {
  }

  /** Keeps `best` unless `cand` ranks strictly higher; a missing result never wins. */
  function Pick(best: Option<SearchResult>, cand: Option<SearchResult>): (r: Option<SearchResult>)
    ensures r == best || r == cand
    ensures r.None? <==> best.None? && cand.None?
    ensures r.Some? && best.Some? ==> Compare(best.value, r.value) <= 0
    ensures r.Some? && cand.Some? ==> Compare(cand.value, r.value) <= 0
    ensures best.Some? && r != best ==> Compare(r.value, best.value) > 0
  {
    if cand.None? then best
    else if best.None? then cand
    else if Compare(cand.value, best.value) > 0 then cand
    else
      CompareAntisymmetric(cand.value, best.value);
      best
  }

  /** The best of a list of results, scanning left to right and replacing only on a strictly higher rank. */
  function FoldBest(xs: seq<Option<SearchResult>>): (r: Option<SearchResult>)
    ensures r.None? <==> forall i :: 0 <= i < |xs| ==> xs[i].None?
    ensures r.Some? ==> r in xs
    ensures r.Some? ==> forall i :: 0 <= i < |xs| && xs[i].Some? ==> Compare(xs[i].value, r.value) <= 0
    decreases |xs|
  {
    if xs == [] then None
    else
      var init := xs[..|xs| - 1];
      var acc := FoldBest(init);
      var r := Pick(acc, xs[|xs| - 1]);
      assert forall i :: 0 <= i < |xs| - 1 ==> xs[i] == init[i];
      forall i | 0 <= i < |xs| - 1 && xs[i].Some? && r.Some?
        ensures Compare(xs[i].value, r.value) <= 0
      {
        CompareTransitive(r.value, acc.value, xs[i].value);
        CompareAntisymmetric(r.value, xs[i].value);
        CompareAntisymmetric(acc.value, xs[i].value);
        CompareAntisymmetric(acc.value, r.value);
      }
      r
  }

  /** The fold keeps the first of the top-ranked results: everything before it ranks strictly lower. */
  lemma FoldBestIsFirst(xs: seq<Option<SearchResult>>)
    requires FoldBest(xs).Some?
    ensures exists i :: 0 <= i < |xs| && xs[i] == FoldBest(xs) &&
              forall j :: 0 <= j < i && xs[j].Some? ==> Compare(xs[j].value, FoldBest(xs).value) < 0
  {
    var i := FoldBestFirstIndex(xs);
  }

  /** The position of the fold's result, with everything before it ranking strictly lower. */
  lemma {:induction false} FoldBestFirstIndex(xs: seq<Option<SearchResult>>) returns (i: int)
    requires FoldBest(xs).Some?
    ensures 0 <= i < |xs| && xs[i] == FoldBest(xs)
    ensures forall j :: 0 <= j < i && xs[j].Some? ==> Compare(xs[j].value, FoldBest(xs).value) < 0
    decreases |xs|
  {
    var init := xs[..|xs| - 1];
    var acc := FoldBest(init);
    var r := FoldBest(xs);
    assert forall j :: 0 <= j < |xs| - 1 ==> xs[j] == init[j];
    if r == acc {
      i := FoldBestFirstIndex(init);
    } else {
      i := |xs| - 1;
      forall j | 0 <= j < i && xs[j].Some?
        ensures Compare(xs[j].value, r.value) < 0
      {
        CompareTransitive(r.value, acc.value, xs[j].value);
        CompareAntisymmetric(r.value, xs[j].value);
        CompareAntisymmetric(acc.value, xs[j].value);
      }
    }
  }

  // ---------------------------------------------------------------------------
  // The search.

  /** How many moves ahead the medium opponent looks. */
  const SearchDepth := 4

  /**
   The groups are kept in a hash map keyed by their names and visited in the map's
   iteration order, which the program does not fix; the search therefore takes the
   order as a parameter. An order is sound when it visits every group a direction
   can be in.
   */
  predicate CoversGroups(order: seq<Group>) {
    forall d: Direction :: DirectionGroup(d) in order
  }

  /**
   The order of the JDK's hash map: with sixteen buckets, "NORTH", "WEST", "SOUTH"
   and "EAST" land in buckets 5, 7, 11 and 13, and the map is iterated bucket by
   bucket.
   */
  const JdkGroupOrder: seq<Group> := [North, West, South, East]

  /** The JDK order visits every group. */
  lemma JdkGroupOrderCovers()
    ensures CoversGroups(JdkGroupOrder)
  {
  }

  /** Moves the search may still take below `depth`. */
  function Budget(depth: int, maxDepth: int): nat {
    if depth < maxDepth then maxDepth - depth else 0
  }

  /** The directions of `vs` in group `grp`, in their order. */
  function InGroup(vs: seq<Direction>, grp: Group): (ws: seq<Direction>)
    ensures forall d :: d in ws <==> d in vs && DirectionGroup(d) == grp
  {
    if vs == [] then []
    else
      var rest := InGroup(vs[1..], grp);
      assert forall d :: d in vs <==> d == vs[0] || d in vs[1..];
      if DirectionGroup(vs[0]) == grp then [vs[0]] + rest else rest
  }

  /** A group of more than two directions is searched as two halves, a smaller one whole. */
  function Halves(ws: seq<Direction>): (parts: seq<seq<Direction>>)
    ensures forall d :: d in ws <==> exists i :: 0 <= i < |parts| && d in parts[i]
  {
    if |ws| > 2 then
      var mid := |ws| / 2;
      var parts := [ws[..mid], ws[mid..]];
      assert ws == parts[0] + parts[1];
      forall d | d in ws
        ensures exists i :: 0 <= i < |parts| && d in parts[i]
      {
        if d in parts[0] {
          assert 0 < |parts|;
        } else {
          assert d in parts[1];
        }
      }
      parts
    else
      assert forall d :: d in ws ==> d in [ws][0];
      [ws]
  }

  /** The parts searched at one level: the halves of each group, groups in the order given. */
  function Parts(vs: seq<Direction>, order: seq<Group>): (parts: seq<seq<Direction>>)
    ensures forall i, d :: 0 <= i < |parts| && d in parts[i] ==> d in vs
    ensures forall d :: d in vs && DirectionGroup(d) in order ==> exists i :: 0 <= i < |parts| && d in parts[i]
  {
    if order == [] then []
    else
      var first := Halves(InGroup(vs, order[0]));
      var rest := Parts(vs, order[1..]);
      forall d | d in vs && DirectionGroup(d) in order
        ensures exists i :: 0 <= i < |first + rest| && d in (first + rest)[i]
      {
        if DirectionGroup(d) == order[0] {
          var i :| 0 <= i < |first| && d in first[i];
          assert (first + rest)[i] == first[i];
        } else {
          assert DirectionGroup(d) in order[1..];
          var i :| 0 <= i < |rest| && d in rest[i];
          assert (first + rest)[|first| + i] == rest[i];
        }
      }
      first + rest
  }

  /** The state a visited key records: where a slide ended and the shields held before it. */
  type Key = (int, int, int)

  /**
   The best gem reachable from `(r, c)` within `maxDepth - depth` moves, or nothing.
   Every result starts with a valid move, needs between one and the remaining
   number of moves, and collects at least one gem.
   */
  function Search(g: Grid, p: Policy, r: int, c: int, shields: int, order: seq<Group>, visited: set<Key>, depth: int, maxDepth: int): (res: Option<SearchResult>)
    ensures res.Some? ==> depth < maxDepth && ValidMove(g, r, c, shields, res.value.first)
    ensures res.Some? ==> 1 <= res.value.depth <= maxDepth - depth && res.value.value > 0
    decreases Budget(depth, maxDepth), 4
  {
    if depth >= maxDepth then None
    else
      var vs := ValidMoves(g, r, c, shields);
      if vs == [] then None
      else
        var xs := PartResults(g, p, r, c, shields, order, visited, depth, maxDepth, Parts(vs, order));
        FoldBest(xs)
  }

  /** The result of each part, in order. */
  function PartResults(g: Grid, p: Policy, r: int, c: int, shields: int, order: seq<Group>, visited: set<Key>, depth: int, maxDepth: int,
                       parts: seq<seq<Direction>>): (xs: seq<Option<SearchResult>>)
    requires depth < maxDepth
    ensures |xs| == |parts|
    ensures forall i :: 0 <= i < |xs| ==> xs[i] == Subgroup(g, p, r, c, shields, order, visited, depth, maxDepth, parts[i])
    decreases Budget(depth, maxDepth), 3
  {
    seq(|parts|, i requires 0 <= i < |parts| => Subgroup(g, p, r, c, shields, order, visited, depth, maxDepth, parts[i]))
  }

  /** `res` ranks at least as high as the candidate of every direction of `ds`, and exists if any of them does. */
  ghost predicate Outranks(g: Grid, p: Policy, r: int, c: int, shields: int, order: seq<Group>, visited: set<Key>, depth: int, maxDepth: int,
                           ds: seq<Direction>, res: Option<SearchResult>)
    requires depth < maxDepth
    decreases Budget(depth, maxDepth), 1
  {
    forall d :: d in ds ==> var x := Candidate(g, p, r, c, shields, order, visited, depth, maxDepth, d);
                            x.Some? ==> res.Some? && Compare(x.value, res.value) <= 0
  }

  /** The best candidate among the directions `ds`. */
  function Subgroup(g: Grid, p: Policy, r: int, c: int, shields: int, order: seq<Group>, visited: set<Key>, depth: int, maxDepth: int,
                    ds: seq<Direction>): (res: Option<SearchResult>)
    requires depth < maxDepth
    ensures res.Some? ==> res.value.first in ds && res == Candidate(g, p, r, c, shields, order, visited, depth, maxDepth, res.value.first)
    ensures res.Some? ==> 1 <= res.value.depth <= maxDepth - depth && res.value.value > 0
    ensures Outranks(g, p, r, c, shields, order, visited, depth, maxDepth, ds, res)
    decreases Budget(depth, maxDepth), 2
  {
    var xs := seq(|ds|, i requires 0 <= i < |ds| => Candidate(g, p, r, c, shields, order, visited, depth, maxDepth, ds[i]));
    var res := FoldBest(xs);
    forall d | d in ds
      ensures var x := Candidate(g, p, r, c, shields, order, visited, depth, maxDepth, d);
              x.Some? ==> res.Some? && Compare(x.value, res.value) <= 0
    {
      var j :| 0 <= j < |ds| && ds[j] == d;
      assert xs[j] == Candidate(g, p, r, c, shields, order, visited, depth, maxDepth, d);
    }
    res
  }

  /**
   What one direction offers: the gems its slide collects, if any; otherwise, when its
   end state has not been visited, the best gem the search finds from there, one move
   further away and reached by this direction first.
   */
  function Candidate(g: Grid, p: Policy, r: int, c: int, shields: int, order: seq<Group>, visited: set<Key>, depth: int, maxDepth: int,
                     d: Direction): (res: Option<SearchResult>)
    requires depth < maxDepth
    ensures res.Some? ==> res.value.first == d && 1 <= res.value.depth <= maxDepth - depth && res.value.value > 0
    decreases Budget(depth, maxDepth), 0
  {
    var sim := Sim(g, r, c, d);
    if sim.gems > 0 then Some(SearchResult(d, sim.gems, 1, RegionBonus(g, p, sim.r, sim.c)))
    else
      var key := (sim.r, sim.c, shields);
      if key in visited then None
      else
        match Search(g, p, sim.r, sim.c, AdjustShields(sim, shields), order, visited + {key}, depth + 1, maxDepth)
        case None => None
        case Some(x) => Some(x.(first := d, depth := x.depth + 1))
  }

  /**
   Below the depth limit the search finds nothing exactly when no valid direction
   offers a candidate; what it finds is the candidate of its own first move and
   ranks at least as high as the candidate of every valid direction.
   */
  lemma SearchIsBest(g: Grid, p: Policy, r: int, c: int, shields: int, order: seq<Group>, visited: set<Key>, depth: int, maxDepth: int)
    requires depth < maxDepth && CoversGroups(order)
    ensures var res := Search(g, p, r, c, shields, order, visited, depth, maxDepth);
            && (res.None? <==> forall d :: ValidMove(g, r, c, shields, d) ==>
                                 Candidate(g, p, r, c, shields, order, visited, depth, maxDepth, d).None?)
            && (res.Some? ==> Candidate(g, p, r, c, shields, order, visited, depth, maxDepth, res.value.first) == res)
            && (res.Some? ==> forall d :: ValidMove(g, r, c, shields, d) ==>
                                var x := Candidate(g, p, r, c, shields, order, visited, depth, maxDepth, d);
                                x.Some? ==> Compare(x.value, res.value) <= 0)
  {
    var res := Search(g, p, r, c, shields, order, visited, depth, maxDepth);
    if res.Some? {
      SearchIsCandidate(g, p, r, c, shields, order, visited, depth, maxDepth);
    }
    forall d | ValidMove(g, r, c, shields, d) && Candidate(g, p, r, c, shields, order, visited, depth, maxDepth, d).Some?
      ensures res.Some?
      ensures Compare(Candidate(g, p, r, c, shields, order, visited, depth, maxDepth, d).value, res.value) <= 0
    {
      SearchOutranks(g, p, r, c, shields, order, visited, depth, maxDepth, d);
    }
  }

  /** A search result is the candidate of its own first move. */
  lemma SearchIsCandidate(g: Grid, p: Policy, r: int, c: int, shields: int, order: seq<Group>, visited: set<Key>, depth: int, maxDepth: int)
    requires depth < maxDepth && Search(g, p, r, c, shields, order, visited, depth, maxDepth).Some?
    ensures var res := Search(g, p, r, c, shields, order, visited, depth, maxDepth);
            Candidate(g, p, r, c, shields, order, visited, depth, maxDepth, res.value.first) == res
  {
    var res := Search(g, p, r, c, shields, order, visited, depth, maxDepth);
    var parts := Parts(ValidMoves(g, r, c, shields), order);
    var xs := PartResults(g, p, r, c, shields, order, visited, depth, maxDepth, parts);
    assert res == FoldBest(xs);
    var i :| 0 <= i < |xs| && xs[i] == res;
    assert Subgroup(g, p, r, c, shields, order, visited, depth, maxDepth, parts[i]) == res;
  }

  /** The search result ranks at least as high as the candidate of every valid direction. */
  lemma SearchOutranks(g: Grid, p: Policy, r: int, c: int, shields: int, order: seq<Group>, visited: set<Key>, depth: int, maxDepth: int,
                       d: Direction)
    requires depth < maxDepth && CoversGroups(order) && ValidMove(g, r, c, shields, d)
    requires Candidate(g, p, r, c, shields, order, visited, depth, maxDepth, d).Some?
    ensures var res := Search(g, p, r, c, shields, order, visited, depth, maxDepth);
            res.Some? && Compare(Candidate(g, p, r, c, shields, order, visited, depth, maxDepth, d).value, res.value) <= 0
  {
    var res := Search(g, p, r, c, shields, order, visited, depth, maxDepth);
    var vs := ValidMoves(g, r, c, shields);
    var parts := Parts(vs, order);
    var xs := PartResults(g, p, r, c, shields, order, visited, depth, maxDepth, parts);
    var x := Candidate(g, p, r, c, shields, order, visited, depth, maxDepth, d);
    var i :| 0 <= i < |parts| && d in parts[i];
    var y := xs[i];
    assert y.Some? && Compare(x.value, y.value) <= 0;
    RanksBelow(x.value, y.value, res.value);
  }

  /**
   `path` is a run of valid moves from `(r, c)` that collects nothing until its last
   slide, which collects `value > 0` gems and ends where the region bonus is `bonus`;
   each intermediate state (end cell and shields held before the slide) is new.
   */
  ghost predicate Leads(g: Grid, p: Policy, r: int, c: int, shields: int, visited: set<Key>,
                        path: seq<Direction>, value: int, bonus: int)
    decreases |path|
  {
    && |path| >= 1
    && ValidMove(g, r, c, shields, path[0])
    && var sim := Sim(g, r, c, path[0]);
       if |path| == 1 then
         sim.gems == value && value > 0 && bonus == RegionBonus(g, p, sim.r, sim.c)
       else
         var key := (sim.r, sim.c, shields);
         && sim.gems == 0
         && key !in visited
         && Leads(g, p, sim.r, sim.c, AdjustShields(sim, shields), visited + {key}, path[1..], value, bonus)
  }

  /** Every search result is backed by a path of its depth that starts with its first move and ends on its gems. */
  lemma SearchLeads(g: Grid, p: Policy, r: int, c: int, shields: int, order: seq<Group>, visited: set<Key>, depth: int, maxDepth: int)
    requires CoversGroups(order) && Search(g, p, r, c, shields, order, visited, depth, maxDepth).Some?
    ensures var x := Search(g, p, r, c, shields, order, visited, depth, maxDepth).value;
            exists path :: |path| == x.depth && path[0] == x.first && Leads(g, p, r, c, shields, visited, path, x.value, x.regionBonus)
  {
    var path := SearchPath(g, p, r, c, shields, order, visited, depth, maxDepth);
  }

  /** The path backing a search result. */
  lemma {:induction false} SearchPath(g: Grid, p: Policy, r: int, c: int, shields: int, order: seq<Group>, visited: set<Key>, depth: int, maxDepth: int)
    returns (path: seq<Direction>)
    requires CoversGroups(order) && Search(g, p, r, c, shields, order, visited, depth, maxDepth).Some?
    ensures var x := Search(g, p, r, c, shields, order, visited, depth, maxDepth).value;
            |path| == x.depth && path[0] == x.first && Leads(g, p, r, c, shields, visited, path, x.value, x.regionBonus)
    decreases Budget(depth, maxDepth), 1
  {
    var x := Search(g, p, r, c, shields, order, visited, depth, maxDepth).value;
    SearchIsBest(g, p, r, c, shields, order, visited, depth, maxDepth);
    path := CandidatePath(g, p, r, c, shields, order, visited, depth, maxDepth, x.first);
  }

  /** A single valid slide that collects gems is a path. */
  lemma LeadsOne(g: Grid, p: Policy, r: int, c: int, shields: int, visited: set<Key>, d: Direction)
    requires ValidMove(g, r, c, shields, d) && Sim(g, r, c, d).gems > 0
    ensures var sim := Sim(g, r, c, d);
            Leads(g, p, r, c, shields, visited, [d], sim.gems, RegionBonus(g, p, sim.r, sim.c))
  {
  }

  /** A valid empty slide to a new state, followed by a path from that state, is a path. */
  lemma LeadsCons(g: Grid, p: Policy, r: int, c: int, shields: int, visited: set<Key>, d: Direction,
                  rest: seq<Direction>, value: int, bonus: int)
    requires ValidMove(g, r, c, shields, d)
    requires var sim := Sim(g, r, c, d);
             && sim.gems == 0 && (sim.r, sim.c, shields) !in visited
             && Leads(g, p, sim.r, sim.c, AdjustShields(sim, shields), visited + {(sim.r, sim.c, shields)}, rest, value, bonus)
    ensures Leads(g, p, r, c, shields, visited, [d] + rest, value, bonus)
  {
    assert ([d] + rest)[1..] == rest;
  }

  /** A candidate of a valid direction is backed by a path in the same way. */
  lemma CandidateLeads(g: Grid, p: Policy, r: int, c: int, shields: int, order: seq<Group>, visited: set<Key>, depth: int, maxDepth: int,
                       d: Direction)
    requires depth < maxDepth && CoversGroups(order) && ValidMove(g, r, c, shields, d)
    requires Candidate(g, p, r, c, shields, order, visited, depth, maxDepth, d).Some?
    ensures var x := Candidate(g, p, r, c, shields, order, visited, depth, maxDepth, d).value;
            exists path :: |path| == x.depth && path[0] == d && Leads(g, p, r, c, shields, visited, path, x.value, x.regionBonus)
  {
    var path := CandidatePath(g, p, r, c, shields, order, visited, depth, maxDepth, d);
  }

  /** The path backing the candidate of a valid direction. */
  lemma {:induction false} CandidatePath(g: Grid, p: Policy, r: int, c: int, shields: int, order: seq<Group>, visited: set<Key>, depth: int, maxDepth: int,
                                         d: Direction) returns (path: seq<Direction>)
    requires depth < maxDepth && CoversGroups(order) && ValidMove(g, r, c, shields, d)
    requires Candidate(g, p, r, c, shields, order, visited, depth, maxDepth, d).Some?
    ensures var x := Candidate(g, p, r, c, shields, order, visited, depth, maxDepth, d).value;
            |path| == x.depth && path[0] == d && Leads(g, p, r, c, shields, visited, path, x.value, x.regionBonus)
    decreases Budget(depth, maxDepth), 0
  {
    var sim := Sim(g, r, c, d);
    if sim.gems > 0 {
      LeadsOne(g, p, r, c, shields, visited, d);
      path := [d];
    } else {
      var key := (sim.r, sim.c, shields);
      var next := AdjustShields(sim, shields);
      var rest := SearchPath(g, p, sim.r, sim.c, next, order, visited + {key}, depth + 1, maxDepth);
      LeadsCons(g, p, r, c, shields, visited, d, rest, Search(g, p, sim.r, sim.c, next, order, visited + {key}, depth + 1, maxDepth).value.value,
                Search(g, p, sim.r, sim.c, next, order, visited + {key}, depth + 1, maxDepth).value.regionBonus);
      path := [d] + rest;
    }
  }

  /** A valid move whose slide collects gems is seen: the search finds at least that many. */
  lemma SearchSeesImmediateGems(g: Grid, p: Policy, r: int, c: int, shields: int, order: seq<Group>, visited: set<Key>, depth: int, maxDepth: int,
                                d: Direction)
    requires depth < maxDepth && CoversGroups(order) && ValidMove(g, r, c, shields, d) && Sim(g, r, c, d).gems > 0
    ensures var res := Search(g, p, r, c, shields, order, visited, depth, maxDepth);
            res.Some? && res.value.value >= Sim(g, r, c, d).gems
  {
    SearchIsBest(g, p, r, c, shields, order, visited, depth, maxDepth);
    var sim := Sim(g, r, c, d);
    var x := Candidate(g, p, r, c, shields, order, visited, depth, maxDepth, d);
    assert x == Some(SearchResult(d, sim.gems, 1, RegionBonus(g, p, sim.r, sim.c)));
  }

  /**
   Conversely, every path within the remaining moves is found: the search returns a
   result ranking at least as high as the one the path would give.
   */
  lemma {:induction false} SearchFindsLeads(g: Grid, p: Policy, r: int, c: int, shields: int, order: seq<Group>, visited: set<Key>,
                                            depth: int, maxDepth: int, path: seq<Direction>, value: int, bonus: int)
    requires CoversGroups(order) && Leads(g, p, r, c, shields, visited, path, value, bonus) && |path| <= maxDepth - depth
    ensures var res := Search(g, p, r, c, shields, order, visited, depth, maxDepth);
            res.Some? && Compare(SearchResult(path[0], value, |path|, bonus), res.value) <= 0
    decreases |path|, 1
  {
    var d := path[0];
    CandidateFindsLeads(g, p, r, c, shields, order, visited, depth, maxDepth, path, value, bonus);
    var x := Candidate(g, p, r, c, shields, order, visited, depth, maxDepth, d);
    SearchOutranks(g, p, r, c, shields, order, visited, depth, maxDepth, d);
    RanksBelow(SearchResult(d, value, |path|, bonus), x.value, Search(g, p, r, c, shields, order, visited, depth, maxDepth).value);
  }

  /** The candidate of a path's first move ranks at least as high as the path. */
  lemma {:induction false} CandidateFindsLeads(g: Grid, p: Policy, r: int, c: int, shields: int, order: seq<Group>, visited: set<Key>,
                                               depth: int, maxDepth: int, path: seq<Direction>, value: int, bonus: int)
    requires CoversGroups(order) && Leads(g, p, r, c, shields, visited, path, value, bonus) && |path| <= maxDepth - depth
    ensures var x := Candidate(g, p, r, c, shields, order, visited, depth, maxDepth, path[0]);
            x.Some? && Compare(SearchResult(path[0], value, |path|, bonus), x.value) <= 0
    decreases |path|, 0
  {
    var d := path[0];
    var sim := Sim(g, r, c, d);
    if |path| == 1 {
      CandidateOfGems(g, p, r, c, shields, order, visited, depth, maxDepth, d);
    } else {
      var key := (sim.r, sim.c, shields);
      var next := AdjustShields(sim, shields);
      LeadsTail(g, p, r, c, shields, visited, path, value, bonus);
      SearchFindsLeads(g, p, sim.r, sim.c, next, order, visited + {key}, depth + 1, maxDepth, path[1..], value, bonus);
      CandidateOfEmpty(g, p, r, c, shields, order, visited, depth, maxDepth, d);
    }
  }

  /** A path of more than one move starts with an empty slide to a new state and goes on with a path from there. */
  lemma LeadsTail(g: Grid, p: Policy, r: int, c: int, shields: int, visited: set<Key>, path: seq<Direction>, value: int, bonus: int)
    requires Leads(g, p, r, c, shields, visited, path, value, bonus) && |path| >= 2
    ensures var sim := Sim(g, r, c, path[0]);
            && sim.gems == 0 && (sim.r, sim.c, shields) !in visited
            && Leads(g, p, sim.r, sim.c, AdjustShields(sim, shields), visited + {(sim.r, sim.c, shields)}, path[1..], value, bonus)
  {
  }

  /** A slide that collects gems is its own candidate. */
  lemma CandidateOfGems(g: Grid, p: Policy, r: int, c: int, shields: int, order: seq<Group>, visited: set<Key>, depth: int, maxDepth: int,
                        d: Direction)
    requires depth < maxDepth && Sim(g, r, c, d).gems > 0
    ensures var sim := Sim(g, r, c, d);
            Candidate(g, p, r, c, shields, order, visited, depth, maxDepth, d) == Some(SearchResult(d, sim.gems, 1, RegionBonus(g, p, sim.r, sim.c)))
  {
  }

  /** An empty slide to a new state offers what the search finds from there, one move further away. */
  lemma CandidateOfEmpty(g: Grid, p: Policy, r: int, c: int, shields: int, order: seq<Group>, visited: set<Key>, depth: int, maxDepth: int,
                         d: Direction)
    requires depth < maxDepth
    requires var sim := Sim(g, r, c, d); sim.gems == 0 && (sim.r, sim.c, shields) !in visited
    ensures var sim := Sim(g, r, c, d);
            var key := (sim.r, sim.c, shields);
            var y := Search(g, p, sim.r, sim.c, AdjustShields(sim, shields), order, visited + {key}, depth + 1, maxDepth);
            Candidate(g, p, r, c, shields, order, visited, depth, maxDepth, d) == (if y.Some? then Some(y.value.(first := d, depth := y.value.depth + 1)) else None)
  {
  }

  /** Some path of at most `budget` moves leads from the state `(r, c, shields)` to gems. */
  ghost predicate LeadsWithin(g: Grid, p: Policy, r: int, c: int, shields: int, visited: set<Key>, budget: int) {
    exists path, value, bonus :: |path| <= budget && Leads(g, p, r, c, shields, visited, path, value, bonus)
  }

  /** The search finds something exactly when some path fits in the remaining moves. */
  lemma SearchFindsIffLeads(g: Grid, p: Policy, r: int, c: int, shields: int, order: seq<Group>, visited: set<Key>, depth: int, maxDepth: int)
    requires CoversGroups(order)
    ensures Search(g, p, r, c, shields, order, visited, depth, maxDepth).Some? <==> LeadsWithin(g, p, r, c, shields, visited, maxDepth - depth)
  {
    if Search(g, p, r, c, shields, order, visited, depth, maxDepth).Some? {
      var path := SearchPath(g, p, r, c, shields, order, visited, depth, maxDepth);
    }
    if LeadsWithin(g, p, r, c, shields, visited, maxDepth - depth) {
      var path, value, bonus :| |path| <= maxDepth - depth && Leads(g, p, r, c, shields, visited, path, value, bonus);
      SearchFindsLeads(g, p, r, c, shields, order, visited, depth, maxDepth, path, value, bonus);
    }
  }

  /**
   The medium opponent's move: the first move of the best gem found from its cell,
   with nothing visited, looking four moves ahead and visiting the groups in
   `order`; when nothing is found it plays as the easy opponent.
   */
  function PlayMedium(b: Board, p: Policy, order: seq<Group>): (d: Direction)
    ensures var res := Search(b.grid, p, b.cpu.row, b.cpu.col, b.cpu.shields, order, {}, 0, SearchDepth);
            && (res.Some? ==> ValidMove(b.grid, b.cpu.row, b.cpu.col, b.cpu.shields, d))
            && (res.None? ==> IsFirstArgmax(AllDirections, EasyScore(b, p), Ordinal(d)))
  {
    match Search(b.grid, p, b.cpu.row, b.cpu.col, b.cpu.shields, order, {}, 0, SearchDepth)
    case Some(x) => x.first
    case None => PlayEasy(b, p)
  }

  /** Whenever the opponent has a valid move, the medium opponent makes one. */
  lemma PlayMediumValid(b: Board, p: Policy, order: seq<Group>)
    requires exists d :: ValidMove(b.grid, b.cpu.row, b.cpu.col, b.cpu.shields, d)
    ensures ValidMove(b.grid, b.cpu.row, b.cpu.col, b.cpu.shields, PlayMedium(b, p, order))
  {
    if Search(b.grid, p, b.cpu.row, b.cpu.col, b.cpu.shields, order, {}, 0, SearchDepth).None? {
      PlayEasyValid(b, p);
    }
  }

  // ---------------------------------------------------------------------------
  // The grouped search is one scan in group order.

  /** Picking is associative, so the fold can be split anywhere. */
  lemma PickAssociative(a: Option<SearchResult>, b: Option<SearchResult>, c: Option<SearchResult>)
    ensures Pick(Pick(a, b), c) == Pick(a, Pick(b, c))
  {
    if a.Some? && b.Some? && c.Some? {
      CompareTransitive(c.value, b.value, a.value);
      CompareTransitive(c.value, a.value, b.value);
      CompareTransitive(b.value, a.value, c.value);
      CompareAntisymmetric(a.value, b.value);
      CompareAntisymmetric(b.value, c.value);
      CompareAntisymmetric(a.value, c.value);
    }
  }

  /** Folding a concatenation picks between the folds of the two pieces. */
  lemma {:induction false} FoldBestAppend(xs: seq<Option<SearchResult>>, ys: seq<Option<SearchResult>>)
    ensures FoldBest(xs + ys) == Pick(FoldBest(xs), FoldBest(ys))
    decreases |ys|
  {
    if ys == [] {
      assert xs + ys == xs;
    } else {
      var init, last := ys[..|ys| - 1], ys[|ys| - 1];
      assert (xs + ys)[..|xs + ys| - 1] == xs + init;
      FoldBestAppend(xs, init);
      PickAssociative(FoldBest(xs), FoldBest(init), last);
    }
  }

  /** The candidates of `ds`, in order. */
  function Candidates(g: Grid, p: Policy, r: int, c: int, shields: int, order: seq<Group>, visited: set<Key>, depth: int, maxDepth: int,
                      ds: seq<Direction>): (xs: seq<Option<SearchResult>>)
    requires depth < maxDepth
    ensures |xs| == |ds|
    ensures forall i :: 0 <= i < |ds| ==> xs[i] == Candidate(g, p, r, c, shields, order, visited, depth, maxDepth, ds[i])
  {
    seq(|ds|, i requires 0 <= i < |ds| => Candidate(g, p, r, c, shields, order, visited, depth, maxDepth, ds[i]))
  }

  /** The parts laid end to end. */
  function Flatten(parts: seq<seq<Direction>>): seq<Direction> {
    if parts == [] then [] else parts[0] + Flatten(parts[1..])
  }

  /** The candidates of a concatenation are the candidates of the pieces, concatenated. */
  lemma CandidatesAppend(g: Grid, p: Policy, r: int, c: int, shields: int, order: seq<Group>, visited: set<Key>, depth: int, maxDepth: int,
                         a: seq<Direction>, b: seq<Direction>)
    requires depth < maxDepth
    ensures Candidates(g, p, r, c, shields, order, visited, depth, maxDepth, a + b)
            == Candidates(g, p, r, c, shields, order, visited, depth, maxDepth, a) + Candidates(g, p, r, c, shields, order, visited, depth, maxDepth, b)
  {
  }

  /** A part's result is the scan over its candidates. */
  lemma SubgroupIsScan(g: Grid, p: Policy, r: int, c: int, shields: int, order: seq<Group>, visited: set<Key>, depth: int, maxDepth: int,
                       ds: seq<Direction>)
    requires depth < maxDepth
    ensures Subgroup(g, p, r, c, shields, order, visited, depth, maxDepth, ds) == FoldBest(Candidates(g, p, r, c, shields, order, visited, depth, maxDepth, ds))
  {
    var xs := seq(|ds|, i requires 0 <= i < |ds| => Candidate(g, p, r, c, shields, order, visited, depth, maxDepth, ds[i]));
    assert xs == Candidates(g, p, r, c, shields, order, visited, depth, maxDepth, ds);
  }

  /** Dropping the last part drops the last result. */
  lemma PartResultsPrefix(g: Grid, p: Policy, r: int, c: int, shields: int, order: seq<Group>, visited: set<Key>, depth: int, maxDepth: int,
                          parts: seq<seq<Direction>>)
    requires depth < maxDepth && parts != []
    ensures var xs := PartResults(g, p, r, c, shields, order, visited, depth, maxDepth, parts);
            xs == PartResults(g, p, r, c, shields, order, visited, depth, maxDepth, parts[..|parts| - 1])
                  + [Subgroup(g, p, r, c, shields, order, visited, depth, maxDepth, parts[|parts| - 1])]
  {
    var xs := PartResults(g, p, r, c, shields, order, visited, depth, maxDepth, parts);
    var ys := PartResults(g, p, r, c, shields, order, visited, depth, maxDepth, parts[..|parts| - 1]);
    var z := Subgroup(g, p, r, c, shields, order, visited, depth, maxDepth, parts[|parts| - 1]);
    forall i | 0 <= i < |ys|
      ensures xs[i] == ys[i]
    {
      assert parts[..|parts| - 1][i] == parts[i];
    }
    Snoc(xs, ys, z);
  }

  lemma Snoc<T>(xs: seq<T>, ys: seq<T>, z: T)
    requires |xs| == |ys| + 1 && xs[|ys|] == z
    requires forall i :: 0 <= i < |ys| ==> xs[i] == ys[i]
    ensures xs == ys + [z]
  {
  }

  /** Searching part by part and keeping the best is one scan over the parts laid end to end. */
  lemma {:induction false} PartsAreOneScan(g: Grid, p: Policy, r: int, c: int, shields: int, order: seq<Group>, visited: set<Key>, depth: int, maxDepth: int,
                                           parts: seq<seq<Direction>>)
    requires depth < maxDepth
    ensures FoldBest(PartResults(g, p, r, c, shields, order, visited, depth, maxDepth, parts))
            == FoldBest(Candidates(g, p, r, c, shields, order, visited, depth, maxDepth, Flatten(parts)))
    decreases |parts|
  {
    if parts == [] {
      assert PartResults(g, p, r, c, shields, order, visited, depth, maxDepth, parts) == [];
      assert Candidates(g, p, r, c, shields, order, visited, depth, maxDepth, Flatten(parts)) == [];
    } else {
      var init, last := parts[..|parts| - 1], parts[|parts| - 1];
      var ys := PartResults(g, p, r, c, shields, order, visited, depth, maxDepth, init);
      var z := Subgroup(g, p, r, c, shields, order, visited, depth, maxDepth, last);
      PartResultsPrefix(g, p, r, c, shields, order, visited, depth, maxDepth, parts);
      assert parts == init + [last];
      FlattenSnoc(init, last);
      FoldBestAppend(ys, [z]);
      assert FoldBest([z]) == z by {
        assert [z][..0] == [];
      }
      PartsAreOneScan(g, p, r, c, shields, order, visited, depth, maxDepth, init);
      var ci := Candidates(g, p, r, c, shields, order, visited, depth, maxDepth, Flatten(init));
      var cl := Candidates(g, p, r, c, shields, order, visited, depth, maxDepth, last);
      CandidatesAppend(g, p, r, c, shields, order, visited, depth, maxDepth, Flatten(init), last);
      SubgroupIsScan(g, p, r, c, shields, order, visited, depth, maxDepth, last);
      FoldBestAppend(ci, cl);
    }
  }

  /** Halving a group and laying the halves end to end gives the group back. */
  lemma HalvesFlatten(ws: seq<Direction>)
    ensures Flatten(Halves(ws)) == ws
  {
    if |ws| > 2 {
      var a, b := ws[..|ws| / 2], ws[|ws| / 2..];
      assert Halves(ws) == [a, b];
      assert [a, b][1..] == [b] && [b][1..] == [];
      assert Flatten([b]) == b + Flatten([]);
      assert a + b == ws;
    } else {
      assert Halves(ws) == [ws] && [ws][1..] == [];
      assert Flatten([ws]) == ws + Flatten([]);
    }
  }

  /** Flattening distributes over concatenation. */
  lemma {:induction false} FlattenAppend(a: seq<seq<Direction>>, b: seq<seq<Direction>>)
    ensures Flatten(a + b) == Flatten(a) + Flatten(b)
    decreases |a|
  {
    if a == [] {
      assert a + b == b;
    } else {
      assert (a + b)[0] == a[0] && (a + b)[1..] == a[1..] + b;
      FlattenAppend(a[1..], b);
    }
  }

  /** Appending a part appends its directions. */
  lemma FlattenSnoc(parts: seq<seq<Direction>>, last: seq<Direction>)
    ensures Flatten(parts + [last]) == Flatten(parts) + last
  {
    FlattenAppend(parts, [last]);
    assert [last][1..] == [];
  }

  /** The parts of all groups, laid end to end, list each group's members, groups in the order given. */
  function GroupedOrder(vs: seq<Direction>, order: seq<Group>): (ws: seq<Direction>)
    ensures forall d :: d in ws <==> d in vs && DirectionGroup(d) in order
  {
    if order == [] then [] else InGroup(vs, order[0]) + GroupedOrder(vs, order[1..])
  }

  lemma {:induction false} PartsFlatten(vs: seq<Direction>, order: seq<Group>)
    ensures Flatten(Parts(vs, order)) == GroupedOrder(vs, order)
    decreases |order|
  {
    if order != [] {
      FlattenAppend(Halves(InGroup(vs, order[0])), Parts(vs, order[1..]));
      HalvesFlatten(InGroup(vs, order[0]));
      PartsFlatten(vs, order[1..]);
    }
  }

  /**
   The grouped search finds exactly what a left-to-right scan finds over the valid
   directions of each group in `order` in turn, each group in enumeration order;
   ties go to the earliest.
   */
  lemma SearchIsOneScan(g: Grid, p: Policy, r: int, c: int, shields: int, order: seq<Group>, visited: set<Key>, depth: int, maxDepth: int)
    requires depth < maxDepth
    ensures Search(g, p, r, c, shields, order, visited, depth, maxDepth)
            == FoldBest(Candidates(g, p, r, c, shields, order, visited, depth, maxDepth, GroupedOrder(ValidMoves(g, r, c, shields), order)))
  {
    var vs := ValidMoves(g, r, c, shields);
    PartsAreOneScan(g, p, r, c, shields, order, visited, depth, maxDepth, Parts(vs, order));
    PartsFlatten(vs, order);
    if vs == [] {
      assert Search(g, p, r, c, shields, order, visited, depth, maxDepth) == None;
      assert Candidates(g, p, r, c, shields, order, visited, depth, maxDepth, GroupedOrder(vs, order)) == [] by {
        assert forall d :: d !in InGroup(vs, DirectionGroup(d));
        EmptyGrouped(order);
      }
    } else {
      assert Search(g, p, r, c, shields, order, visited, depth, maxDepth)
             == FoldBest(PartResults(g, p, r, c, shields, order, visited, depth, maxDepth, Parts(vs, order)));
    }
  }

  /** Nothing to group gives nothing to scan. */
  lemma {:induction false} EmptyGrouped(order: seq<Group>)
    ensures GroupedOrder([], order) == []
    decreases |order|
  {
    if order != [] {
      EmptyGrouped(order[1..]);
    }
  }

  /**
   Among results of equal rank the search keeps the one met first in the group order:
   its first move is a valid direction, and every valid direction met before it
   offers a strictly lower-ranked candidate or none.
   */
  lemma SearchTieBreak(g: Grid, p: Policy, r: int, c: int, shields: int, order: seq<Group>, visited: set<Key>, depth: int, maxDepth: int)
    requires Search(g, p, r, c, shields, order, visited, depth, maxDepth).Some?
    ensures var x := Search(g, p, r, c, shields, order, visited, depth, maxDepth).value;
            var ws := GroupedOrder(ValidMoves(g, r, c, shields), order);
            exists i :: 0 <= i < |ws| && ws[i] == x.first &&
              forall j :: 0 <= j < i ==> var y := Candidate(g, p, r, c, shields, order, visited, depth, maxDepth, ws[j]);
                                         y.Some? ==> Compare(y.value, x) < 0
  {
    var x := Search(g, p, r, c, shields, order, visited, depth, maxDepth).value;
    var ws := GroupedOrder(ValidMoves(g, r, c, shields), order);
    SearchIsOneScan(g, p, r, c, shields, order, visited, depth, maxDepth);
    var xs := Candidates(g, p, r, c, shields, order, visited, depth, maxDepth, ws);
    var i := FoldBestFirstIndex(xs);
    assert ws[i] == x.first;
    forall j | 0 <= j < i
      ensures var y := Candidate(g, p, r, c, shields, order, visited, depth, maxDepth, ws[j]);
              y.Some? ==> Compare(y.value, x) < 0
    {
      assert xs[j] == Candidate(g, p, r, c, shields, order, visited, depth, maxDepth, ws[j]);
    }
  }
}

=== FILE: opponent.dfy ===
/**
 The opponent's entry point: the region policy of the board is computed once, and
 the difficulty level picks the player that uses it.
 */
module Opponent {

  import opened Options
  import opened Compass
  import opened Grids
  import opened Game
  import opened Levels
  import opened Regions
  import opened Tactics
  import opened EasyTier
  import opened MediumTier
  import opened HardTier

  /**
   The opponent's move at `level`, with the medium player visiting direction groups
   in `order`. The easy and medium players always name a direction; the hard player
   names none exactly when no move is valid.
   */
  function Choose(b: Board, level: Difficulty, order: seq<Group>): (d: Option<Direction>)
    requires Rect(b.grid)
    ensures level != Hard ==> d.Some?
    ensures level == Hard ==> (d.None? <==> forall e :: !ValidMove(b.grid, b.cpu.row, b.cpu.col, b.cpu.shields, e))
  {
    var policy := ComputePolicy(b.grid);
    match level
    case Easy => Some(PlayEasy(b, policy))
    case Medium => Some(PlayMedium(b, policy, order))
    case Hard => PlayHard(b, policy)
  }

  /** Whenever the opponent has a safe move, every level chooses a valid one. */
  lemma ChooseIsValid(b: Board, level: Difficulty, order: seq<Group>)
    requires Rect(b.grid)
    requires HasAnySafeMove(b.grid, b.cpu.row, b.cpu.col, b.cpu.shields)
    ensures Choose(b, level, order).Some? && ValidMove(b.grid, b.cpu.row, b.cpu.col, b.cpu.shields, Choose(b, level, order).value)
  {
    var e :| Survivable(b.grid, b.cpu.row, b.cpu.col, b.cpu.shields, e);
    ValidMoveIsSurvivable(b.grid, b.cpu.row, b.cpu.col, b.cpu.shields, e);
    var policy := ComputePolicy(b.grid);
    if level == Easy {
      PlayEasyValid(b, policy);
    } else if level == Medium {
      PlayMediumValid(b, policy, order);
    }
  }

  /**
   Whenever the opponent has a safe move, the move chosen at any level leaves the
   game running with the opponent on a new cell.
   */
  lemma ChooseIsSafe(b: Board, level: Difficulty, order: seq<Group>)
    requires Rect(b.grid) && !b.gameOver
    requires HasAnySafeMove(b.grid, b.cpu.row, b.cpu.col, b.cpu.shields)
    ensures Choose(b, level, order).Some?
    ensures var o := Move(b, Cpu, Choose(b, level, order).value).board;
            !o.gameOver && (o.cpu.row, o.cpu.col) != (b.cpu.row, b.cpu.col)
  {
    ChooseIsValid(b, level, order);
    ValidMoveIsSafe(b, Choose(b, level, order).value);
  }
}

=== FILE: pruning.dfy ===
/**
 Removal of unreachable gems after board generation.

 A breadth-first search from the human's start cell follows every slide that does
 not end on a mine; for each such slide it marks the gems on the cells the slide
 ray passes (`MarkPathGems`). Gems never marked are then cleared.

 The results proved here: the search visits exactly the least set of cells that
 contains the start and is closed under mine-free slides; a gem survives exactly
 when it lies on the ray of a mine-free slide from such a cell; the terrain is
 untouched; and pruning a pruned board changes nothing.
 */
module Pruning {

  import opened Compass
  import opened Grids
  import opened Slides

  type Pos = (int, int)

  /** Every position of the grid. */
  function Cells(g: Grid): (s: set<Pos>)
    ensures forall r, c :: (r, c) in s <==> InBounds(g, r, c)
  {
    set r, c | 0 <= r < |g| && 0 <= c < |g[r]| :: (r, c)
  }

  /** The non-consuming probe the search makes from `p` in direction `d`. */
  function Probe(g: Grid, p: Pos, d: Direction): SlideResult {
    Slide(g, p.0, p.1, d, false).result
  }

  // ---------------------------------------------------------------------------
  // The marking walk.

  /**
   The cells the marking walk steps onto from `(r, c)`: each cell on the grid and
   not a wall, up to and including the first stop marker or mine.
   */
  function RayCells(g: Grid, r: int, c: int, d: Direction): set<Pos>
    decreases Room(g, r, c, d)
  {
    var nr, nc := r + Dx(d), c + Dy(d);
    if !InBounds(g, nr, nc) || g[nr][nc].wall then {}
    else if g[nr][nc].stop || g[nr][nc].mine then {(nr, nc)}
    else
      RoomDecreases(g, g, r, c, d);
      {(nr, nc)} + RayCells(g, nr, nc, d)
  }

  /** The marking loop as written: step, stop at the edge or a wall, mark a gem, stop after a stop marker or mine. */
  function MarkPathGems(g: Grid, r: int, c: int, d: Direction, marked: set<Pos>): set<Pos>
    decreases Room(g, r, c, d)
  {
    var nr, nc := r + Dx(d), c + Dy(d);
    if !InBounds(g, nr, nc) || g[nr][nc].wall then marked
    else
      var marked' := if g[nr][nc].gem then marked + {(nr, nc)} else marked;
      if g[nr][nc].stop || g[nr][nc].mine then marked'
      else
        RoomDecreases(g, g, r, c, d);
        MarkPathGems(g, nr, nc, d, marked')
  }

  /** Gem-holding positions of a set. */
  function GemsIn(g: Grid, s: set<Pos>): set<Pos> {
    set q | q in s && Look(g, q.0, q.1).gem
  }

  /** The marking walk adds exactly the gems among the ray's cells. */
  lemma {:induction false} MarkPathGemsAddsRayGems(g: Grid, r: int, c: int, d: Direction, marked: set<Pos>)
    ensures MarkPathGems(g, r, c, d, marked) == marked + GemsIn(g, RayCells(g, r, c, d))
    decreases Room(g, r, c, d)
  {
    var nr, nc := r + Dx(d), c + Dy(d);
    if InBounds(g, nr, nc) && !g[nr][nc].wall && !g[nr][nc].stop && !g[nr][nc].mine {
      RoomDecreases(g, g, r, c, d);
      var marked' := if g[nr][nc].gem then marked + {(nr, nc)} else marked;
      MarkPathGemsAddsRayGems(g, nr, nc, d, marked');
      assert RayCells(g, r, c, d) == {(nr, nc)} + RayCells(g, nr, nc, d);
      GemsInUnion(g, {(nr, nc)}, RayCells(g, nr, nc, d));
    }
  }

  lemma GemsInUnion(g: Grid, a: set<Pos>, b: set<Pos>)
    ensures GemsIn(g, a + b) == GemsIn(g, a) + GemsIn(g, b)
  {
  }

  /** Every cell of a ray is on the grid and not a wall. */
  lemma RayCellsOpen(g: Grid, r: int, c: int, d: Direction)
    ensures forall q :: q in RayCells(g, r, c, d) ==> InBounds(g, q.0, q.1) && !g[q.0][q.1].wall
  {
    forall q | q in RayCells(g, r, c, d)
      ensures InBounds(g, q.0, q.1) && !g[q.0][q.1].wall
    {
      RayCellOpen(g, r, c, d, q);
    }
  }

  lemma {:induction false} RayCellOpen(g: Grid, r: int, c: int, d: Direction, q: Pos)
    requires q in RayCells(g, r, c, d)
    ensures InBounds(g, q.0, q.1) && !g[q.0][q.1].wall
    decreases Room(g, r, c, d)
  {
    var nr, nc := r + Dx(d), c + Dy(d);
    if q != (nr, nc) {
      RoomDecreases(g, g, r, c, d);
      RayCellOpen(g, nr, nc, d, q);
    }
  }

  /** The ray's cells depend on the terrain only. */
  lemma {:induction false} RayCellsTerrain(g: Grid, h: Grid, r: int, c: int, d: Direction)
    requires SameTerrain(g, h)
    ensures RayCells(g, r, c, d) == RayCells(h, r, c, d)
    decreases Room(g, r, c, d)
  {
    var nr, nc := r + Dx(d), c + Dy(d);
    if InBounds(g, nr, nc) && !g[nr][nc].wall && !g[nr][nc].stop && !g[nr][nc].mine {
      RoomDecreases(g, g, r, c, d);
      RayCellsTerrain(g, h, nr, nc, d);
    }
  }

  // ---------------------------------------------------------------------------
  // Reference description: reachability and the gems it feeds.

  /** A probe that does not end on a mine leads to its end cell. */
  predicate Leads(g: Grid, p: Pos, d: Direction) {
    !Probe(g, p, d).hitMine
  }

  function EndOf(g: Grid, p: Pos, d: Direction): Pos {
    (Probe(g, p, d).r, Probe(g, p, d).c)
  }

  /** No mine-free slide leaves the set `s`. */
  ghost predicate Closed(g: Grid, s: set<Pos>) {
    forall p, d :: p in s && Leads(g, p, d) ==> EndOf(g, p, d) in s
  }

  /** The gem at `q` lies on the ray of a mine-free slide from `p`. */
  ghost predicate Feeds(g: Grid, p: Pos, q: Pos) {
    exists d :: Leads(g, p, d) && q in GemsIn(g, RayCells(g, p.0, p.1, d))
  }

  /** Some cell of `reach` feeds the gem at `q`. */
  ghost predicate FedBy(g: Grid, reach: set<Pos>, q: Pos) {
    exists p :: p in reach && Feeds(g, p, q)
  }

  /** The gem at `q` lies on the ray of one of the mine-free probes in directions `ds` from `p`. */
  ghost predicate FedByProbes(g: Grid, p: Pos, ds: seq<Direction>, q: Pos) {
    exists i :: 0 <= i < |ds| && Leads(g, p, ds[i]) && q in GemsIn(g, RayCells(g, p.0, p.1, ds[i]))
  }

  /** The marked gems are exactly those fed by the expanded cells. */
  ghost predicate MarksFed(g: Grid, s: Search) {
    forall q :: q in s.marked <==> FedBy(g, Done(s), q)
  }

  // ---------------------------------------------------------------------------
  // The breadth-first search.

  /** Search state: cells seen, cells waiting to be expanded, gems marked. */
  datatype Search = Search(visited: set<Pos>, queue: seq<Pos>, marked: set<Pos>)

  /** Cells seen but already expanded. */
  function Done(s: Search): set<Pos> {
    s.visited - Listed(s.queue)
  }

  /** The state the search keeps between expansions. */
  ghost predicate Invariant(g: Grid, s: Search) {
    && s.visited <= Cells(g)
    && Listed(s.queue) <= s.visited
    && Distinct(s.queue)
    && (forall p, d :: p in Done(s) && Leads(g, p, d) ==> EndOf(g, p, d) in s.visited)
    && MarksFed(g, s)
  }

  /** One expansion of `p`: the directions `ds` probed in order, each mine-free probe recording its end and marking its ray. */
  function Expand(g: Grid, p: Pos, ds: seq<Direction>, s: Search): (t: Search)
    requires p in Cells(g) && s.visited <= Cells(g)
    ensures s.visited <= t.visited <= Cells(g)
    decreases |ds|
  {
    if ds == [] then s
    else
      var s' := ProbeStep(g, p, ds[0], s);
      Expand(g, p, ds[1..], s')
  }

  /** The body of the expansion loop for one direction. */
  function ProbeStep(g: Grid, p: Pos, d: Direction, s: Search): (t: Search)
    requires p in Cells(g) && s.visited <= Cells(g)
    ensures s.visited <= t.visited <= Cells(g)
    ensures Leads(g, p, d) ==> EndOf(g, p, d) in t.visited
  {
    if !Leads(g, p, d) then s
    else
      var q := EndOf(g, p, d);
      SlideEndNotWall(g, p.0, p.1, d, false);
      var s1 := if q !in s.visited then s.(visited := s.visited + {q}, queue := s.queue + [q]) else s;
      s1.(marked := MarkPathGems(g, p.0, p.1, d, s1.marked))
  }

  /** Positions listed in a queue. */
  function Listed(q: seq<Pos>): set<Pos> {
    set i | 0 <= i < |q| :: q[i]
  }

  lemma ListedEmpty(q: seq<Pos>)
    ensures Listed(q) == {} <==> q == []
  {
    if q != [] {
      assert q[0] in Listed(q);
    }
  }

  /** No position is listed twice. */
  predicate Distinct(q: seq<Pos>) {
    forall i, j :: 0 <= i < j < |q| ==> q[i] != q[j]
  }

  /**
   `t` extends the queue of `s`, appending without repetition exactly the cells it
   newly records as visited.
   */
  ghost predicate Appends(s: Search, t: Search) {
    && |t.queue| >= |s.queue| && t.queue[..|s.queue|] == s.queue
    && Distinct(t.queue[|s.queue|..])
    && Listed(t.queue[|s.queue|..]) == t.visited - s.visited
  }

  /** `t` is `s`, or `s` with one new cell recorded as visited and queued. */
  ghost predicate OneStep(s: Search, t: Search) {
    || (t.queue == s.queue && t.visited == s.visited)
    || (&& |t.queue| == |s.queue| + 1 && t.queue == s.queue + [t.queue[|s.queue|]]
        && t.queue[|s.queue|] !in s.visited && t.visited == s.visited + {t.queue[|s.queue|]})
  }

  /** A probe queues at most one new cell. */
  lemma ProbeStepOneStep(g: Grid, p: Pos, d: Direction, s: Search)
    requires p in Cells(g) && s.visited <= Cells(g)
    ensures OneStep(s, ProbeStep(g, p, d, s))
  {
    if Leads(g, p, d) && EndOf(g, p, d) !in s.visited {
      var t := ProbeStep(g, p, d, s);
      assert t.queue[|s.queue|] == EndOf(g, p, d);
    }
  }

  /** A step followed by appending still appends. */
  lemma OneStepAppends(s: Search, s': Search, t: Search)
    requires OneStep(s, s') && Appends(s', t) && s'.visited <= t.visited
    ensures Appends(s, t)
  {
    var n, n' := |s.queue|, |s'.queue|;
    assert t.queue[..n] == t.queue[..n'][..n];
    if n' == n + 1 {
      assert t.queue[n..] == [s'.queue[n]] + t.queue[n'..];
      assert Listed(t.queue[n..]) == {s'.queue[n]} + Listed(t.queue[n'..]);
    } else {
      assert t.queue[n..] == t.queue[n'..];
    }
  }

  /** An expansion appends to the queue, without repetition, exactly the cells it newly records as visited. */
  lemma {:induction false} ExpandQueue(g: Grid, p: Pos, ds: seq<Direction>, s: Search)
    requires p in Cells(g) && s.visited <= Cells(g)
    ensures Appends(s, Expand(g, p, ds, s))
    decreases |ds|
  {
    var t := Expand(g, p, ds, s);
    if ds == [] {
      assert t.queue[|s.queue|..] == [];
    } else {
      var s' := ProbeStep(g, p, ds[0], s);
      ExpandQueue(g, p, ds[1..], s');
      ProbeStepOneStep(g, p, ds[0], s);
      OneStepAppends(s, s', t);
    }
  }

  /** Every mine-free probe of an expansion records its end cell. */
  lemma {:induction false} ExpandEnds(g: Grid, p: Pos, ds: seq<Direction>, s: Search)
    requires p in Cells(g) && s.visited <= Cells(g)
    ensures forall i :: 0 <= i < |ds| && Leads(g, p, ds[i]) ==> EndOf(g, p, ds[i]) in Expand(g, p, ds, s).visited
    decreases |ds|
  {
    if ds != [] {
      var s' := ProbeStep(g, p, ds[0], s);
      ExpandEnds(g, p, ds[1..], s');
      forall i | 1 <= i < |ds| && Leads(g, p, ds[i])
        ensures EndOf(g, p, ds[i]) in Expand(g, p, ds, s).visited
      {
        assert ds[1..][i - 1] == ds[i];
      }
    }
  }

  /** An expansion marks exactly the gems on the rays of its mine-free probes. */
  lemma {:induction false} ExpandMarks(g: Grid, p: Pos, ds: seq<Direction>, s: Search)
    requires p in Cells(g) && s.visited <= Cells(g)
    ensures forall q :: q in Expand(g, p, ds, s).marked <==> q in s.marked || FedByProbes(g, p, ds, q)
    decreases |ds|
  {
    if ds != [] {
      var s' := ProbeStep(g, p, ds[0], s);
      ExpandMarks(g, p, ds[1..], s');
      if Leads(g, p, ds[0]) {
        MarkPathGemsAddsRayGems(g, p.0, p.1, ds[0], s.marked);
      }
      forall q
        ensures q in Expand(g, p, ds, s).marked <==> q in s.marked || FedByProbes(g, p, ds, q)
      {
        FedByProbesCons(g, p, ds, q);
      }
    }
  }

  /** Probing `ds` feeds what probing its head or its tail feeds. */
  lemma FedByProbesCons(g: Grid, p: Pos, ds: seq<Direction>, q: Pos)
    requires ds != []
    ensures FedByProbes(g, p, ds, q)
        <==> (Leads(g, p, ds[0]) && q in GemsIn(g, RayCells(g, p.0, p.1, ds[0]))) || FedByProbes(g, p, ds[1..], q)
  {
    if FedByProbes(g, p, ds, q) {
      var i :| 0 <= i < |ds| && Leads(g, p, ds[i]) && q in GemsIn(g, RayCells(g, p.0, p.1, ds[i]));
      if i > 0 {
        assert ds[1..][i - 1] == ds[i];
      }
    }
    if FedByProbes(g, p, ds[1..], q) {
      var i :| 0 <= i < |ds[1..]| && Leads(g, p, ds[1..][i]) && q in GemsIn(g, RayCells(g, p.0, p.1, ds[1..][i]));
      assert ds[1..][i] == ds[i + 1];
    }
  }

  /** The search loop: expand the head of the queue until the queue is empty. */
  function Explore(g: Grid, s: Search): (t: Search)
    requires s.visited <= Cells(g) && Listed(s.queue) <= s.visited
    ensures s.visited <= t.visited <= Cells(g)
    ensures t.queue == []
    decreases |Cells(g) - s.visited|, |s.queue|
  {
    if s.queue == [] then s
    else
      var t := Step(g, s);
      ExpandQueue(g, s.queue[0], AllDirections, s.(queue := s.queue[1..]));
      ExploreMeasure(Cells(g), s, t);
      Explore(g, t)
  }

  /** After an expansion the queue lists only visited cells, and the search measure drops. */
  lemma ExploreMeasure(cells: set<Pos>, s: Search, t: Search)
    requires s.queue != [] && Listed(s.queue) <= s.visited
    requires s.visited <= t.visited <= cells
    requires |t.queue| >= |s.queue| - 1 && t.queue[..|s.queue| - 1] == s.queue[1..]
    requires Listed(t.queue[|s.queue| - 1..]) == t.visited - s.visited
    ensures Listed(t.queue) <= t.visited
    ensures |cells - t.visited| < |cells - s.visited|
            || (|cells - t.visited| == |cells - s.visited| && |t.queue| < |s.queue|)
  {
    var n := |s.queue| - 1;
    assert t.queue == t.queue[..n] + t.queue[n..];
    assert Listed(t.queue) == Listed(t.queue[..n]) + Listed(t.queue[n..]);
    assert Listed(s.queue[1..]) <= Listed(s.queue);
    if t.visited == s.visited {
      ListedEmpty(t.queue[n..]);
    } else {
      ProperSubsetSmaller(cells - t.visited, cells - s.visited);
    }
  }

  lemma ProperSubsetSmaller<T>(a: set<T>, b: set<T>)
    requires a < b
    ensures |a| < |b|
  {
    assert b == a + (b - a);
    assert b - a != {};
  }

  /** The queue of the first expansion state. */
  function Start(start: Pos): Search {
    Search({start}, [start], {})
  }

  lemma StartInvariant(g: Grid, start: Pos)
    requires start in Cells(g)
    ensures Invariant(g, Start(start))
  {
    assert Listed([start]) == {start} by {
      assert [start][0] == start;
    }
  }

  /** Expanding the head of the queue moves it, and only it, into the expanded cells. */
  lemma DoneGrows(s: Search, t: Search)
    requires s.queue != [] && Listed(s.queue) <= s.visited && Distinct(s.queue)
    requires s.visited <= t.visited
    requires |t.queue| >= |s.queue| - 1 && t.queue[..|s.queue| - 1] == s.queue[1..]
    requires Listed(t.queue[|s.queue| - 1..]) == t.visited - s.visited
    ensures Done(t) == Done(s) + {s.queue[0]}
    ensures Listed(t.queue) == Listed(s.queue[1..]) + (t.visited - s.visited)
    ensures Listed(t.queue) <= t.visited
  {
    var n := |s.queue| - 1;
    assert t.queue == t.queue[..n] + t.queue[n..];
    assert Listed(t.queue) == Listed(t.queue[..n]) + Listed(t.queue[n..]);
    assert s.queue == [s.queue[0]] + s.queue[1..];
    assert Listed(s.queue) == {s.queue[0]} + Listed(s.queue[1..]);
    assert s.queue[0] !in Listed(s.queue[1..]);
  }

  /** The queue after an expansion still lists no cell twice. */
  lemma DistinctAfterExpand(s: Search, t: Search)
    requires s.queue != [] && Listed(s.queue) <= s.visited && Distinct(s.queue)
    requires |t.queue| >= |s.queue| - 1 && t.queue[..|s.queue| - 1] == s.queue[1..]
    requires Distinct(t.queue[|s.queue| - 1..])
    requires Listed(t.queue[|s.queue| - 1..]) !! s.visited
    ensures Distinct(t.queue)
  {
    var n := |s.queue| - 1;
    forall i, j | 0 <= i < j < |t.queue|
      ensures t.queue[i] != t.queue[j]
    {
      if j < n {
        assert t.queue[i] == s.queue[i + 1] && t.queue[j] == s.queue[j + 1];
      } else if i < n {
        assert t.queue[i] == s.queue[i + 1];
        assert s.queue[i + 1] in Listed(s.queue);
        assert t.queue[j] == t.queue[n..][j - n];
      } else {
        assert t.queue[i] == t.queue[n..][i - n] && t.queue[j] == t.queue[n..][j - n];
      }
    }
  }

  /** The gems a cell feeds are those on the rays of its mine-free probes, in enumeration order. */
  lemma FeedsByEnumeration(g: Grid, p: Pos, q: Pos)
    ensures Feeds(g, p, q) <==> FedByProbes(g, p, AllDirections, q)
  {
    if Feeds(g, p, q) {
      var d :| Leads(g, p, d) && q in GemsIn(g, RayCells(g, p.0, p.1, d));
      assert AllDirections[Ordinal(d)] == d;
    }
  }

  /** The expansion of the head of the queue. */
  function Step(g: Grid, s: Search): Search
    requires s.queue != [] && s.visited <= Cells(g) && Listed(s.queue) <= s.visited
  {
    assert s.queue[0] in Listed(s.queue);
    Expand(g, s.queue[0], AllDirections, s.(queue := s.queue[1..]))
  }

  /** Expanding the head of the queue keeps the search invariant. */
  lemma StepKeepsInvariant(g: Grid, s: Search)
    requires Invariant(g, s) && s.queue != []
    ensures Invariant(g, Step(g, s))
  {
    StepKeepsQueue(g, s);
    StepKeepsClosure(g, s);
    StepKeepsMarks(g, s);
  }

  lemma StepKeepsQueue(g: Grid, s: Search)
    requires s.queue != [] && s.visited <= Cells(g) && Listed(s.queue) <= s.visited && Distinct(s.queue)
    ensures var t := Step(g, s);
            && t.visited <= Cells(g) && Listed(t.queue) <= t.visited && Distinct(t.queue)
            && Done(t) == Done(s) + {s.queue[0]}
  {
    StepQueueShape(g, s);
    var t := Step(g, s);
    DoneGrows(s, t);
    DistinctAfterExpand(s, t);
  }

  /** The head expansion keeps the old queue tail and appends the newly visited cells. */
  lemma StepQueueShape(g: Grid, s: Search)
    requires s.queue != [] && s.visited <= Cells(g) && Listed(s.queue) <= s.visited
    ensures var t := Step(g, s);
            && s.visited <= t.visited <= Cells(g)
            && |t.queue| >= |s.queue| - 1 && t.queue[..|s.queue| - 1] == s.queue[1..]
            && Distinct(t.queue[|s.queue| - 1..])
            && Listed(t.queue[|s.queue| - 1..]) == t.visited - s.visited
  {
    ExpandQueue(g, s.queue[0], AllDirections, s.(queue := s.queue[1..]));
  }

  lemma StepKeepsClosure(g: Grid, s: Search)
    requires s.queue != [] && s.visited <= Cells(g) && Listed(s.queue) <= s.visited && Distinct(s.queue)
    requires forall p, d :: p in Done(s) && Leads(g, p, d) ==> EndOf(g, p, d) in s.visited
    ensures var t := Step(g, s);
            forall p, d :: p in Done(t) && Leads(g, p, d) ==> EndOf(g, p, d) in t.visited
  {
    var p := s.queue[0];
    var s0 := s.(queue := s.queue[1..]);
    var t := Step(g, s);
    StepQueueShape(g, s);
    DoneGrows(s, t);
    ExpandEnds(g, p, AllDirections, s0);
    ClosureAfterExpand(g, s, t);
  }

  lemma StepKeepsMarks(g: Grid, s: Search)
    requires s.queue != [] && s.visited <= Cells(g) && Listed(s.queue) <= s.visited && Distinct(s.queue)
    requires MarksFed(g, s)
    ensures MarksFed(g, Step(g, s))
  {
    var p := s.queue[0];
    var s0 := s.(queue := s.queue[1..]);
    var t := Step(g, s);
    StepQueueShape(g, s);
    DoneGrows(s, t);
    ExpandMarks(g, p, AllDirections, s0);
    MarkedAfterExpand(g, s, t);
  }

  lemma ClosureAfterExpand(g: Grid, s: Search, t: Search)
    requires s.queue != [] && s.visited <= t.visited
    requires Done(t) == Done(s) + {s.queue[0]}
    requires forall p, d :: p in Done(s) && Leads(g, p, d) ==> EndOf(g, p, d) in s.visited
    requires forall i :: 0 <= i < |AllDirections| && Leads(g, s.queue[0], AllDirections[i])
                         ==> EndOf(g, s.queue[0], AllDirections[i]) in t.visited
    ensures forall p, d :: p in Done(t) && Leads(g, p, d) ==> EndOf(g, p, d) in t.visited
  {
    forall p, d | p in Done(t) && Leads(g, p, d)
      ensures EndOf(g, p, d) in t.visited
    {
      if p == s.queue[0] {
        assert AllDirections[Ordinal(d)] == d;
      }
    }
  }

  lemma MarkedAfterExpand(g: Grid, s: Search, t: Search)
    requires s.queue != []
    requires Done(t) == Done(s) + {s.queue[0]}
    requires MarksFed(g, s)
    requires forall q :: q in t.marked <==> q in s.marked || FedByProbes(g, s.queue[0], AllDirections, q)
    ensures MarksFed(g, t)
  {
    forall q
      ensures q in t.marked <==> FedBy(g, Done(t), q)
    {
      FeedsByEnumeration(g, s.queue[0], q);
    }
  }

  /** The search keeps its invariant to the end. */
  lemma {:induction false} ExploreKeepsInvariant(g: Grid, s: Search)
    requires Invariant(g, s)
    ensures Invariant(g, Explore(g, s))
    decreases |Cells(g) - s.visited|, |s.queue|
  {
    if s.queue != [] {
      var t := Step(g, s);
      ExpandQueue(g, s.queue[0], AllDirections, s.(queue := s.queue[1..]));
      ExploreMeasure(Cells(g), s, t);
      StepKeepsInvariant(g, s);
      ExploreKeepsInvariant(g, t);
    }
  }

  /** The search never leaves a set that contains what it has seen and is closed under mine-free slides. */
  lemma {:induction false} ExploreWithin(g: Grid, s: Search, bound: set<Pos>)
    requires s.visited <= Cells(g) && Listed(s.queue) <= s.visited
    requires s.visited <= bound && Closed(g, bound)
    ensures Explore(g, s).visited <= bound
    decreases |Cells(g) - s.visited|, |s.queue|
  {
    if s.queue != [] {
      var t := Step(g, s);
      ExpandQueue(g, s.queue[0], AllDirections, s.(queue := s.queue[1..]));
      ExploreMeasure(Cells(g), s, t);
      assert s.queue[0] in Listed(s.queue);
      ExpandWithin(g, s.queue[0], AllDirections, s.(queue := s.queue[1..]), bound);
      ExploreWithin(g, t, bound);
    }
  }

  /** An expansion from a cell of a closed set only records cells of that set. */
  lemma {:induction false} ExpandWithin(g: Grid, p: Pos, ds: seq<Direction>, s: Search, bound: set<Pos>)
    requires p in Cells(g) && s.visited <= Cells(g)
    requires p in bound && s.visited <= bound && Closed(g, bound)
    ensures Expand(g, p, ds, s).visited <= bound
    decreases |ds|
  {
    if ds != [] {
      ExpandWithin(g, p, ds[1..], ProbeStep(g, p, ds[0], s), bound);
    }
  }

  // ---------------------------------------------------------------------------
  // Reachable cells and the pruned grid.

  lemma ListedSingle(p: Pos)
    ensures Listed([p]) == {p}
  {
    assert [p][0] == p;
  }

  /** The cells the search from `start` visits. */
  function Reach(g: Grid, start: Pos): set<Pos>
    requires start in Cells(g)
  {
    ListedSingle(start);
    Explore(g, Start(start)).visited
  }

  /** The gems the search from `start` marks. */
  function Marked(g: Grid, start: Pos): set<Pos>
    requires start in Cells(g)
  {
    ListedSingle(start);
    Explore(g, Start(start)).marked
  }

  /** The search ends with every visited cell expanded: the start is reached and no mine-free slide leaves the reached cells. */
  lemma ReachClosed(g: Grid, start: Pos)
    requires start in Cells(g)
    ensures start in Reach(g, start) && Reach(g, start) <= Cells(g)
    ensures Closed(g, Reach(g, start))
    ensures forall q :: q in Marked(g, start) <==> exists p :: p in Reach(g, start) && Feeds(g, p, q)
  {
    ListedSingle(start);
    StartInvariant(g, start);
    ExploreKeepsInvariant(g, Start(start));
    var t := Explore(g, Start(start));
    ListedEmpty(t.queue);
    assert Done(t) == t.visited;
  }

  /** The reached cells lie inside every closed set containing the start: they are the least such set. */
  lemma ReachLeast(g: Grid, start: Pos, bound: set<Pos>)
    requires start in Cells(g)
    requires start in bound && Closed(g, bound)
    ensures Reach(g, start) <= bound
  {
    ListedSingle(start);
    ExploreWithin(g, Start(start), bound);
  }

  /** The grid with every gem outside `keep` cleared. */
  function ClearUnmarked(g: Grid, keep: set<Pos>): (h: Grid)
    ensures SameShape(g, h)
    ensures forall r, c :: InBounds(g, r, c) ==> h[r][c] == g[r][c].(gem := g[r][c].gem && (r, c) in keep)
  {
    seq(|g|, r requires 0 <= r < |g| =>
      seq(|g[r]|, c requires 0 <= c < |g[r]| =>
        if g[r][c].gem && (r, c) !in keep then g[r][c].(gem := false) else g[r][c]))
  }

  /** Gem pruning as the board runs it after generation, searching from `start`. */
  function Prune(g: Grid, start: Pos): (h: Grid)
    requires start in Cells(g)
    ensures SameTerrain(g, h)
    ensures forall r, c :: InBounds(g, r, c) ==> h[r][c].shield == g[r][c].shield
    ensures forall r, c :: InBounds(g, r, c) && h[r][c].gem ==> g[r][c].gem
  {
    ClearUnmarked(g, Marked(g, start))
  }

  /**
   A gem survives pruning exactly when a mine-free slide from a reached cell passes
   over it; every other flag of every cell is kept.
   */
  lemma PruneKeepsFedGems(g: Grid, start: Pos)
    requires start in Cells(g)
    ensures forall r, c :: InBounds(g, r, c) ==>
              Prune(g, start)[r][c]
              == g[r][c].(gem := exists p :: p in Reach(g, start) && Feeds(g, p, (r, c)))
  {
    ReachClosed(g, start);
    forall r, c | InBounds(g, r, c)
      ensures g[r][c].gem && (r, c) in Marked(g, start) <==> exists p :: p in Reach(g, start) && Feeds(g, p, (r, c))
    {
      if exists p :: p in Reach(g, start) && Feeds(g, p, (r, c)) {
        var p, d :| p in Reach(g, start) && Leads(g, p, d) && (r, c) in GemsIn(g, RayCells(g, p.0, p.1, d));
        assert Look(g, r, c).gem;
      }
    }
  }

  /** Grids with the same terrain have the same closed sets. */
  lemma ClosedTerrain(g: Grid, h: Grid, s: set<Pos>)
    requires SameTerrain(g, h)
    ensures Closed(g, s) <==> Closed(h, s)
  {
    forall p, d
      ensures Leads(g, p, d) == Leads(h, p, d) && EndOf(g, p, d) == EndOf(h, p, d)
    {
      SlideTerrain(g, h, p.0, p.1, d);
    }
  }

  /** The search reaches the same cells on grids with the same terrain. */
  lemma ReachTerrain(g: Grid, h: Grid, start: Pos)
    requires start in Cells(g) && SameTerrain(g, h)
    ensures start in Cells(h) && Reach(g, start) == Reach(h, start)
  {
    ReachClosed(g, start);
    ReachClosed(h, start);
    ClosedTerrain(g, h, Reach(g, start));
    ClosedTerrain(g, h, Reach(h, start));
    ReachLeast(g, start, Reach(h, start));
    ReachLeast(h, start, Reach(g, start));
  }

  /** On a grid with the same terrain and fewer gems, a cell feeds exactly the gems it fed before that remain. */
  lemma FeedsTerrain(g: Grid, h: Grid, p: Pos, q: Pos)
    requires SameTerrain(g, h)
    requires forall r, c :: InBounds(g, r, c) && h[r][c].gem ==> g[r][c].gem
    ensures Feeds(h, p, q) <==> Feeds(g, p, q) && Look(h, q.0, q.1).gem
  {
    forall d
      ensures Leads(g, p, d) == Leads(h, p, d) && RayCells(g, p.0, p.1, d) == RayCells(h, p.0, p.1, d)
    {
      SlideTerrain(g, h, p.0, p.1, d);
      RayCellsTerrain(g, h, p.0, p.1, d);
    }
    if Feeds(g, p, q) && Look(h, q.0, q.1).gem {
      var d :| Leads(g, p, d) && q in GemsIn(g, RayCells(g, p.0, p.1, d));
      assert q in GemsIn(h, RayCells(h, p.0, p.1, d));
    }
    if Feeds(h, p, q) {
      var d :| Leads(h, p, d) && q in GemsIn(h, RayCells(h, p.0, p.1, d));
      RayCellsOpen(h, p.0, p.1, d);
      assert q in GemsIn(g, RayCells(g, p.0, p.1, d));
    }
  }

  /** One cell of the pruned grid: its gem is kept exactly when a reached cell feeds it. */
  lemma PruneCell(g: Grid, start: Pos, r: int, c: int)
    requires start in Cells(g) && InBounds(g, r, c)
    ensures Prune(g, start)[r][c] == g[r][c].(gem := FedBy(g, Reach(g, start), (r, c)))
  {
    PruneKeepsFedGems(g, start);
  }

  /** With the terrain kept and gems only removed, a set of cells still feeds exactly the remaining gems it fed. */
  lemma FedByTerrain(g: Grid, h: Grid, reach: set<Pos>, q: Pos)
    requires SameTerrain(g, h)
    requires forall r, c :: InBounds(g, r, c) && h[r][c].gem ==> g[r][c].gem
    ensures FedBy(h, reach, q) <==> FedBy(g, reach, q) && Look(h, q.0, q.1).gem
  {
    if FedBy(g, reach, q) && Look(h, q.0, q.1).gem {
      var p :| p in reach && Feeds(g, p, q);
      FeedsTerrain(g, h, p, q);
    }
    if FedBy(h, reach, q) {
      var p :| p in reach && Feeds(h, p, q);
      FeedsTerrain(g, h, p, q);
    }
  }

  /** A cell of a pruned grid survives a second pruning unchanged. */
  lemma PruneAgainCell(g: Grid, start: Pos, r: int, c: int)
    requires start in Cells(g) && InBounds(g, r, c)
    ensures start in Cells(Prune(g, start))
    ensures Prune(Prune(g, start), start)[r][c] == Prune(g, start)[r][c]
  {
    var h := Prune(g, start);
    ReachTerrain(g, h, start);
    var reach := Reach(g, start);
    PruneCell(g, start, r, c);
    PruneCell(h, start, r, c);
    FedByTerrain(g, h, reach, (r, c));
  }

  /** Pruning a pruned grid changes nothing. */
  lemma PruneIdempotent(g: Grid, start: Pos)
    requires start in Cells(g)
    ensures start in Cells(Prune(g, start))
    ensures Prune(Prune(g, start), start) == Prune(g, start)
  {
    var h := Prune(g, start);
    var h2 := Prune(h, start);
    forall r, c | InBounds(h, r, c)
      ensures h2[r][c] == h[r][c]
    {
      PruneAgainCell(g, start, r, c);
    }
    GridExtensional(h2, h);
  }

  /** After pruning, every gem left is fed by a cell the search from `start` reaches on the pruned grid. */
  lemma PrunedGemsFed(g: Grid, start: Pos)
    requires start in Cells(g)
    ensures var h := Prune(g, start);
            && start in Cells(h)
            && forall r, c :: InBounds(h, r, c) && h[r][c].gem ==> exists p :: p in Reach(h, start) && Feeds(h, p, (r, c))
  {
    var h := Prune(g, start);
    forall r, c | InBounds(h, r, c) && h[r][c].gem
      ensures exists p :: p in Reach(h, start) && Feeds(h, p, (r, c))
    {
      PrunedGemFed(g, start, r, c);
    }
  }

  lemma PrunedGemFed(g: Grid, start: Pos, r: int, c: int)
    requires start in Cells(g) && InBounds(g, r, c) && Prune(g, start)[r][c].gem
    ensures start in Cells(Prune(g, start))
    ensures exists p :: p in Reach(Prune(g, start), start) && Feeds(Prune(g, start), p, (r, c))
  {
    var h := Prune(g, start);
    PruneKeepsFedGems(g, start);
    ReachTerrain(g, h, start);
    var p :| p in Reach(g, start) && Feeds(g, p, (r, c));
    FeedsTerrain(g, h, p, (r, c));
  }
}

=== FILE: regions.dfy ===
/**
 The opponent's region analysis: the board is quartered recursively into a
 quadtree, every leaf tallies the items, walls and dead ends in its rectangle,
 inner regions add up their quadrants' tallies, and the best- and worst-scoring
 leaves form the region policy. A separate flat split of the board into four
 quadrants numbered 1 to 4 decides the region bonus of a position.

 A region's score is `raw / sqrt(area)` (just `raw` for an empty region). Only
 comparisons of scores matter, so the model keeps the order-preserving key
 `s * |s|` of that score, which is the exact rational `raw * |raw| / area`.
 */
module Regions {

  import opened Compass
  import opened Grids

  /** The five counters of a region. */
  datatype Tally = Tally(gems: int, shields: int, mines: int, walls: int, deadEnds: int)

  const NoTally := Tally(0, 0, 0, 0, 0)

  function Add(a: Tally, b: Tally): Tally {
    Tally(a.gems + b.gems, a.shields + b.shields, a.mines + b.mines, a.walls + b.walls, a.deadEnds + b.deadEnds)
  }

  // ---------------------------------------------------------------------------
  // Dead ends and the tally of one cell.

  /** A neighbour blocks the way when it is off the grid, a wall or a mine. */
  predicate Blocked(g: Grid, r: int, c: int) {
    !InBounds(g, r, c) || g[r][c].wall || g[r][c].mine
  }

  /** Number of the directions of `ds` whose neighbour of `(r, c)` is blocked. */
  function BlockedCount(g: Grid, r: int, c: int, ds: seq<Direction>): (n: nat)
    ensures n <= |ds|
  {
    if ds == [] then 0
    else BlockedCount(g, r, c, ds[..|ds| - 1]) + B2I(Blocked(g, r + Dx(ds[|ds| - 1]), c + Dy(ds[|ds| - 1])))
  }

  /** A cell is a dead end when at least six of its eight neighbours are blocked. */
  predicate IsDeadEnd(g: Grid, r: int, c: int) {
    BlockedCount(g, r, c, AllDirections) >= 6
  }

  /** The directions of `ds` whose neighbour of `(r, c)` is blocked. */
  function BlockedAmong(g: Grid, r: int, c: int, ds: seq<Direction>): set<Direction> {
    set d | d in ds && Blocked(g, r + Dx(d), c + Dy(d))
  }

  lemma BlockedAmongSnoc(g: Grid, r: int, c: int, ds: seq<Direction>, d: Direction)
    ensures BlockedAmong(g, r, c, ds + [d])
         == BlockedAmong(g, r, c, ds) + (if Blocked(g, r + Dx(d), c + Dy(d)) then {d} else {})
  {
    var lhs := BlockedAmong(g, r, c, ds + [d]);
    var rhs := BlockedAmong(g, r, c, ds) + (if Blocked(g, r + Dx(d), c + Dy(d)) then {d} else {});
    forall e | e in lhs ensures e in rhs {
      assert e in ds + [d];
    }
    forall e | e in rhs ensures e in lhs {
      assert e in ds + [d];
    }
  }

  /** The neighbour count is the number of distinct blocked directions. */
  lemma {:induction false} BlockedCountIsSetSize(g: Grid, r: int, c: int, ds: seq<Direction>)
    requires forall i, j :: 0 <= i < j < |ds| ==> ds[i] != ds[j]
    ensures BlockedCount(g, r, c, ds) == |BlockedAmong(g, r, c, ds)|
    decreases |ds|
  {
    if ds != [] {
      var front, last := ds[..|ds| - 1], ds[|ds| - 1];
      BlockedCountIsSetSize(g, r, c, front);
      assert ds == front + [last];
      BlockedAmongSnoc(g, r, c, front, last);
      LastNotAmong(g, r, c, ds);
    }
  }

  /** In a list without repetitions, the last direction is not among the blocked ones before it. */
  lemma LastNotAmong(g: Grid, r: int, c: int, ds: seq<Direction>)
    requires ds != [] && forall i, j :: 0 <= i < j < |ds| ==> ds[i] != ds[j]
    ensures ds[|ds| - 1] !in BlockedAmong(g, r, c, ds[..|ds| - 1])
  {
    var front := ds[..|ds| - 1];
    forall i | 0 <= i < |front|
      ensures front[i] != ds[|ds| - 1]
    {
      assert front[i] == ds[i];
    }
  }

  /** A cell is a dead end exactly when at least six of the eight directions lead to a blocked neighbour. */
  lemma DeadEndMeaning(g: Grid, r: int, c: int)
    ensures IsDeadEnd(g, r, c) <==> |set d: Direction | Blocked(g, r + Dx(d), c + Dy(d))| >= 6
  {
    EnumerationComplete();
    BlockedCountIsSetSize(g, r, c, AllDirections);
    assert BlockedAmong(g, r, c, AllDirections) == set d: Direction | Blocked(g, r + Dx(d), c + Dy(d));
  }

  /**
   What one cell adds to its region: at most one of wall, mine, gem and shield, in
   that order of precedence, and a dead end when it is not a wall.
   */
  function CellTally(g: Grid, r: int, c: int): (t: Tally)
    requires InBounds(g, r, c)
  {
    var x := g[r][c];
    var items :=
      if x.wall then Tally(0, 0, 0, 1, 0)
      else if x.mine then Tally(0, 0, 1, 0, 0)
      else if x.gem then Tally(1, 0, 0, 0, 0)
      else if x.shield then Tally(0, 1, 0, 0, 0)
      else NoTally;
    items.(deadEnds := B2I(!x.wall && IsDeadEnd(g, r, c)))
  }

  /**
   A cell adds to at most one of the wall, mine, gem and shield counters, to exactly
   one when it carries any of those flags, and to the dead-end counter exactly when
   it is an open dead end.
   */
  lemma CellTallyCounts(g: Grid, r: int, c: int)
    requires InBounds(g, r, c)
    ensures var t := CellTally(g, r, c);
            && t.walls + t.mines + t.gems + t.shields <= 1
            && (t.walls + t.mines + t.gems + t.shields == 1 <==> (g[r][c].wall || g[r][c].mine || g[r][c].gem || g[r][c].shield))
            && t.walls == B2I(g[r][c].wall)
            && (t.deadEnds == 1 <==> !g[r][c].wall && IsDeadEnd(g, r, c))
  {
  }

  /** The counters of a tally, to sum them one at a time. */
  datatype Counter = Gems | Shields | Mines | Walls | DeadEnds

  function Get(t: Tally, k: Counter): int {
    match k
    case Gems => t.gems
    case Shields => t.shields
    case Mines => t.mines
    case Walls => t.walls
    case DeadEnds => t.deadEnds
  }

  /** Tallies with equal counters are equal. */
  lemma TallyExtensional(a: Tally, b: Tally)
    requires forall k :: Get(a, k) == Get(b, k)
    ensures a == b
  {
    assert Get(a, Gems) == Get(b, Gems) && Get(a, Shields) == Get(b, Shields) && Get(a, Mines) == Get(b, Mines);
    assert Get(a, Walls) == Get(b, Walls) && Get(a, DeadEnds) == Get(b, DeadEnds);
  }

  /** The cells of the rectangle rows `[rs, re)` × columns `[cs, ce)` lie on the grid. */
  predicate Within(g: Grid, rs: int, re: int, cs: int, ce: int) {
    Rect(g) && 0 <= rs <= re <= |g| && 0 <= cs <= ce <= Cols(g)
  }

  /** Counter `k` summed over the cells `(r, cs) … (r, ce - 1)` of one row. */
  function RowSum(g: Grid, r: int, cs: int, ce: int, k: Counter): int
    requires 0 <= r < |g| && 0 <= cs && ce <= |g[r]|
    decreases ce - cs
  {
    if ce <= cs then 0 else RowSum(g, r, cs, ce - 1, k) + Get(CellTally(g, r, ce - 1), k)
  }

  /** Counter `k` summed over the rectangle rows `[rs, re)` × columns `[cs, ce)`, row by row. */
  function RectSum(g: Grid, rs: int, re: int, cs: int, ce: int, k: Counter): int
    requires Within(g, rs, re, cs, ce)
    decreases re - rs
  {
    if re == rs then 0 else RectSum(g, rs, re - 1, cs, ce, k) + RowSum(g, re - 1, cs, ce, k)
  }

  /** The tally of a rectangle: every counter summed over its cells. */
  function RectTally(g: Grid, rs: int, re: int, cs: int, ce: int): (t: Tally)
    requires Within(g, rs, re, cs, ce)
    ensures forall k :: Get(t, k) == RectSum(g, rs, re, cs, ce, k)
  {
    Tally(RectSum(g, rs, re, cs, ce, Gems), RectSum(g, rs, re, cs, ce, Shields), RectSum(g, rs, re, cs, ce, Mines),
          RectSum(g, rs, re, cs, ce, Walls), RectSum(g, rs, re, cs, ce, DeadEnds))
  }

  /** Splitting a row segment at `m` splits its sums. */
  lemma {:induction false} RowSumSplit(g: Grid, r: int, cs: int, m: int, ce: int, k: Counter)
    requires 0 <= r < |g| && 0 <= cs <= m <= ce <= |g[r]|
    ensures RowSum(g, r, cs, ce, k) == RowSum(g, r, cs, m, k) + RowSum(g, r, m, ce, k)
    decreases ce - m
  {
    if ce > m {
      RowSumSplit(g, r, cs, m, ce - 1, k);
    }
  }

  /** Splitting a rectangle between rows `m - 1` and `m` splits its sums. */
  lemma {:induction false} RectSumRowSplit(g: Grid, rs: int, m: int, re: int, cs: int, ce: int, k: Counter)
    requires Within(g, rs, re, cs, ce) && rs <= m <= re
    ensures RectSum(g, rs, re, cs, ce, k) == RectSum(g, rs, m, cs, ce, k) + RectSum(g, m, re, cs, ce, k)
    decreases re - m
  {
    if re > m {
      RectSumRowSplit(g, rs, m, re - 1, cs, ce, k);
    }
  }

  /** Splitting a rectangle between columns `m - 1` and `m` splits its sums. */
  lemma {:induction false} RectSumColSplit(g: Grid, rs: int, re: int, cs: int, m: int, ce: int, k: Counter)
    requires Within(g, rs, re, cs, ce) && cs <= m <= ce
    ensures RectSum(g, rs, re, cs, ce, k) == RectSum(g, rs, re, cs, m, k) + RectSum(g, rs, re, m, ce, k)
    decreases re - rs
  {
    if re > rs {
      RectSumColSplit(g, rs, re - 1, cs, m, ce, k);
      RowSumSplit(g, re - 1, cs, m, ce, k);
    }
  }

  /** Tally of quadrant `i` of a rectangle. */
  function QuadrantTally(g: Grid, rs: int, re: int, cs: int, ce: int, i: int): Tally
    requires Within(g, rs, re, cs, ce)
  {
    var q := Quadrant(rs, re, cs, ce, i);
    RectTally(g, q.0, q.1, q.2, q.3)
  }

  /** The four quadrants partition the rectangle, so their tallies add up to its tally. */
  lemma QuadrantsPartition(g: Grid, rs: int, re: int, cs: int, ce: int)
    requires Within(g, rs, re, cs, ce)
    ensures RectTally(g, rs, re, cs, ce)
         == Add(Add(Add(QuadrantTally(g, rs, re, cs, ce, 0), QuadrantTally(g, rs, re, cs, ce, 1)),
                    QuadrantTally(g, rs, re, cs, ce, 2)),
                QuadrantTally(g, rs, re, cs, ce, 3))
  {
    var mr, mc := (rs + re) / 2, (cs + ce) / 2;
    var a, b, c, d := RectTally(g, rs, mr, cs, mc), RectTally(g, rs, mr, mc, ce), RectTally(g, mr, re, cs, mc), RectTally(g, mr, re, mc, ce);
    QuadrantTallies(g, rs, re, cs, ce);
    var sum := Add(Add(Add(a, b), c), d);
    forall k
      ensures Get(RectTally(g, rs, re, cs, ce), k) == Get(sum, k)
    {
      SumsPartition(g, rs, re, cs, ce, k);
      GetAdd(Add(Add(a, b), c), d, k);
      GetAdd(Add(a, b), c, k);
      GetAdd(a, b, k);
    }
    TallyExtensional(RectTally(g, rs, re, cs, ce), sum);
  }

  /** The four quadrant tallies are the tallies of the rectangles either side of the midpoints. */
  lemma QuadrantTallies(g: Grid, rs: int, re: int, cs: int, ce: int)
    requires Within(g, rs, re, cs, ce)
    ensures var mr, mc := (rs + re) / 2, (cs + ce) / 2;
            && QuadrantTally(g, rs, re, cs, ce, 0) == RectTally(g, rs, mr, cs, mc)
            && QuadrantTally(g, rs, re, cs, ce, 1) == RectTally(g, rs, mr, mc, ce)
            && QuadrantTally(g, rs, re, cs, ce, 2) == RectTally(g, mr, re, cs, mc)
            && QuadrantTally(g, rs, re, cs, ce, 3) == RectTally(g, mr, re, mc, ce)
  {
  }

  /** One counter summed over a rectangle is the sum over its four quadrants. */
  lemma SumsPartition(g: Grid, rs: int, re: int, cs: int, ce: int, k: Counter)
    requires Within(g, rs, re, cs, ce)
    ensures var mr, mc := (rs + re) / 2, (cs + ce) / 2;
            (RectSum(g, rs, re, cs, ce, k)
             == RectSum(g, rs, mr, cs, mc, k) + RectSum(g, rs, mr, mc, ce, k) + RectSum(g, mr, re, cs, mc, k) + RectSum(g, mr, re, mc, ce, k))
  {
    var mr, mc := (rs + re) / 2, (cs + ce) / 2;
    RectSumRowSplit(g, rs, mr, re, cs, ce, k);
    RectSumColSplit(g, rs, mr, cs, mc, ce, k);
    RectSumColSplit(g, mr, re, cs, mc, ce, k);
  }

  lemma GetAdd(a: Tally, b: Tally, k: Counter)
    ensures Get(Add(a, b), k) == Get(a, k) + Get(b, k)
  {
  }

  /**
   The nested scan of a leaf region, row by row and column by column; its result is
   the rectangle's tally.
   */
  method AnalyzeDirectly(g: Grid, rs: int, re: int, cs: int, ce: int) returns (t: Tally)
    requires Within(g, rs, re, cs, ce)
    ensures t == RectTally(g, rs, re, cs, ce)
  {
    t := NoTally;
    var r := rs;
    while r < re
      invariant rs <= r <= re
      invariant forall k :: Get(t, k) == RectSum(g, rs, r, cs, ce, k)
    {
      var c := cs;
      var row := NoTally;
      while c < ce
        invariant cs <= c <= ce
        invariant forall k :: Get(row, k) == RowSum(g, r, cs, c, k)
      {
        forall k
          ensures Get(Add(row, CellTally(g, r, c)), k) == RowSum(g, r, cs, c + 1, k)
        {
          GetAdd(row, CellTally(g, r, c), k);
        }
        row := Add(row, CellTally(g, r, c));
        c := c + 1;
      }
      forall k
        ensures Get(Add(t, row), k) == RectSum(g, rs, r + 1, cs, ce, k)
      {
        GetAdd(t, row, k);
      }
      t := Add(t, row);
      r := r + 1;
    }
    TallyExtensional(t, RectTally(g, rs, re, cs, ce));
  }

  // ---------------------------------------------------------------------------
  // Scores.

  function Abs(x: real): real {
    if x < 0.0 then -x else x
  }

  /** The unnormalised score of a tally. */
  function RawScore(t: Tally): real {
    10.0 * t.gems as real + 5.0 * t.shields as real - 15.0 * t.mines as real
    - 8.0 * t.deadEnds as real - 0.5 * t.walls as real
  }

  /** `x * |x|`, a strictly increasing map of the reals onto themselves. */
  function SignedSquare(x: real): real {
    x * Abs(x)
  }

  lemma MulMonotone(a: real, b: real, c: real)
    requires 0.0 <= a && b < c
    ensures a * b <= a * c
  {
  }

  /** The signed square is strictly increasing. */
  lemma SignedSquareIncreasing(x: real, y: real)
    requires x < y
    ensures SignedSquare(x) < SignedSquare(y)
  {
    if 0.0 <= x {
      calc {
        SignedSquare(x);
        x * x;
      <= { MulMonotone(x, x, y); }
        x * y;
      < { assert 0.0 < y; }
        y * y;
        SignedSquare(y);
      }
    } else if y <= 0.0 {
      var a, b := -x, -y;
      calc {
        SignedSquare(y);
        -(b * b);
      >= { MulMonotone(b, b, a); }
        -(b * a);
      > { assert 0.0 < a; }
        -(a * a);
        SignedSquare(x);
      }
    } else {
      assert SignedSquare(x) == -((-x) * (-x)) < 0.0;
      assert SignedSquare(y) == y * y > 0.0;
    }
  }

  /** The signed square preserves and reflects the order, so comparing keys compares scores. */
  lemma SignedSquareMonotone(x: real, y: real)
    ensures x < y <==> SignedSquare(x) < SignedSquare(y)
  {
    if x < y {
      SignedSquareIncreasing(x, y);
    } else if y < x {
      SignedSquareIncreasing(y, x);
    }
  }

  /**
   The comparison key of a region with tally `t` and `area` cells: the signed square
   of `raw / sqrt(area)`, or of `raw` itself when the area is not positive.
   */
  function ScoreKey(t: Tally, area: int): (k: real)
    ensures area <= 0 ==> k == SignedSquare(RawScore(t))
  {
    var raw := RawScore(t);
    if area > 0 then SignedSquare(raw) / area as real else SignedSquare(raw)
  }

  /** For a positive area the key is the signed square of the raw score divided by the area's square root. */
  lemma ScoreKeyNormalises(t: Tally, area: int, root: real)
    requires area > 0 && root > 0.0 && root * root == area as real
    ensures ScoreKey(t, area) == SignedSquare(RawScore(t) / root)
  {
    var raw := RawScore(t);
    var q := raw / root;
    assert raw == q * root;
    assert Abs(raw) == Abs(q) * root;
    calc {
      SignedSquare(raw) / area as real;
      (q * root) * (Abs(q) * root) / (root * root);
      { assert (q * root) * (Abs(q) * root) == (q * Abs(q)) * (root * root); }
      (q * Abs(q)) * (root * root) / (root * root);
    }
  }

  // ---------------------------------------------------------------------------
  // The quadtree.

  /**
   A region: rows `[rs, re)` × columns `[cs, ce)`, its index in the quadtree
   numbering, its tally and its quadrants (none for a leaf).
   */
  datatype Region = Region(rs: int, re: int, cs: int, ce: int, index: int, tally: Tally, subs: seq<Region>)

  /** The score key of a region, from its tally and its area. */
  function Score(t: Region): real {
    ScoreKey(t.tally, Area(t.rs, t.re, t.cs, t.ce))
  }

  function Area(rs: int, re: int, cs: int, ce: int): int {
    (re - rs) * (ce - cs)
  }

  /** Recursion depth of the analysis: up to 64 leaves. */
  const AnalysisDepth := 3

  /** Bounds of quadrant `i` of a region: 0 top-left, 1 top-right, 2 bottom-left, 3 bottom-right. */
  function Quadrant(rs: int, re: int, cs: int, ce: int, i: int): (q: (int, int, int, int))
    requires rs <= re && cs <= ce
    ensures rs <= q.0 <= q.1 <= re && cs <= q.2 <= q.3 <= ce
  {
    var mr, mc := (rs + re) / 2, (cs + ce) / 2;
    (if i < 2 then rs else mr, if i < 2 then mr else re, if i % 2 == 0 then cs else mc, if i % 2 == 0 then mc else ce)
  }

  /**
   The recursive analysis. A region is a leaf when the depth is used up or it has at
   most four cells; otherwise it is cut at the midpoints into four quadrants,
   numbered `4 * index + 1 … 4`, and its tally is the sum of theirs.
   */
  function Analyze(g: Grid, rs: int, re: int, cs: int, ce: int, index: int, depth: nat): (t: Region)
    requires Within(g, rs, re, cs, ce)
    ensures t.rs == rs && t.re == re && t.cs == cs && t.ce == ce && t.index == index
    ensures t.tally == RectTally(g, rs, re, cs, ce)
    ensures t.subs == [] <==> depth == 0 || Area(rs, re, cs, ce) <= 4
    decreases depth, 1
  {
    if depth == 0 || Area(rs, re, cs, ce) <= 4 then
      var tally := RectTally(g, rs, re, cs, ce);
      Region(rs, re, cs, ce, index, tally, [])
    else
      var subs := seq(4, i requires 0 <= i < 4 => AnalyzeQuadrant(g, rs, re, cs, ce, index, depth - 1, i));
      var tally := Add(Add(Add(subs[0].tally, subs[1].tally), subs[2].tally), subs[3].tally);
      QuadrantsPartition(g, rs, re, cs, ce);
      Region(rs, re, cs, ce, index, tally, subs)
  }

  /** The analysis of quadrant `i` of a region, one level down. */
  function AnalyzeQuadrant(g: Grid, rs: int, re: int, cs: int, ce: int, index: int, depth: nat, i: int): (t: Region)
    requires Within(g, rs, re, cs, ce) && 0 <= i < 4
    ensures var q := Quadrant(rs, re, cs, ce, i);
            t.index == 4 * index + i + 1 && t.tally == RectTally(g, q.0, q.1, q.2, q.3)
    decreases depth, 2
  {
    var q := Quadrant(rs, re, cs, ce, i);
    Analyze(g, q.0, q.1, q.2, q.3, 4 * index + i + 1, depth)
  }

  /** `l` is one of the leaves of the tree `t`. */
  ghost predicate IsLeafOf(l: Region, t: Region)
    decreases t
  {
    if t.subs == [] then l == t
    else exists i :: 0 <= i < |t.subs| && IsLeafOf(l, t.subs[i])
  }

  /** `a` beats `b` in the search for the maximum (or, when `findMax` is false, the minimum). */
  predicate Beats(a: Region, b: Region, findMax: bool) {
    if findMax then Score(a) > Score(b) else Score(a) < Score(b)
  }

  /** `a` is at least as extreme as `b`. */
  predicate AtLeast(a: Region, b: Region, findMax: bool) {
    if findMax then Score(a) >= Score(b) else Score(a) <= Score(b)
  }

  /**
   The leaf with the extreme score: a leaf is its own answer; otherwise each quadrant
   is searched and the first of their answers that no later answer strictly beats wins.
   */
  function FindExtreme(t: Region, findMax: bool): Region
    decreases t, 1
  {
    if t.subs == [] then t else ExtremeAmong(t, findMax, |t.subs|)
  }

  /** The extreme of the answers of the first `n` quadrants of `t`. */
  function ExtremeAmong(t: Region, findMax: bool, n: int): Region
    requires 1 <= n <= |t.subs|
    decreases t, 0, n
  {
    var current := FindExtreme(t.subs[n - 1], findMax);
    if n == 1 then current
    else
      var sofar := ExtremeAmong(t, findMax, n - 1);
      if Beats(current, sofar, findMax) then current else sofar
  }

  /** The extreme search returns a leaf of the tree and no leaf is more extreme. */
  lemma {:induction false} FindExtremeIsExtremeLeaf(t: Region, findMax: bool)
    ensures IsLeafOf(FindExtreme(t, findMax), t)
    ensures forall l :: IsLeafOf(l, t) ==> AtLeast(FindExtreme(t, findMax), l, findMax)
    decreases t, 1
  {
    if t.subs != [] {
      ExtremeAmongIsExtremeLeaf(t, findMax, |t.subs|);
    }
  }

  lemma {:induction false} ExtremeAmongIsExtremeLeaf(t: Region, findMax: bool, n: int)
    requires 1 <= n <= |t.subs|
    ensures exists i :: 0 <= i < n && IsLeafOf(ExtremeAmong(t, findMax, n), t.subs[i])
    ensures forall l, i :: 0 <= i < n && IsLeafOf(l, t.subs[i]) ==> AtLeast(ExtremeAmong(t, findMax, n), l, findMax)
    decreases t, 0, n
  {
    var current := FindExtreme(t.subs[n - 1], findMax);
    FindExtremeIsExtremeLeaf(t.subs[n - 1], findMax);
    if n > 1 {
      var sofar := ExtremeAmong(t, findMax, n - 1);
      ExtremeAmongIsExtremeLeaf(t, findMax, n - 1);
      forall l, i | 0 <= i < n && IsLeafOf(l, t.subs[i])
        ensures AtLeast(ExtremeAmong(t, findMax, n), l, findMax)
      {
        if i < n - 1 {
          assert AtLeast(sofar, l, findMax);
        } else {
          assert AtLeast(current, l, findMax);
        }
      }
    }
  }

  /** The region policy: the best and the worst leaf. */
  datatype Policy = Policy(best: Region, worst: Region)

  /** The quadtree of a whole board. */
  function Tree(g: Grid): (t: Region)
    requires Rect(g)
  {
    Analyze(g, 0, |g|, 0, Cols(g), 0, AnalysisDepth)
  }

  /** The region policy of a board: its best and worst leaves. */
  function ComputePolicy(g: Grid): (p: Policy)
    requires Rect(g)
    ensures IsLeafOf(p.best, Tree(g)) && IsLeafOf(p.worst, Tree(g))
    ensures forall l :: IsLeafOf(l, Tree(g)) ==> Score(p.worst) <= Score(l) <= Score(p.best)
  {
    var t := Tree(g);
    FindExtremeIsExtremeLeaf(t, true);
    FindExtremeIsExtremeLeaf(t, false);
    Policy(FindExtreme(t, true), FindExtreme(t, false))
  }

  // ---------------------------------------------------------------------------
  // The flat quadrant index and the region bonus.

  /** The flat quadrant of `(r, c)` on a `rows` × `cols` board: 1 and 2 on top, 1 and 3 on the left. */
  function RegionIndex(rows: int, cols: int, r: int, c: int): (i: int)
    ensures 1 <= i <= 4
    ensures i <= 2 <==> r < rows / 2
    ensures i % 2 == 1 <==> c < cols / 2
  {
    if r < rows / 2 then (if c < cols / 2 then 1 else 2)
    else (if c < cols / 2 then 3 else 4)
  }

  const BestBonus := 30
  const WorstPenalty := 40

  /** +30 when the flat quadrant of `(r, c)` carries the best leaf's index, −40 when it carries the worst's. */
  function RegionBonus(g: Grid, p: Policy, r: int, c: int): (bonus: int)
    ensures bonus != 0 ==> 1 <= p.best.index <= 4 || 1 <= p.worst.index <= 4
    ensures bonus > 0 <==> RegionIndex(|g|, Cols(g), r, c) == p.best.index != p.worst.index
  {
    var i := RegionIndex(|g|, Cols(g), r, c);
    (if i == p.best.index then BestBonus else 0) - (if i == p.worst.index then WorstPenalty else 0)
  }

  /** The analysis splits all the way down to depth zero: every region above that has more than four cells. */
  ghost predicate SplitsFully(rs: int, re: int, cs: int, ce: int, depth: nat)
    decreases depth
  {
    depth == 0 ||
      (Area(rs, re, cs, ce) > 4 &&
       var mr := (rs + re) / 2;
       var mc := (cs + ce) / 2;
       SplitsFully(rs, mr, cs, mc, depth - 1) && SplitsFully(rs, mr, mc, ce, depth - 1) &&
       SplitsFully(mr, re, cs, mc, depth - 1) && SplitsFully(mr, re, mc, ce, depth - 1))
  }

  /** Smallest leaf index `depth` levels below index `i`. */
  function LowestIndex(i: int, depth: nat): int
    decreases depth
  {
    if depth == 0 then i else LowestIndex(4 * i + 1, depth - 1)
  }

  /** Largest leaf index `depth` levels below index `i`. */
  function HighestIndex(i: int, depth: nat): int
    decreases depth
  {
    if depth == 0 then i else HighestIndex(4 * i + 4, depth - 1)
  }

  lemma {:induction false} IndexBoundsMonotone(i: int, j: int, depth: nat)
    requires i <= j
    ensures LowestIndex(i, depth) <= LowestIndex(j, depth)
    ensures HighestIndex(i, depth) <= HighestIndex(j, depth)
    decreases depth
  {
    if depth > 0 {
      IndexBoundsMonotone(4 * i + 1, 4 * j + 1, depth - 1);
      IndexBoundsMonotone(4 * i + 4, 4 * j + 4, depth - 1);
    }
  }

  /**
   `t` is numbered from `index` and split all the way down `depth` levels: every
   inner region has four quadrants numbered `4 * index + 1 … 4`, and the leaves lie
   exactly `depth` levels down.
   */
  ghost predicate Banded(t: Region, index: int, depth: nat)
    decreases t
  {
    && t.index == index
    && (depth == 0 ==> t.subs == [])
    && (depth > 0 ==>
          && |t.subs| == 4
          && Banded(t.subs[0], 4 * index + 1, depth - 1) && Banded(t.subs[1], 4 * index + 2, depth - 1)
          && Banded(t.subs[2], 4 * index + 3, depth - 1) && Banded(t.subs[3], 4 * index + 4, depth - 1))
  }

  /** Every leaf of a banded tree has its index in the band of indices `depth` levels down. */
  lemma {:induction false} BandedLeafIndex(t: Region, index: int, depth: nat, l: Region)
    requires Banded(t, index, depth) && IsLeafOf(l, t)
    ensures LowestIndex(index, depth) <= l.index <= HighestIndex(index, depth)
    decreases t
  {
    if depth > 0 {
      var i :| 0 <= i < |t.subs| && IsLeafOf(l, t.subs[i]);
      BandedLeafIndex(t.subs[i], 4 * index + i + 1, depth - 1, l);
      ChildBand(index, depth, i);
    }
  }

  /** A region that splits has four children, child `i` being the analysis of quadrant `i`. */
  lemma AnalyzeChild(g: Grid, rs: int, re: int, cs: int, ce: int, index: int, depth: nat, i: int)
    requires Within(g, rs, re, cs, ce) && SplitsFully(rs, re, cs, ce, depth) && depth > 0 && 0 <= i < 4
    ensures var t := Analyze(g, rs, re, cs, ce, index, depth);
            |t.subs| == 4 && t.subs[i] == AnalyzeQuadrant(g, rs, re, cs, ce, index, depth - 1, i)
  {
  }

  /** When the analysis splits fully, the tree it builds is banded. */
  lemma {:induction false} AnalyzeBanded(g: Grid, rs: int, re: int, cs: int, ce: int, index: int, depth: nat)
    requires Within(g, rs, re, cs, ce) && SplitsFully(rs, re, cs, ce, depth)
    ensures Banded(Analyze(g, rs, re, cs, ce, index, depth), index, depth)
    decreases depth, 1
  {
    if depth > 0 {
      var t := Analyze(g, rs, re, cs, ce, index, depth);
      forall i | 0 <= i < 4
        ensures |t.subs| == 4 && t.subs[i] == AnalyzeQuadrant(g, rs, re, cs, ce, index, depth - 1, i)
      {
        AnalyzeChild(g, rs, re, cs, ce, index, depth, i);
      }
      QuadrantBanded(g, rs, re, cs, ce, index, depth, 0);
      QuadrantBanded(g, rs, re, cs, ce, index, depth, 1);
      QuadrantBanded(g, rs, re, cs, ce, index, depth, 2);
      QuadrantBanded(g, rs, re, cs, ce, index, depth, 3);
    }
  }

  /** The analysis of quadrant `i` of a region that splits fully is banded one level down. */
  lemma {:induction false} QuadrantBanded(g: Grid, rs: int, re: int, cs: int, ce: int, index: int, depth: nat, i: int)
    requires Within(g, rs, re, cs, ce) && SplitsFully(rs, re, cs, ce, depth) && depth > 0 && 0 <= i < 4
    ensures Banded(AnalyzeQuadrant(g, rs, re, cs, ce, index, depth - 1, i), 4 * index + i + 1, depth - 1)
    decreases depth, 0
  {
    var q := Quadrant(rs, re, cs, ce, i);
    QuadrantSplitsFully(rs, re, cs, ce, depth, i);
    AnalyzeBanded(g, q.0, q.1, q.2, q.3, 4 * index + i + 1, depth - 1);
  }

  /** The index band of a child lies within its parent's band. */
  lemma ChildBand(index: int, depth: nat, i: int)
    requires depth > 0 && 0 <= i < 4
    ensures LowestIndex(index, depth) <= LowestIndex(4 * index + i + 1, depth - 1)
    ensures HighestIndex(4 * index + i + 1, depth - 1) <= HighestIndex(index, depth)
  {
    IndexBoundsMonotone(4 * index + 1, 4 * index + i + 1, depth - 1);
    IndexBoundsMonotone(4 * index + i + 1, 4 * index + 4, depth - 1);
  }

  lemma QuadrantSplitsFully(rs: int, re: int, cs: int, ce: int, depth: nat, i: int)
    requires rs <= re && cs <= ce && SplitsFully(rs, re, cs, ce, depth) && depth > 0 && 0 <= i < 4
    ensures var q := Quadrant(rs, re, cs, ce, i);
            SplitsFully(q.0, q.1, q.2, q.3, depth - 1)
  {
    if i == 0 {
    } else if i == 1 {
    } else if i == 2 {
    } else {
    }
  }

  /** On a board the analysis splits fully, every leaf index lies in 21 … 84. */
  lemma TreeLeafIndices(g: Grid, l: Region)
    requires Rect(g) && SplitsFully(0, |g|, 0, Cols(g), AnalysisDepth) && IsLeafOf(l, Tree(g))
    ensures 21 <= l.index <= 84
  {
    AnalyzeBanded(g, 0, |g|, 0, Cols(g), 0, AnalysisDepth);
    BandedLeafIndex(Tree(g), 0, AnalysisDepth, l);
    RootBand();
  }

  /** Three levels below the root, the indices run from 21 to 84. */
  lemma RootBand()
    ensures LowestIndex(0, AnalysisDepth) == 21 && HighestIndex(0, AnalysisDepth) == 84
  {
  }

  /**
   On a board where the analysis splits all the way down, no flat quadrant index
   matches the best or the worst leaf, so the region bonus is zero everywhere.
   */
  lemma BonusVanishesOnDeepBoards(g: Grid, r: int, c: int)
    requires Rect(g) && SplitsFully(0, |g|, 0, Cols(g), AnalysisDepth)
    ensures RegionBonus(g, ComputePolicy(g), r, c) == 0
  {
    var p := ComputePolicy(g);
    TreeLeafIndices(g, p.best);
    TreeLeafIndices(g, p.worst);
  }

  /** The 12 × 12 board of the game splits fully, so its region bonus is always zero. */
  lemma TwelveByTwelveSplitsFully()
    ensures SplitsFully(0, 12, 0, 12, AnalysisDepth)
  {
    assert SplitsFully(0, 3, 0, 3, 0) && SplitsFully(0, 3, 3, 6, 0) && SplitsFully(3, 6, 0, 3, 0) && SplitsFully(3, 6, 3, 6, 0);
  }
}

=== FILE: slides.dfy ===
/**
 Slide physics: a piece steps one cell at a time in a compass direction until the
 next cell is off the grid or a wall, or it lands on a mine or a stop marker,
 counting (and optionally consuming) the gems and shields it passes.

 `Walk` models the stepping loop as written; `IsSlide` is an independent,
 non-recursive description of the same slide in terms of the number `k` of steps
 taken, and `SlideMeetsSpec` connects the two.
 */
module Slides {

  import opened Compass
  import opened Grids

  datatype SlideResult = SlideResult(r: int, c: int, gems: nat, shields: nat, hitMine: bool)

  /** What a slide reports, together with the grid it leaves behind. */
  datatype SlideOutcome = SlideOutcome(result: SlideResult, grid: Grid)

  /** How many more steps fit before the edge in direction `d`; the walk's termination measure. */
  function Room(g: Grid, r: int, c: int, d: Direction): int {
    if Dx(d) == 1 then |g| - r
    else if Dx(d) == -1 then r + 1
    else if Dy(d) == 1 then (if 0 <= r < |g| then |g[r]| else 0) - c
    else c + 1
  }

  /** A step onto a cell of the grid uses up room. */
  lemma RoomDecreases(g: Grid, h: Grid, r: int, c: int, d: Direction)
    requires SameShape(g, h)
    requires InBounds(g, r + Dx(d), c + Dy(d))
    ensures 0 <= Room(h, r + Dx(d), c + Dy(d), d) < Room(g, r, c, d)
  {
    DeltaNonZero(d);
  }

  /** The stepping loop, from the current cell `(r, c)` with the items counted so far. */
  function Walk(g: Grid, r: int, c: int, d: Direction, mutate: bool, gems: nat, shields: nat): (o: SlideOutcome)
    ensures SameShape(g, o.grid)
    decreases Room(g, r, c, d)
  {
    var nr := r + Dx(d);
    var nc := c + Dy(d);
    if !InBounds(g, nr, nc) || g[nr][nc].wall then
      SlideOutcome(SlideResult(r, c, gems, shields, false), g)
    else if g[nr][nc].mine then
      SlideOutcome(SlideResult(nr, nc, gems, shields, true), g)
    else
      var x := g[nr][nc];
      var gems' := gems + B2I(x.gem);
      var shields' := shields + B2I(x.shield);
      var g' := if mutate then SetCell(g, nr, nc, Consume(x)) else g;
      if x.stop then
        SlideOutcome(SlideResult(nr, nc, gems', shields', false), g')
      else
        RoomDecreases(g, g', r, c, d);
        var o := Walk(g', nr, nc, d, mutate, gems', shields');
        o
  }

  /** Slide from `(sr, sc)` in direction `d`; `mutate` consumes the items passed. */
  function Slide(g: Grid, sr: int, sc: int, d: Direction, mutate: bool): (o: SlideOutcome)
    ensures SameShape(g, o.grid)
  {
    Walk(g, sr, sc, d, mutate, 0, 0)
  }

  // ---------------------------------------------------------------------------
  // Positions along a ray and the reference description of a slide.

  /** The row `i` steps from row `sr` in direction `d`, that is `sr + i * Dx(d)`, written without the product. */
  function RowAt(sr: int, d: Direction, i: int): int {
    if Dx(d) == 1 then sr + i else if Dx(d) == -1 then sr - i else sr
  }

  /** The column `i` steps from column `sc` in direction `d`, that is `sc + i * Dy(d)`. */
  function ColAt(sc: int, d: Direction, i: int): int {
    if Dy(d) == 1 then sc + i else if Dy(d) == -1 then sc - i else sc
  }

  /** The cell `i` steps from `(sr, sc)` in direction `d` (a wall when off the grid). */
  function CellAt(g: Grid, sr: int, sc: int, d: Direction, i: int): Cell {
    Look(g, RowAt(sr, d, i), ColAt(sc, d, i))
  }

  /** The cell `i` steps away can be stepped onto: on the grid and not a wall. */
  predicate Open(g: Grid, sr: int, sc: int, d: Direction, i: int) {
    InBounds(g, RowAt(sr, d, i), ColAt(sc, d, i)) && !g[RowAt(sr, d, i)][ColAt(sc, d, i)].wall
  }

  lemma PosStep(sr: int, sc: int, d: Direction, i: int)
    ensures RowAt(sr, d, i + 1) == RowAt(sr, d, i) + Dx(d)
    ensures ColAt(sc, d, i + 1) == ColAt(sc, d, i) + Dy(d)
    ensures RowAt(sr, d, 0) == sr && ColAt(sc, d, 0) == sc
  {
  }

  /** Different step counts reach different cells, because no direction has the zero delta. */
  lemma PosInjective(sr: int, sc: int, d: Direction, i: int, j: int)
    requires i != j
    ensures (RowAt(sr, d, i), ColAt(sc, d, i)) != (RowAt(sr, d, j), ColAt(sc, d, j))
  {
    match d
    case N =>
    case NE =>
    case E =>
    case SE =>
    case S =>
    case SW =>
    case W =>
    case NW =>
  }

  /** Number of the first `n` cells along the ray that satisfy `f`. */
  function CountAlong(g: Grid, sr: int, sc: int, d: Direction, n: int, f: Cell -> bool): (t: nat)
    ensures t <= if n < 0 then 0 else n
    decreases n
  {
    if n <= 0 then 0 else CountAlong(g, sr, sc, d, n - 1, f) + B2I(f(CellAt(g, sr, sc, d, n)))
  }

  /** Cells whose items a slide of `k` steps collects: all of them, except a mine it ends on. */
  function Collected(k: int, hitMine: bool): int {
    if hitMine then k - 1 else k
  }

  /** The first `k` steps are open, and none before the last is a mine or a stop. */
  ghost predicate Travels(g: Grid, sr: int, sc: int, d: Direction, k: int) {
    && 0 <= k
    && (forall i :: 1 <= i <= k ==> Open(g, sr, sc, d, i))
    && (forall i :: 1 <= i < k ==> !CellAt(g, sr, sc, d, i).mine && !CellAt(g, sr, sc, d, i).stop)
  }

  /** After `k` steps `res` stands on the end cell: on a mine, on a stop, or in front of a blocked cell. */
  ghost predicate Halts(g: Grid, sr: int, sc: int, d: Direction, k: int, res: SlideResult) {
    && res.r == RowAt(sr, d, k) && res.c == ColAt(sc, d, k)
    && (res.hitMine <==> 1 <= k && CellAt(g, sr, sc, d, k).mine)
    && (!res.hitMine ==> (1 <= k && CellAt(g, sr, sc, d, k).stop) || !Open(g, sr, sc, d, k + 1))
  }

  /** The counts of `res` cover the cells a slide of `k` steps collects. */
  ghost predicate Tallies(g: Grid, sr: int, sc: int, d: Direction, k: int, res: SlideResult) {
    && res.gems == CountAlong(g, sr, sc, d, Collected(k, res.hitMine), IsGem)
    && res.shields == CountAlong(g, sr, sc, d, Collected(k, res.hitMine), IsShield)
  }

  /**
   `res` is the outcome of sliding exactly `k` steps: every cell stepped onto is open,
   none before the last is a mine or a stop, the slide ends on a mine, on a stop, or
   in front of a blocked cell, and the counts cover the cells collected.
   */
  ghost predicate IsSlide(g: Grid, sr: int, sc: int, d: Direction, k: int, res: SlideResult) {
    Travels(g, sr, sc, d, k) && Halts(g, sr, sc, d, k, res) && Tallies(g, sr, sc, d, k, res)
  }

  /** The grid after consuming the items of the first `m` cells along the ray. */
  function ClearAlong(g: Grid, sr: int, sc: int, d: Direction, m: int): (h: Grid)
    ensures SameShape(g, h)
    decreases m
  {
    if m <= 0 then g
    else
      var h := ClearAlong(g, sr, sc, d, m - 1);
      var r := RowAt(sr, d, m);
      var c := ColAt(sc, d, m);
      if InBounds(h, r, c) then SetCell(h, r, c, Consume(h[r][c])) else h
  }

  /** A cell that is none of the first `m` cells of the ray keeps its contents. */
  lemma {:induction false} ClearAlongOff(g: Grid, sr: int, sc: int, d: Direction, m: int, r: int, c: int)
    requires InBounds(g, r, c)
    requires forall i :: 1 <= i <= m ==> (RowAt(sr, d, i), ColAt(sc, d, i)) != (r, c)
    ensures ClearAlong(g, sr, sc, d, m)[r][c] == g[r][c]
    decreases m
  {
    if m > 0 {
      ClearAlongOff(g, sr, sc, d, m - 1, r, c);
    }
  }

  /** Each of the first `m` cells of the ray, when on the grid, has its items consumed. */
  lemma {:induction false} ClearAlongOn(g: Grid, sr: int, sc: int, d: Direction, m: int, i: int)
    requires 1 <= i <= m
    requires InBounds(g, RowAt(sr, d, i), ColAt(sc, d, i))
    ensures ClearAlong(g, sr, sc, d, m)[RowAt(sr, d, i)][ColAt(sc, d, i)]
            == Consume(g[RowAt(sr, d, i)][ColAt(sc, d, i)])
    decreases m
  {
    var r, c := RowAt(sr, d, i), ColAt(sc, d, i);
    if i == m {
      forall j | 1 <= j <= m - 1
        ensures (RowAt(sr, d, j), ColAt(sc, d, j)) != (r, c)
      {
        PosInjective(sr, sc, d, j, i);
      }
      ClearAlongOff(g, sr, sc, d, m - 1, r, c);
    } else {
      ClearAlongOn(g, sr, sc, d, m - 1, i);
      PosInjective(sr, sc, d, m, i);
    }
  }

  /**
   Consuming the first `m` cells of an open ray removes from the grid exactly the
   items counted along it.
   */
  lemma {:induction false} ClearAlongCount(g: Grid, sr: int, sc: int, d: Direction, m: int, f: Cell -> bool)
    requires forall i :: 1 <= i <= m ==> Open(g, sr, sc, d, i)
    requires forall x :: !f(Consume(x))
    ensures GridCount(ClearAlong(g, sr, sc, d, m), f) + CountAlong(g, sr, sc, d, m, f) == GridCount(g, f)
    decreases m
  {
    if m > 0 {
      ClearAlongCount(g, sr, sc, d, m - 1, f);
      var h := ClearAlong(g, sr, sc, d, m - 1);
      var r, c := RowAt(sr, d, m), ColAt(sc, d, m);
      assert Open(g, sr, sc, d, m);
      forall j | 1 <= j <= m - 1
        ensures (RowAt(sr, d, j), ColAt(sc, d, j)) != (r, c)
      {
        PosInjective(sr, sc, d, j, m);
      }
      ClearAlongOff(g, sr, sc, d, m - 1, r, c);
      GridCountUpdate(h, r, c, Consume(h[r][c]), f);
    }
  }

  // ---------------------------------------------------------------------------
  // The stepping loop meets the reference description.

  /** The first `j` steps are open and neither a mine nor a stop: the walk passes over them. */
  ghost predicate Prefix(g: Grid, sr: int, sc: int, d: Direction, j: int) {
    forall i :: 1 <= i <= j ==> Open(g, sr, sc, d, i) && !CellAt(g, sr, sc, d, i).mine && !CellAt(g, sr, sc, d, i).stop
  }

  /** The loop resumed after `j` steps, on grid `h`, with the items of those steps counted. */
  function Resume(g: Grid, sr: int, sc: int, d: Direction, mutate: bool, j: int, h: Grid): SlideOutcome {
    Walk(h, RowAt(sr, d, j), ColAt(sc, d, j), d, mutate,
         CountAlong(g, sr, sc, d, j, IsGem), CountAlong(g, sr, sc, d, j, IsShield))
  }

  lemma BlockedCase(g: Grid, sr: int, sc: int, d: Direction, j: nat)
    requires Prefix(g, sr, sc, d, j) && !Open(g, sr, sc, d, j + 1)
    ensures IsSlide(g, sr, sc, d, j, SlideResult(RowAt(sr, d, j), ColAt(sc, d, j),
                    CountAlong(g, sr, sc, d, j, IsGem), CountAlong(g, sr, sc, d, j, IsShield), false))
  {
    PrefixPath(g, sr, sc, d, j);
  }

  /** The steps of a prefix are open, and none of them is a mine or a stop. */
  lemma PrefixPath(g: Grid, sr: int, sc: int, d: Direction, j: nat)
    requires Prefix(g, sr, sc, d, j)
    ensures forall i :: 1 <= i <= j ==> Open(g, sr, sc, d, i)
    ensures forall i :: 1 <= i < j ==> !CellAt(g, sr, sc, d, i).mine && !CellAt(g, sr, sc, d, i).stop
    ensures 1 <= j ==> !CellAt(g, sr, sc, d, j).mine && !CellAt(g, sr, sc, d, j).stop
  {
  }

  lemma MineCase(g: Grid, sr: int, sc: int, d: Direction, j: nat)
    requires Prefix(g, sr, sc, d, j) && Open(g, sr, sc, d, j + 1) && CellAt(g, sr, sc, d, j + 1).mine
    ensures IsSlide(g, sr, sc, d, j + 1, SlideResult(RowAt(sr, d, j + 1), ColAt(sc, d, j + 1),
                    CountAlong(g, sr, sc, d, j, IsGem), CountAlong(g, sr, sc, d, j, IsShield), true))
  {
    assert forall i :: 1 <= i <= j ==> Open(g, sr, sc, d, i);
    assert forall i :: 1 <= i <= j ==> !CellAt(g, sr, sc, d, i).mine && !CellAt(g, sr, sc, d, i).stop;
  }

  lemma StopCase(g: Grid, sr: int, sc: int, d: Direction, j: nat)
    requires Prefix(g, sr, sc, d, j) && Open(g, sr, sc, d, j + 1)
    requires !CellAt(g, sr, sc, d, j + 1).mine && CellAt(g, sr, sc, d, j + 1).stop
    ensures IsSlide(g, sr, sc, d, j + 1, SlideResult(RowAt(sr, d, j + 1), ColAt(sc, d, j + 1),
                    CountAlong(g, sr, sc, d, j + 1, IsGem), CountAlong(g, sr, sc, d, j + 1, IsShield), false))
  {
    assert forall i :: 1 <= i <= j ==> Open(g, sr, sc, d, i);
    assert forall i :: 1 <= i <= j ==> !CellAt(g, sr, sc, d, i).mine && !CellAt(g, sr, sc, d, i).stop;
  }

  /** The loop stops in front of a cell that is off the grid or a wall. */
  lemma ResumeBlocked(g: Grid, sr: int, sc: int, d: Direction, mutate: bool, j: int, h: Grid)
    requires SameShape(g, h)
    requires !Open(g, sr, sc, d, j + 1)
    requires InBounds(g, RowAt(sr, d, j + 1), ColAt(sc, d, j + 1)) ==>
             h[RowAt(sr, d, j + 1)][ColAt(sc, d, j + 1)] == g[RowAt(sr, d, j + 1)][ColAt(sc, d, j + 1)]
    ensures Resume(g, sr, sc, d, mutate, j, h)
            == SlideOutcome(SlideResult(RowAt(sr, d, j), ColAt(sc, d, j),
                            CountAlong(g, sr, sc, d, j, IsGem), CountAlong(g, sr, sc, d, j, IsShield), false), h)
  {
    PosStep(sr, sc, d, j);
  }

  /** The loop stops on a mine without counting it. */
  lemma ResumeMine(g: Grid, sr: int, sc: int, d: Direction, mutate: bool, j: int, h: Grid)
    requires SameShape(g, h)
    requires Open(g, sr, sc, d, j + 1)
    requires var nr, nc := RowAt(sr, d, j + 1), ColAt(sc, d, j + 1);
             h[nr][nc] == g[nr][nc] && g[nr][nc].mine
    ensures Resume(g, sr, sc, d, mutate, j, h)
            == SlideOutcome(SlideResult(RowAt(sr, d, j + 1), ColAt(sc, d, j + 1),
                            CountAlong(g, sr, sc, d, j, IsGem), CountAlong(g, sr, sc, d, j, IsShield), true), h)
  {
    PosStep(sr, sc, d, j);
  }

  /** Consuming the next cell extends the consumed prefix by one step. */
  lemma ClearAlongStep(g: Grid, sr: int, sc: int, d: Direction, mutate: bool, j: int, h: Grid)
    requires 0 <= j
    requires h == if mutate then ClearAlong(g, sr, sc, d, j) else g
    requires InBounds(g, RowAt(sr, d, j + 1), ColAt(sc, d, j + 1))
    ensures mutate ==> After(h, sr, sc, d, mutate, j) == ClearAlong(g, sr, sc, d, j + 1)
    ensures !mutate ==> After(h, sr, sc, d, mutate, j) == g
  {
    if mutate {
      var nr, nc := RowAt(sr, d, j + 1), ColAt(sc, d, j + 1);
      assert ClearAlong(g, sr, sc, d, j + 1) == (if InBounds(h, nr, nc) then SetCell(h, nr, nc, Consume(h[nr][nc])) else h);
    }
  }

  /** The grid the loop carries on with after passing the cell `j + 1` steps away. */
  function After(h: Grid, sr: int, sc: int, d: Direction, mutate: bool, j: int): Grid
    requires InBounds(h, RowAt(sr, d, j + 1), ColAt(sc, d, j + 1))
  {
    var nr, nc := RowAt(sr, d, j + 1), ColAt(sc, d, j + 1);
    if mutate then SetCell(h, nr, nc, Consume(h[nr][nc])) else h
  }

  /** The loop stops on a stop marker after collecting its items. */
  lemma ResumeStop(g: Grid, sr: int, sc: int, d: Direction, mutate: bool, j: int, h: Grid)
    requires 0 <= j
    requires SameShape(g, h)
    requires Open(g, sr, sc, d, j + 1)
    requires var nr, nc := RowAt(sr, d, j + 1), ColAt(sc, d, j + 1);
             h[nr][nc] == g[nr][nc] && !g[nr][nc].mine && g[nr][nc].stop
    ensures Resume(g, sr, sc, d, mutate, j, h)
            == SlideOutcome(SlideResult(RowAt(sr, d, j + 1), ColAt(sc, d, j + 1),
                            CountAlong(g, sr, sc, d, j + 1, IsGem), CountAlong(g, sr, sc, d, j + 1, IsShield), false),
                            After(h, sr, sc, d, mutate, j))
  {
    PassCell(g, sr, sc, d, j, h);
  }

  /** One pass of the loop over an open cell that is neither a mine nor a stop. */
  lemma ResumeStep(g: Grid, sr: int, sc: int, d: Direction, mutate: bool, j: int, h: Grid)
    requires 0 <= j
    requires SameShape(g, h)
    requires Open(g, sr, sc, d, j + 1)
    requires var nr, nc := RowAt(sr, d, j + 1), ColAt(sc, d, j + 1);
             h[nr][nc] == g[nr][nc] && !g[nr][nc].mine && !g[nr][nc].stop
    ensures Resume(g, sr, sc, d, mutate, j, h) == Resume(g, sr, sc, d, mutate, j + 1, After(h, sr, sc, d, mutate, j))
  {
    PassCell(g, sr, sc, d, j, h);
  }

  /** Passing the open cell `j + 1` steps away adds its items to the counts. */
  lemma PassCell(g: Grid, sr: int, sc: int, d: Direction, j: int, h: Grid)
    requires 0 <= j
    requires SameShape(g, h)
    requires Open(g, sr, sc, d, j + 1)
    requires h[RowAt(sr, d, j + 1)][ColAt(sc, d, j + 1)] == g[RowAt(sr, d, j + 1)][ColAt(sc, d, j + 1)]
    ensures RowAt(sr, d, j) + Dx(d) == RowAt(sr, d, j + 1) && ColAt(sc, d, j) + Dy(d) == ColAt(sc, d, j + 1)
    ensures var x := h[RowAt(sr, d, j + 1)][ColAt(sc, d, j + 1)];
            && CountAlong(g, sr, sc, d, j + 1, IsGem) == CountAlong(g, sr, sc, d, j, IsGem) + B2I(x.gem)
            && CountAlong(g, sr, sc, d, j + 1, IsShield) == CountAlong(g, sr, sc, d, j, IsShield) + B2I(x.shield)
  {
    PosStep(sr, sc, d, j);
  }

  /** The cell ahead of the walk is not among those consumed so far. */
  lemma AheadUntouched(g: Grid, sr: int, sc: int, d: Direction, mutate: bool, j: nat, h: Grid)
    requires h == if mutate then ClearAlong(g, sr, sc, d, j) else g
    ensures SameShape(g, h)
    ensures var nr, nc := RowAt(sr, d, j + 1), ColAt(sc, d, j + 1);
            InBounds(g, nr, nc) ==> h[nr][nc] == g[nr][nc]
  {
    var nr, nc := RowAt(sr, d, j + 1), ColAt(sc, d, j + 1);
    if InBounds(g, nr, nc) {
      forall i | 1 <= i <= j
        ensures (RowAt(sr, d, i), ColAt(sc, d, i)) != (nr, nc)
      {
        PosInjective(sr, sc, d, i, j + 1);
      }
      if mutate {
        ClearAlongOff(g, sr, sc, d, j, nr, nc);
      }
    }
  }

  /**
   Invariant of the loop: after `j` unobstructed steps, with the items of those
   steps counted (and consumed when mutating), the rest of the walk completes a
   slide of some length `k` from the original start.
   */
  lemma {:induction false} WalkMeetsSpec(g: Grid, sr: int, sc: int, d: Direction, mutate: bool, j: nat, h: Grid)
    returns (k: int)
    requires Prefix(g, sr, sc, d, j)
    requires h == if mutate then ClearAlong(g, sr, sc, d, j) else g
    ensures IsSlide(g, sr, sc, d, k, Resume(g, sr, sc, d, mutate, j, h).result)
    ensures Resume(g, sr, sc, d, mutate, j, h).grid
            == if mutate then ClearAlong(g, sr, sc, d, Collected(k, Resume(g, sr, sc, d, mutate, j, h).result.hitMine)) else g
    decreases Room(g, RowAt(sr, d, j), ColAt(sc, d, j), d)
  {
    var nr, nc := RowAt(sr, d, j + 1), ColAt(sc, d, j + 1);
    if !Open(g, sr, sc, d, j + 1) || g[nr][nc].mine || g[nr][nc].stop {
      k := LastStep(g, sr, sc, d, mutate, j, h);
    } else {
      var h' := NextStep(g, sr, sc, d, mutate, j, h);
      PosStep(sr, sc, d, j);
      RoomDecreases(g, g, RowAt(sr, d, j), ColAt(sc, d, j), d);
      k := WalkMeetsSpec(g, sr, sc, d, mutate, j + 1, h');
    }
  }

  /** A pass over an open cell that is neither a mine nor a stop re-establishes the invariant one step further. */
  lemma NextStep(g: Grid, sr: int, sc: int, d: Direction, mutate: bool, j: nat, h: Grid) returns (h': Grid)
    requires Prefix(g, sr, sc, d, j)
    requires h == if mutate then ClearAlong(g, sr, sc, d, j) else g
    requires var nr, nc := RowAt(sr, d, j + 1), ColAt(sc, d, j + 1);
             Open(g, sr, sc, d, j + 1) && !g[nr][nc].mine && !g[nr][nc].stop
    ensures Prefix(g, sr, sc, d, j + 1)
    ensures h' == if mutate then ClearAlong(g, sr, sc, d, j + 1) else g
    ensures Resume(g, sr, sc, d, mutate, j, h) == Resume(g, sr, sc, d, mutate, j + 1, h')
  {
    AheadUntouched(g, sr, sc, d, mutate, j, h);
    ClearAlongStep(g, sr, sc, d, mutate, j, h);
    ResumeStep(g, sr, sc, d, mutate, j, h);
    h' := After(h, sr, sc, d, mutate, j);
  }

  /** The walk's final pass: the cell ahead is blocked, a mine or a stop. */
  lemma LastStep(g: Grid, sr: int, sc: int, d: Direction, mutate: bool, j: nat, h: Grid) returns (k: int)
    requires Prefix(g, sr, sc, d, j)
    requires h == if mutate then ClearAlong(g, sr, sc, d, j) else g
    requires var nr, nc := RowAt(sr, d, j + 1), ColAt(sc, d, j + 1);
             !Open(g, sr, sc, d, j + 1) || g[nr][nc].mine || g[nr][nc].stop
    ensures IsSlide(g, sr, sc, d, k, Resume(g, sr, sc, d, mutate, j, h).result)
    ensures Resume(g, sr, sc, d, mutate, j, h).grid
            == if mutate then ClearAlong(g, sr, sc, d, Collected(k, Resume(g, sr, sc, d, mutate, j, h).result.hitMine)) else g
  {
    var nr, nc := RowAt(sr, d, j + 1), ColAt(sc, d, j + 1);
    if !Open(g, sr, sc, d, j + 1) {
      LastStepBlocked(g, sr, sc, d, mutate, j, h);
      k := j;
    } else if g[nr][nc].mine {
      LastStepMine(g, sr, sc, d, mutate, j, h);
      k := j + 1;
    } else {
      LastStepStop(g, sr, sc, d, mutate, j, h);
      k := j + 1;
    }
  }

  /** The final pass in front of a blocked cell: `j` steps, the grid as it was. */
  lemma LastStepBlocked(g: Grid, sr: int, sc: int, d: Direction, mutate: bool, j: nat, h: Grid)
    requires Prefix(g, sr, sc, d, j)
    requires h == if mutate then ClearAlong(g, sr, sc, d, j) else g
    requires !Open(g, sr, sc, d, j + 1)
    ensures var o := Resume(g, sr, sc, d, mutate, j, h);
            && IsSlide(g, sr, sc, d, j, o.result)
            && o.grid == if mutate then ClearAlong(g, sr, sc, d, Collected(j, o.result.hitMine)) else g
  {
    AheadUntouched(g, sr, sc, d, mutate, j, h);
    ResumeBlocked(g, sr, sc, d, mutate, j, h);
    BlockedCase(g, sr, sc, d, j);
  }

  /** The final pass onto a mine: `j + 1` steps, the mine left in place. */
  lemma LastStepMine(g: Grid, sr: int, sc: int, d: Direction, mutate: bool, j: nat, h: Grid)
    requires Prefix(g, sr, sc, d, j)
    requires h == if mutate then ClearAlong(g, sr, sc, d, j) else g
    requires Open(g, sr, sc, d, j + 1) && CellAt(g, sr, sc, d, j + 1).mine
    ensures var o := Resume(g, sr, sc, d, mutate, j, h);
            && IsSlide(g, sr, sc, d, j + 1, o.result)
            && o.grid == if mutate then ClearAlong(g, sr, sc, d, Collected(j + 1, o.result.hitMine)) else g
  {
    AheadUntouched(g, sr, sc, d, mutate, j, h);
    ResumeMine(g, sr, sc, d, mutate, j, h);
    MineCase(g, sr, sc, d, j);
  }

  /** The final pass onto a stop marker: `j + 1` steps, the marker's items collected. */
  lemma LastStepStop(g: Grid, sr: int, sc: int, d: Direction, mutate: bool, j: nat, h: Grid)
    requires Prefix(g, sr, sc, d, j)
    requires h == if mutate then ClearAlong(g, sr, sc, d, j) else g
    requires Open(g, sr, sc, d, j + 1) && !CellAt(g, sr, sc, d, j + 1).mine && CellAt(g, sr, sc, d, j + 1).stop
    ensures var o := Resume(g, sr, sc, d, mutate, j, h);
            && IsSlide(g, sr, sc, d, j + 1, o.result)
            && o.grid == if mutate then ClearAlong(g, sr, sc, d, Collected(j + 1, o.result.hitMine)) else g
  {
    AheadUntouched(g, sr, sc, d, mutate, j, h);
    ClearAlongStep(g, sr, sc, d, mutate, j, h);
    ResumeStop(g, sr, sc, d, mutate, j, h);
    StopCase(g, sr, sc, d, j);
  }

  /** Every slide is described by `IsSlide` for some step count, and consumes exactly the collected cells. */
  lemma SlideMeetsSpec(g: Grid, sr: int, sc: int, d: Direction, mutate: bool) returns (k: nat)
    ensures IsSlide(g, sr, sc, d, k, Slide(g, sr, sc, d, mutate).result)
    ensures Slide(g, sr, sc, d, mutate).grid
            == if mutate then ClearAlong(g, sr, sc, d, Collected(k, Slide(g, sr, sc, d, mutate).result.hitMine)) else g
  {
    PosStep(sr, sc, d, 0);
    assert Resume(g, sr, sc, d, mutate, 0, g) == Slide(g, sr, sc, d, mutate);
    var k' := WalkMeetsSpec(g, sr, sc, d, mutate, 0, g);
    k := k';
  }

  /** The reference description determines the slide: its step count and its result. */
  lemma IsSlideUnique(g: Grid, sr: int, sc: int, d: Direction, k1: int, res1: SlideResult, k2: int, res2: SlideResult)
    requires IsSlide(g, sr, sc, d, k1, res1) && IsSlide(g, sr, sc, d, k2, res2)
    ensures k1 == k2 && res1 == res2
  {
    // Mention the cell after each end so that the longer slide's openness applies to it.
    var next1, next2 := Open(g, sr, sc, d, k1 + 1), Open(g, sr, sc, d, k2 + 1);
  }

  // ---------------------------------------------------------------------------
  // Consequences used by the board engine and the opponent.

  /** Consuming items does not change where a slide ends or what it counts. */
  lemma SlideIgnoresMutate(g: Grid, sr: int, sc: int, d: Direction)
    ensures Slide(g, sr, sc, d, true).result == Slide(g, sr, sc, d, false).result
  {
    var k1 := SlideMeetsSpec(g, sr, sc, d, true);
    var k2 := SlideMeetsSpec(g, sr, sc, d, false);
    IsSlideUnique(g, sr, sc, d, k1, Slide(g, sr, sc, d, true).result, k2, Slide(g, sr, sc, d, false).result);
  }

  /** A slide that does not consume leaves the grid as it was. */
  lemma SlideWithoutMutateKeepsGrid(g: Grid, sr: int, sc: int, d: Direction)
    ensures Slide(g, sr, sc, d, false).grid == g
  {
    var _ := SlideMeetsSpec(g, sr, sc, d, false);
  }

  /**
   From a cell of the grid, a slide ends on the grid, `k` steps along the ray, and
   every cell it stepped onto, its end cell included, is not a wall.
   */
  lemma SlideStaysOnGrid(g: Grid, sr: int, sc: int, d: Direction, mutate: bool) returns (k: nat)
    requires InBounds(g, sr, sc)
    ensures var res := Slide(g, sr, sc, d, mutate).result;
            && res.r == sr + k * Dx(d) && res.c == sc + k * Dy(d)
            && InBounds(g, res.r, res.c)
            && (forall i :: 1 <= i <= k ==> InBounds(g, RowAt(sr, d, i), ColAt(sc, d, i))
                                            && !g[RowAt(sr, d, i)][ColAt(sc, d, i)].wall)
  {
    k := SlideMeetsSpec(g, sr, sc, d, mutate);
    PosStep(sr, sc, d, 0);
    forall i | 1 <= i <= k
      ensures InBounds(g, RowAt(sr, d, i), ColAt(sc, d, i)) && !g[RowAt(sr, d, i)][ColAt(sc, d, i)].wall
    {
      assert Open(g, sr, sc, d, i);
    }
  }

  /** A slide that moved ends on a cell that is not a wall. */
  lemma SlideEndNotWall(g: Grid, sr: int, sc: int, d: Direction, mutate: bool)
    requires InBounds(g, sr, sc)
    ensures var res := Slide(g, sr, sc, d, mutate).result;
            InBounds(g, res.r, res.c) && ((res.r, res.c) != (sr, sc) ==> !g[res.r][res.c].wall)
  {
    var k := SlideStaysOnGrid(g, sr, sc, d, mutate);
    if k == 0 {
      PosStep(sr, sc, d, 0);
    } else {
      assert !g[RowAt(sr, d, k)][ColAt(sc, d, k)].wall;
    }
  }

  /**
   A slide stays where it started without hitting a mine exactly when its first
   step is off the grid or into a wall; it then reports nothing and changes nothing.
   */
  lemma NoMoveIffBlocked(g: Grid, sr: int, sc: int, d: Direction, mutate: bool)
    ensures var o := Slide(g, sr, sc, d, mutate);
            (o.result.r == sr && o.result.c == sc && !o.result.hitMine) <==> !Open(g, sr, sc, d, 1)
    ensures var o := Slide(g, sr, sc, d, mutate);
            !Open(g, sr, sc, d, 1) ==> o.result == SlideResult(sr, sc, 0, 0, false) && o.grid == g
  {
    var k := SlideMeetsSpec(g, sr, sc, d, mutate);
    PosStep(sr, sc, d, 0);
    if k >= 1 {
      PosInjective(sr, sc, d, k, 0);
      assert Open(g, sr, sc, d, 1);
    }
  }

  /** On a mine hit the slide ends on the mine, which it did not count. */
  lemma MineEndsSlide(g: Grid, sr: int, sc: int, d: Direction, mutate: bool)
    ensures var res := Slide(g, sr, sc, d, mutate).result;
            res.hitMine ==> InBounds(g, res.r, res.c) && g[res.r][res.c].mine && !g[res.r][res.c].wall
                            && (res.r, res.c) != (sr, sc)
  {
    var k := SlideMeetsSpec(g, sr, sc, d, mutate);
    var res := Slide(g, sr, sc, d, mutate).result;
    if res.hitMine {
      assert Open(g, sr, sc, d, k);
      PosStep(sr, sc, d, 0);
      PosInjective(sr, sc, d, k, 0);
    }
  }

  /** The cells a consuming slide walked over and collected from. */
  ghost predicate Traversed(sr: int, sc: int, d: Direction, m: int, r: int, c: int) {
    exists i :: 1 <= i <= m && RowAt(sr, d, i) == r && ColAt(sc, d, i) == c
  }

  /**
   A consuming slide clears the gem and shield flags of exactly the cells it
   collected from (the cells stepped onto, minus a mine it ended on); every other
   cell, and every other flag, is unchanged.
   */
  lemma ConsumingSlideClearsPath(g: Grid, sr: int, sc: int, d: Direction) returns (k: nat)
    ensures IsSlide(g, sr, sc, d, k, Slide(g, sr, sc, d, true).result)
    ensures var o := Slide(g, sr, sc, d, true);
            && SameShape(g, o.grid)
            && forall r, c :: InBounds(g, r, c) ==>
                 o.grid[r][c] == if Traversed(sr, sc, d, Collected(k, o.result.hitMine), r, c)
                                 then Consume(g[r][c]) else g[r][c]
  {
    k := SlideMeetsSpec(g, sr, sc, d, true);
    var o := Slide(g, sr, sc, d, true);
    var m := Collected(k, o.result.hitMine);
    forall r, c | InBounds(g, r, c)
      ensures o.grid[r][c] == if Traversed(sr, sc, d, m, r, c) then Consume(g[r][c]) else g[r][c]
    {
      if Traversed(sr, sc, d, m, r, c) {
        var i :| 1 <= i <= m && RowAt(sr, d, i) == r && ColAt(sc, d, i) == c;
        ClearAlongOn(g, sr, sc, d, m, i);
      } else {
        ClearAlongOff(g, sr, sc, d, m, r, c);
      }
    }
  }

  /** A consuming slide removes from the grid exactly the gems and shields it reports. */
  lemma SlideConservesItems(g: Grid, sr: int, sc: int, d: Direction)
    ensures var o := Slide(g, sr, sc, d, true);
            && GridCount(o.grid, IsGem) + o.result.gems == GridCount(g, IsGem)
            && GridCount(o.grid, IsShield) + o.result.shields == GridCount(g, IsShield)
  {
    var k := SlideMeetsSpec(g, sr, sc, d, true);
    var o := Slide(g, sr, sc, d, true);
    var m := Collected(k, o.result.hitMine);
    assert forall i :: 1 <= i <= m ==> Open(g, sr, sc, d, i);
    ClearAlongCount(g, sr, sc, d, m, IsGem);
    ClearAlongCount(g, sr, sc, d, m, IsShield);
  }

  /** Grids with the same terrain agree, step by step along a ray, on what is open and what is a mine or a stop. */
  lemma TerrainAlong(g: Grid, h: Grid, sr: int, sc: int, d: Direction, i: int)
    requires SameTerrain(g, h)
    ensures Open(g, sr, sc, d, i) == Open(h, sr, sc, d, i)
    ensures Open(g, sr, sc, d, i) ==> CellAt(g, sr, sc, d, i).mine == CellAt(h, sr, sc, d, i).mine
                                      && CellAt(g, sr, sc, d, i).stop == CellAt(h, sr, sc, d, i).stop
  {
    var r, c := RowAt(sr, d, i), ColAt(sc, d, i);
    if InBounds(g, r, c) {
      assert InBounds(h, r, c);
    }
  }

  /** Grids with the same terrain send a non-consuming slide to the same end and mine outcome. */
  lemma SlideTerrain(g: Grid, h: Grid, sr: int, sc: int, d: Direction)
    requires SameTerrain(g, h)
    ensures var a, b := Slide(g, sr, sc, d, false).result, Slide(h, sr, sc, d, false).result;
            a.r == b.r && a.c == b.c && a.hitMine == b.hitMine
  {
    var ka := SlideMeetsSpec(g, sr, sc, d, false);
    var kb := SlideMeetsSpec(h, sr, sc, d, false);
    IsSlideTerrain(g, h, sr, sc, d, ka, Slide(g, sr, sc, d, false).result, kb, Slide(h, sr, sc, d, false).result);
  }

  /** Slides described on grids with the same terrain take the same steps and end alike. */
  lemma IsSlideTerrain(g: Grid, h: Grid, sr: int, sc: int, d: Direction, ka: int, a: SlideResult, kb: int, b: SlideResult)
    requires SameTerrain(g, h) && IsSlide(g, sr, sc, d, ka, a) && IsSlide(h, sr, sc, d, kb, b)
    ensures ka == kb && a.r == b.r && a.c == b.c && a.hitMine == b.hitMine
  {
    TerrainAlong(g, h, sr, sc, d, ka);
    TerrainAlong(g, h, sr, sc, d, kb);
    TerrainAlong(g, h, sr, sc, d, ka + 1);
    TerrainAlong(g, h, sr, sc, d, kb + 1);
  }
}

=== FILE: tactics.dfy ===
/**
 The opponent's shared helpers: simulated slides, which moves are deadly or
 valid, the hypothetical shield count after a slide, the four direction groups,
 and the scores of a position and of a move.

 The opponent only ever simulates slides without consuming items, so every helper
 is a pure function of the grid.
 */
module Tactics {

  import opened Compass
  import opened Grids
  import opened Slides
  import opened Game
  import opened Regions

  /** The result of a non-consuming slide from `(r, c)` in direction `d`. */
  function Sim(g: Grid, r: int, c: int, d: Direction): SlideResult {
    Slide(g, r, c, d, false).result
  }

  /** A slide is deadly when it ends on a mine and no shield is held. */
  predicate IsDeadlyMove(res: SlideResult, shields: int) {
    res.hitMine && shields == 0
  }

  /**
   The shields held after a simulated slide: those picked up are added, and a mine
   then takes one of them if there is any.
   */
  function AdjustShields(res: SlideResult, shields: int): (next: int)
    ensures shields >= 0 ==> next >= 0
    ensures !res.hitMine ==> next == shields + res.shields
    ensures res.hitMine ==> next == if shields + res.shields > 0 then shields + res.shields - 1 else shields + res.shields
  {
    var next := shields + res.shields;
    if res.hitMine && next > 0 then next - 1 else next
  }

  /**
   The hypothetical shield count is what a real move leaves the mover with, whenever
   that move neither stays put nor ends the game.
   */
  lemma AdjustShieldsMatchesMove(b: Board, side: Side, d: Direction)
    requires var p := PlayerOf(b, side);
             var o := Move(b, side, d);
             !o.board.gameOver && (PlayerOf(o.board, side).row, PlayerOf(o.board, side).col) != (p.row, p.col)
    ensures var p := PlayerOf(b, side);
            PlayerOf(Move(b, side, d).board, side).shields == AdjustShields(Sim(b.grid, p.row, p.col, d), p.shields)
  {
    var p := PlayerOf(b, side);
    SlideIgnoresMutate(b.grid, p.row, p.col, d);
    MoveMineOutcome(b, side, d);
  }

  /** A direction the opponent may take: its slide moves and is not deadly. */
  predicate ValidMove(g: Grid, r: int, c: int, shields: int, d: Direction) {
    var res := Sim(g, r, c, d);
    !IsDeadlyMove(res, shields) && (res.r != r || res.c != c)
  }

  /** For a non-negative shield count, valid moves are exactly the board's safe moves. */
  lemma ValidMoveIsSurvivable(g: Grid, r: int, c: int, shields: int, d: Direction)
    requires shields >= 0
    ensures ValidMove(g, r, c, shields, d) <==> Survivable(g, r, c, shields, d)
  {
  }

  /** Directions listed in strictly increasing enumeration order. */
  predicate Increasing(ds: seq<Direction>) {
    forall i, j :: 0 <= i < j < |ds| ==> Ordinal(ds[i]) < Ordinal(ds[j])
  }

  /** The valid directions among `ds`, in their order. */
  function ValidAmong(g: Grid, r: int, c: int, shields: int, ds: seq<Direction>): (vs: seq<Direction>)
    requires Increasing(ds)
    ensures forall d :: d in vs <==> d in ds && ValidMove(g, r, c, shields, d)
    ensures Increasing(vs)
  {
    if ds == [] then []
    else
      var rest := ValidAmong(g, r, c, shields, ds[1..]);
      if ValidMove(g, r, c, shields, ds[0]) then
        assert forall k :: 0 <= k < |rest| ==> Ordinal(ds[0]) < Ordinal(rest[k]) by {
          forall k | 0 <= k < |rest|
            ensures Ordinal(ds[0]) < Ordinal(rest[k])
          {
            assert rest[k] in ds[1..];
            var m :| 0 <= m < |ds[1..]| && ds[1..][m] == rest[k];
            assert ds[m + 1] == rest[k];
          }
        }
        [ds[0]] + rest
      else rest
  }

  /** The enumeration itself is in increasing order. */
  lemma EnumerationIncreasing()
    ensures Increasing(AllDirections)
  {
    EnumerationComplete();
    forall i | 0 <= i < |AllDirections|
      ensures Ordinal(AllDirections[i]) == i
    {
      var o := Ordinal(AllDirections[i]);
      assert AllDirections[o] == AllDirections[i];
    }
  }

  /** The valid directions from `(r, c)`, in enumeration order. */
  function ValidMoves(g: Grid, r: int, c: int, shields: int): (vs: seq<Direction>)
    ensures forall d :: d in vs <==> ValidMove(g, r, c, shields, d)
    ensures Increasing(vs)
  {
    EnumerationComplete();
    EnumerationIncreasing();
    ValidAmong(g, r, c, shields, AllDirections)
  }

  /** The groups the medium search divides directions into. */
  datatype Group = North | South | West | East | Diagonal

  /** Group of a direction, decided on the row delta first and then on the column delta. */
  function DirectionGroup(d: Direction): (grp: Group)
    ensures grp == North <==> Dx(d) == -1
    ensures grp == South <==> Dx(d) == 1
    ensures grp == West <==> Dx(d) == 0 && Dy(d) == -1
    ensures grp == East <==> Dx(d) == 0 && Dy(d) == 1
    ensures grp != Diagonal
  {
    if Dx(d) == -1 then North
    else if Dx(d) == 1 then South
    else if Dy(d) == -1 then West
    else if Dy(d) == 1 then East
    else
      DeltaNonZero(d);
      Diagonal
  }

  // ---------------------------------------------------------------------------
  // Scores.

  /** What a neighbouring cell adds to a position's score. */
  function NeighbourScore(x: Cell): (s: int)
    ensures -75 <= s <= 75
  {
    (if x.gem then 50 else 0) + (if x.shield then 25 else 0) - (if x.mine then 75 else 0)
  }

  /** The neighbour scores of `(r, c)` over the directions `ds`, skipping those off the grid. */
  function NeighbourSum(g: Grid, r: int, c: int, ds: seq<Direction>): (s: int)
    ensures -75 * |ds| <= s <= 75 * |ds|
  {
    if ds == [] then 0
    else
      var last := ds[|ds| - 1];
      var nr, nc := r + Dx(last), c + Dy(last);
      NeighbourSum(g, r, c, ds[..|ds| - 1]) + (if InBounds(g, nr, nc) then NeighbourScore(g[nr][nc]) else 0)
  }

  /**
   The static score of a position: +50 per neighbouring gem, +25 per neighbouring
   shield, −75 per neighbouring mine, plus the region bonus.
   */
  function EvaluatePosition(g: Grid, p: Policy, r: int, c: int): (s: int)
    ensures -600 <= s - RegionBonus(g, p, r, c) <= 600
  {
    NeighbourSum(g, r, c, AllDirections) + RegionBonus(g, p, r, c)
  }

  /** The items a neighbour can carry that the position score counts. */
  datatype Item = Gem | Shield | Mine

  function Has(x: Cell, i: Item): bool {
    match i
    case Gem => x.gem
    case Shield => x.shield
    case Mine => x.mine
  }

  /** The directions of `ds` whose neighbour of `(r, c)` is on the grid and carries `i`. */
  ghost function NeighboursWith(g: Grid, r: int, c: int, ds: seq<Direction>, i: Item): set<Direction> {
    set d | d in ds && Carries(g, r, c, d, i)
  }

  /** The neighbour of `(r, c)` in direction `d` is on the grid and carries `i`. */
  predicate Carries(g: Grid, r: int, c: int, d: Direction, i: Item) {
    InBounds(g, r + Dx(d), c + Dy(d)) && Has(g[r + Dx(d)][c + Dy(d)], i)
  }

  /**
   The position score counts +50 for each direction whose neighbour holds a gem,
   +25 for each whose neighbour holds a shield and −75 for each whose neighbour holds
   a mine, over the on-grid neighbours, and adds the region bonus.
   */
  lemma EvaluatePositionCounts(g: Grid, p: Policy, r: int, c: int)
    ensures EvaluatePosition(g, p, r, c)
            == 50 * |NeighboursWith(g, r, c, AllDirections, Gem)|
               + 25 * |NeighboursWith(g, r, c, AllDirections, Shield)|
               - 75 * |NeighboursWith(g, r, c, AllDirections, Mine)|
               + RegionBonus(g, p, r, c)
  {
    EnumerationComplete();
    NeighbourSumCounts(g, r, c, AllDirections);
  }

  /** Over a list without repetitions, the neighbour sum counts the directions per item. */
  lemma {:induction false} NeighbourSumCounts(g: Grid, r: int, c: int, ds: seq<Direction>)
    requires forall i, j :: 0 <= i < j < |ds| ==> ds[i] != ds[j]
    ensures NeighbourSum(g, r, c, ds)
            == 50 * |NeighboursWith(g, r, c, ds, Gem)| + 25 * |NeighboursWith(g, r, c, ds, Shield)| - 75 * |NeighboursWith(g, r, c, ds, Mine)|
    decreases |ds|
  {
    if ds != [] {
      var front, last := ds[..|ds| - 1], ds[|ds| - 1];
      NeighbourSumCounts(g, r, c, front);
      LastNotInFront(ds);
      assert ds == front + [last];
      NeighboursWithSnoc(g, r, c, front, last, Gem);
      NeighboursWithSnoc(g, r, c, front, last, Shield);
      NeighboursWithSnoc(g, r, c, front, last, Mine);
      LastNeighbourScore(g, r, c, last);
    }
  }

  /** In a list without repetitions, the last entry does not occur before it. */
  lemma LastNotInFront(ds: seq<Direction>)
    requires ds != [] && forall i, j :: 0 <= i < j < |ds| ==> ds[i] != ds[j]
    ensures ds[|ds| - 1] !in ds[..|ds| - 1]
  {
    var front := ds[..|ds| - 1];
    forall k | 0 <= k < |front|
      ensures front[k] != ds[|ds| - 1]
    {
      assert front[k] == ds[k];
    }
  }

  /** One neighbour's contribution, by the items it carries. */
  lemma LastNeighbourScore(g: Grid, r: int, c: int, d: Direction)
    ensures var nr, nc := r + Dx(d), c + Dy(d);
            (if InBounds(g, nr, nc) then NeighbourScore(g[nr][nc]) else 0)
            == 50 * (if Carries(g, r, c, d, Gem) then 1 else 0) + 25 * (if Carries(g, r, c, d, Shield) then 1 else 0)
               - 75 * (if Carries(g, r, c, d, Mine) then 1 else 0)
  {
  }

  /** Appending a direction not yet listed adds one to the item's count exactly when its neighbour carries the item. */
  lemma NeighboursWithSnoc(g: Grid, r: int, c: int, ds: seq<Direction>, d: Direction, i: Item)
    requires d !in ds
    ensures |NeighboursWith(g, r, c, ds + [d], i)| == |NeighboursWith(g, r, c, ds, i)| + (if Carries(g, r, c, d, i) then 1 else 0)
  {
    NeighboursWithSnocSet(g, r, c, ds, d, i);
    assert d !in NeighboursWith(g, r, c, ds, i);
  }

  lemma NeighboursWithSnocSet(g: Grid, r: int, c: int, ds: seq<Direction>, d: Direction, i: Item)
    ensures NeighboursWith(g, r, c, ds + [d], i) == NeighboursWith(g, r, c, ds, i) + (if Carries(g, r, c, d, i) then {d} else {})
  {
    var lhs := NeighboursWith(g, r, c, ds + [d], i);
    var rhs := NeighboursWith(g, r, c, ds, i) + (if Carries(g, r, c, d, i) then {d} else {});
    forall e | e in lhs ensures e in rhs {
      assert e in ds + [d];
    }
    forall e | e in rhs ensures e in lhs {
      assert e in ds + [d];
    }
  }

  /** A position whose neighbours carry no gem, shield or mine scores just its region bonus. */
  lemma {:induction false} QuietNeighbourhood(g: Grid, r: int, c: int, ds: seq<Direction>)
    requires forall d :: d in ds && InBounds(g, r + Dx(d), c + Dy(d)) ==>
               var x := g[r + Dx(d)][c + Dy(d)]; !x.gem && !x.shield && !x.mine
    ensures NeighbourSum(g, r, c, ds) == 0
    decreases |ds|
  {
    if ds != [] {
      assert forall d :: d in ds[..|ds| - 1] ==> d in ds;
      QuietNeighbourhood(g, r, c, ds[..|ds| - 1]);
    }
  }

  /** The immediate value of a slide: 100 per gem, 50 per shield, plus the region bonus of where it ends. */
  function EvaluateMove(g: Grid, p: Policy, res: SlideResult): (s: int)
    ensures s >= 100 * res.gems + 50 * res.shields - WorstPenalty
    ensures s <= 100 * res.gems + 50 * res.shields + BestBonus
  {
    100 * res.gems + 50 * res.shields + RegionBonus(g, p, res.r, res.c)
  }

  /** Score the easy opponent gives a direction from its current cell. */
  function EvaluateSingleDirection(b: Board, p: Policy, d: Direction): (s: int)
    ensures var res := Sim(b.grid, b.cpu.row, b.cpu.col, d);
            && (IsDeadlyMove(res, b.cpu.shields) ==> s == -1000)
            && (!IsDeadlyMove(res, b.cpu.shields) && res.r == b.cpu.row && res.c == b.cpu.col ==> s == -500)
            && (ValidMove(b.grid, b.cpu.row, b.cpu.col, b.cpu.shields, d) ==> s == EvaluateMove(b.grid, p, res))
  {
    var res := Sim(b.grid, b.cpu.row, b.cpu.col, d);
    if res.hitMine && b.cpu.shields == 0 then -1000
    else if res.r == b.cpu.row && res.c == b.cpu.col then -500
    else 100 * res.gems + 50 * res.shields + RegionBonus(b.grid, p, res.r, res.c)
  }

  /**
   The easy score separates the valid moves from the others: a valid move scores at
   least −40, a deadly one −1000 and one that does not move −500.
   */
  lemma EasyScoreSeparatesValid(b: Board, p: Policy, d: Direction)
    ensures ValidMove(b.grid, b.cpu.row, b.cpu.col, b.cpu.shields, d) <==> EvaluateSingleDirection(b, p, d) >= -WorstPenalty
  {
  }

  /** A slide that meets a mine moves, so a deadly slide is never also a standstill. */
  lemma DeadlySlideMoves(g: Grid, r: int, c: int, d: Direction, shields: int)
    requires IsDeadlyMove(Sim(g, r, c, d), shields)
    ensures (Sim(g, r, c, d).r, Sim(g, r, c, d).c) != (r, c)
  {
    MineEndsSlide(g, r, c, d, false);
  }

  /**
   A valid move is safe to make for real: with the game still running, moving the
   opponent that way neither leaves it where it was nor ends the game.
   */
  lemma ValidMoveIsSafe(b: Board, d: Direction)
    requires !b.gameOver && ValidMove(b.grid, b.cpu.row, b.cpu.col, b.cpu.shields, d)
    ensures var o := Move(b, Cpu, d).board;
            !o.gameOver && (o.cpu.row, o.cpu.col) != (b.cpu.row, b.cpu.col)
  {
    SlideIgnoresMutate(b.grid, b.cpu.row, b.cpu.col, d);
    MoveMineOutcome(b, Cpu, d);
  }
}
